=== FILE: README.md ===
# Certificate evaluator: the conversational state machine

This project models the deterministic core of a conversational evaluator for
academic certificates. One user turn goes through `agent_node`. It asks a
language model for a decision, parses the reply with `safe_json_parse`, records
the reason and uncertainty, and routes to one of nine handlers:

- `answer_from_state`, `show_history`, `extract_information`,
  `rescore_certificate` and `validate_criteria`;
- `ask_clarification`, `compare_certificates` and `pause_execution`;
- `explain_decision`, the default.

Each handler rewrites parts of the global state and appends one exchange
to the conversation history. The certificate part holds the raw text, the
extracted fields and their confidences. The evaluation part holds the
criteria, the scores and the final score. The conversation part holds the
messages, the reasoning, the flags and both histories. `StateManager`
writes that state to a current-session file plus a time-stamped history
file, and it reads the state back, clears it, lists the history files and
summarises the session.

Module layout, one module per source file or concept:

| module | models |
|---|---|
| `Wrappers`, `Text`, `Dicts` | `Option`; Python string operations; insertion-ordered `dict`s as association lists |
| `States` | the three state records and the one-entry history append every handler ends with |
| `Parser` | `llm/json_utils.py`; the JSON decoder and the fenced-block regex are uninterpreted (`Codec`) |
| `Score` | `actions/score.py` |
| `Extraction` | `actions/extract.py`; the model's reply is a parameter |
| `Answer`, `Clarify`, `Validate`, `Explain`, `Compare`, `Pause`, `History` | the handlers in `actions/` |
| `Agent` | `agent/agent.py` |
| `Store` | `utils/state_manager.py`; the disk is a value |

Floats are `real`. The language model, the clock and the file system are
parameters: `Completion`, `Replies`, `Disk`, `Fault` and timestamp strings.
Python's `float()` on a string becomes an uninterpreted `toFloat` function.

## Model

| member | source | states |
|---|---|---|
| Parser.BraceSlice | llm/json_utils.py:37-41 | the slice exists exactly when a `{` and a later `}` exist; it runs from the first `{` to the last `}` |
| Parser.FirstOf | llm/json_utils.py:20-58 | the result is the first strategy that succeeds, or the fallback when every strategy fails |
| Parser.SafeJsonParse | llm/json_utils.py:6-58 | a reply that decodes directly is returned as decoded; otherwise the first succeeding strategy wins |
| Parser.AllFailGivesFallback | llm/json_utils.py:17-18 | when all four strategies fail, the fallback comes back, and `{}` when none was given |
| Parser.FencedReplyDecoded | llm/json_utils.py:26-33 | a reply that fails directly but has a decodable fenced block gives that block's JSON |
| Parser.PlainTextGivesFallback | llm/json_utils.py:35-58 | prose without braces or fences that fails to decode yields the fallback |
| Parser.UnfencedWithoutFence | llm/json_utils.py:49-52 | the cleaning strategy only strips text that has no code fence |
| Parser.DropFirstAndLastLine | llm/json_utils.py:52 | joining the inner lines of a fenced block gives back exactly the text between its first and last line |
| Parser.FencedBodyDecoded | llm/json_utils.py:46-53 | a fenced reply is cleaned to the body between the fence lines |
| Parser.ValidateJsonStructure | llm/json_utils.py:61-72 | true exactly when every required key is present |
| Parser.ExtractWithDefault | llm/json_utils.py:75-87 | a present key gives its own value and a missing key gives the default |
| Score.KeywordsFor | actions/score.py:39-46 | the mapped keywords are tried for the exact name, then the lower-cased name, then the name alone; never empty |
| Score.MatchedFields | actions/score.py:48-59 | a field matches exactly when a keyword occurs in its name or value and it has a confidence entry |
| Score.MatchedFieldsAppend | actions/score.py:48-59 | matching keeps field order: the matches among earlier fields come before those among later ones |
| Score.MatchedFieldsDistinct | actions/score.py:48-59 | no field is matched twice |
| Score.CriteriaScores | actions/score.py:34-93 | one score per criterion, in criterion order, each computed from that criterion's keywords |
| Score.ConfidenceScores | actions/score.py:116-124 | without criteria, every confidence scores 100 times its value, in key order |
| Score.MatchedCriterionScore | actions/score.py:62-77 | with a matched field, a criterion scores its weight times 100 times the mean confidence of the matched fields |
| Score.UnmatchedCriterionScore | actions/score.py:79-93 | without a match, a criterion scores 70 times its weight if a keyword is in the raw text, else 30 times its weight |
| Score.Rescored | actions/score.py:9-152 | criteria are never changed; the final score is the weighted sum over the total weight, or the confidence mean, or 0 |
| Score.Rescore | actions/score.py:1-163 | only the evaluation and the talk change, and exactly one `rescore` exchange is appended |
| Score.FinalScoreInRange | actions/score.py:95-99 | with confidences in [0,1] and non-negative weights, the final score lies in [0,100] |
| Score.KeywordScoreBounds | actions/score.py:62-93 | a criterion's score lies between 0 and 100 times its weight |
| Score.CriteriaScoresBounds | actions/score.py:95-97 | the criteria scores sum to at most 100 times the total weight |
| Score.ConfidenceScoresBounds | actions/score.py:126-128 | the confidence scores average into [0,100] |
| Score.WeightedFinal | actions/score.py:96-97 | with a positive total weight, the final score is the score sum divided by that total |
| Score.GpaKeywords | actions/score.py:12 | `GPA` is matched with its mapped keywords, `Cumulative GPA` first |
| Score.ResearchKeywords | actions/score.py:20 | `Research` is matched with its mapped keywords |
| Score.SingleFieldScore | actions/score.py:62-77 | a certificate whose one field matches the first keyword scores that field's confidence times 100 times the weight |
| Score.ExampleGpa | actions/score.py:62-77 | a GPA field at confidence 0.9 under weight 0.5 scores 45 |
| Score.ExampleResearch | actions/score.py:79-93 | a research criterion found nowhere under weight 0.5 scores 15 |
| Score.WorkedExample | actions/score.py:32-101 | GPA and Research at 0.5 each give scores 45 and 15 and a final score of 60 |
| Extraction.FloatOf | actions/extract.py:101-109 | numbers convert as themselves, booleans as 1 or 0, strings through `float`, anything else fails |
| Extraction.Clamp | actions/extract.py:106 | the result lies in [0,1], and values already in [0,1] are kept |
| Extraction.NormalizeConfidence | actions/extract.py:89-117 | the branch per JSON kind: nested `value`/`score` unclamped, numbers and strings rescaled from percent and clamped, others 0.5 |
| Extraction.NormalizeAll | actions/extract.py:88-117 | the normalised map has the raw map's keys in order, each value normalised |
| Extraction.NumberConfidence | actions/extract.py:101-106 | 0..1 is kept, 1..100 is divided by 100, above 100 gives 1, below 0 gives 0 |
| Extraction.PercentStringConfidence | actions/extract.py:107-112 | `"85%"` is normalised like the number 85 |
| Extraction.ObjectConfidenceUnclamped | actions/extract.py:92-95 | a nested `value` of 5 is stored as 5, outside [0,1] |
| Extraction.NormalizedInRange | actions/extract.py:101-114 | without nested objects every normalised confidence lies in [0,1] |
| Extraction.NormalizeKeepsUnitNumbers | actions/extract.py:101-106 | confidences that are numbers in [0,1] pass through unchanged |
| Extraction.ExtractInformation | actions/extract.py:7-159 | the cache is used while fields exist and no re-extract word is said; an empty reply changes only the message; otherwise fields and confidences are replaced |
| Extraction.FallbackReplyFails | actions/extract.py:119-125 | the parser's fallback reply keeps the certificate and the history |
| Extraction.SecondExtractionCached | actions/extract.py:9-36 | a second extraction after a successful one reuses the fields instead of the new reply |
| Answer.FirstTopic | actions/answer.py:92-97 | the topic found is the first table entry with a keyword in the message; none exactly when no entry matches |
| Answer.Select | actions/answer.py:106-181 | the listed fields are exactly the relevant ones |
| Answer.SelectAppend | actions/answer.py:106-181 | listing keeps field order: the relevant fields among earlier fields come before those among later ones |
| Answer.Respond | actions/answer.py:99-215 | the branch per topic, including the fall-through to the overview when `Name` or `Degree` is missing |
| Answer.Take5 | actions/answer.py:205 | the overview takes the first five fields, or all of them when there are fewer |
| Answer.NameComesFirst | actions/answer.py:61-97 | a message with a name keyword is about the name, whatever else it mentions |
| Answer.ClassifyFirstMatch | actions/answer.py:92-97 | the first matching entry decides the topic |
| Answer.OverviewCounts | actions/answer.py:201-210 | the overview shows at most five fields, and the shown ones plus the count of the rest make up all of them |
| Answer.MissingNameGivesOverview | actions/answer.py:100-103 | asking for the name without a `Name` field gives the general overview |
| Answer.ScoreOnlyWhenPositive | actions/answer.py:151-164 | the score is reported exactly when the final score is positive |
| Answer.AnswerFromState | actions/answer.py:1-236 | as written: the `Auto-extracted` text of the previous message decides whether the reply is appended to it; after an auto-extraction the reply is appended to the banner message, and two exchanges are logged |
| Answer.AutoExtractedMarked | actions/answer.py:45-50 | the banner set by an auto-extraction carries the `Auto-extracted` marker, so the answer that follows is appended to it |
| Answer.Reply | actions/answer.py:217-234 | as written: after a banner message the reply is appended to it, otherwise it replaces it with the note |
| Answer.StaleBannerRepeatsPreviousReply | actions/answer.py:218-225 | as written, an answer after an auto-extracting turn begins with that turn's whole reply |
| Answer.ReplyDependsOnPreviousTurn | actions/answer.py:218-225 | as written, the same question on the same data gets different replies after different previous turns |
| Answer.AnswerFromStateFixed | actions/answer.py:9-50 | corrected: the auto-extraction flag decides; with fields present the reply is the response plus the note |
| Answer.FixedReplyIgnoresPreviousTurn | actions/answer.py:11-24 | corrected: the reply does not depend on the previous agent message |
| Answer.FixedAnswerRepeats | actions/answer.py:217-236 | corrected: asking the same question twice gives the same reply and keeps the certificate |
| Clarify.LowConfidence | actions/clarify.py:37-50 | the low fields are exactly the confidences below 0.7 |
| Clarify.LowConfidenceAppend | actions/clarify.py:37-50 | the low fields keep key order: those among earlier keys come before those among later ones |
| Clarify.Assess | actions/clarify.py:6-59 | criteria are asked for exactly when the user wants a score and none are set; otherwise the uncertainty, the low fields and the tip condition |
| Clarify.AskClarification | actions/clarify.py:61-73 | the message is the rendered request, confirmation becomes pending, and one exchange is appended |
| Clarify.UncertaintyReported | actions/clarify.py:32-34 | outside the criteria branch a non-empty uncertainty is quoted in the message |
| Clarify.LowFieldsListed | actions/clarify.py:36-55 | every field below 0.7 is listed in the message |
| Clarify.ThresholdNotLow | actions/clarify.py:44 | a confidence of exactly 0.7 is not low |
| Clarify.AllLow | actions/clarify.py:39-47 | when every confidence is below 0.7 they are all listed |
| Clarify.SeparateWantsScore | actions/clarify.py:8-11 | the score words match as substrings, so `separate` asks for a score |
| Clarify.AskingTwiceRepeats | actions/clarify.py:1-73 | asking twice gives the same message and keeps confirmation pending |
| Validate.ValidateCriteria | actions/validate.py:47-85 | non-empty criteria replace the old ones whatever their sum; an empty or missing map keeps them; scores are never recomputed |
| Validate.FallbackKeepsCriteria | actions/validate.py:46-49 | the parser's fallback keeps the criteria and gives the rejection message |
| Validate.LaterCriteriaWin | actions/validate.py:55-56 | a later non-empty criteria set replaces an earlier one entirely |
| Validate.ScoresGoStale | actions/validate.py:54-56 | after new criteria are set, the old scores no longer name the criteria |
| Explain.Reply | actions/explain.py:6-90 | the welcome text exactly for greetings, capability questions and short messages; otherwise the explanation, opening with the reason and uncertainty |
| Explain.ExplainDecision | actions/explain.py:92-103 | only the message changes, and one `explain` exchange is appended |
| Explain.ThisIsAGreeting | actions/explain.py:19 | greetings match as substrings, so any message containing `this` is welcomed |
| Explain.ShortMessageWelcomed | actions/explain.py:31 | a message under 15 characters once stripped is welcomed |
| Explain.ExplanationListsFields | actions/explain.py:74-79 | every extracted field appears in the explanation with its confidence |
| Explain.MissingConfidenceShownAsZero | actions/explain.py:76 | a field without a confidence is shown at 0 |
| Compare.Reply | actions/compare.py:9-33 | the comparison text exactly when `with`, `vs` or `versus` occurs; the capabilities text otherwise |
| Compare.CompareCertificates | actions/compare.py:1-44 | only the message changes, and one exchange is appended |
| Compare.WithoutAsksComparison | actions/compare.py:9 | `without` contains `with`, so it counts as a comparison request |
| Compare.CapitalVsAsksComparison | actions/compare.py:7-9 | a message holding "vs" in any mix of capitals gets the comparison-request text |
| Pause.PauseMessage | actions/pause.py:5-12 | the message contains the field count, the criteria count and the score |
| Pause.PauseExecution | actions/pause.py:1-24 | confirmation becomes pending, the message reports the state, and one exchange is appended |
| Pause.PausingTwiceRepeats | actions/pause.py:1-24 | pausing twice gives the same message |
| History.Preview | actions/history.py:31-34 | text within the limit is kept; longer text is cut to the limit and gets `...` |
| History.LastSteps | actions/history.py:45 | the trail is the last five reasoning steps, or all of them when there are fewer |
| History.Tally | actions/history.py:55-59 | each action is counted exactly as often as it occurs, keys are unique, and the counts add up to the history length |
| History.BumpKeys | actions/history.py:59 | assigning a count keeps the dict's key order: a new action becomes the last key, an action already present keeps its place |
| History.TallyAppendKeys | actions/history.py:57-59 | one more exchange adds its action as the last key exactly when the action has not occurred before |
| History.TallyKeysFirstUses | actions/history.py:56-59 | the tally's keys are the actions in the order of their first use |
| History.FirstUseOrder | actions/history.py:56-59 | of two actions in first-use order, some use of the earlier one precedes every use of the later one |
| History.BumpCount | actions/history.py:59 | incrementing one action adds one to its count and leaves the others |
| History.SortByCount | actions/history.py:62-64 | counts in descending order, a permutation of the tally that keeps each count's group in order |
| History.TiesKeepTallyOrder | actions/history.py:62-64 | the sort is stable: two entries with equal counts come out in the order they had in the dict |
| History.TiesKeepFirstUseOrder | actions/history.py:56-64 | two actions taken equally often are listed in the order they were first taken: the earlier one comes first among its count, and some use of it precedes every use of the later one |
| History.ActionCountsExact | actions/history.py:55-65 | the listed actions are each named once, each listed count is the number of exchanges with that action, and every action taken is listed |
| History.ShowHistory | actions/history.py:1-86 | as written: an empty history raises (the message variable is unbound); otherwise the message is the report |
| History.FirstCallRaises | actions/history.py:9-17 | as written, the first call of a session raises |
| History.ShowHistoryFixed | actions/history.py:9-84 | corrected: the no-history text is shown on an empty history; one `show_history` exchange is appended |
| History.FixedAgreesOnHistory | actions/history.py:19-84 | the corrected handler agrees with the original whenever there is history |
| History.EntryRecordsPreviousMessage | actions/history.py:75-84 | the logged exchange holds the previous agent message, not the report |
| History.PreviewEdges | actions/history.py:31-34 | a 250-character agent message previews as 203 characters; a 103-character user message is kept whole |
| History.TrailIsTheLastFive | actions/history.py:43-48 | trail line i is the i-th of the last five steps |
| History.ReportShowsEveryExchange | actions/history.py:25-40 | every exchange of the history appears as a numbered block |
| Agent.HandleFailure | agent/agent.py:109-120 | when every model fails, only the message changes; it holds the first 100 characters of the error |
| Agent.Decided | agent/agent.py:72-84 | reason and uncertainty are taken from the decision, a false uncertainty reading as none, and one reasoning step is appended |
| Agent.NullDecisionExplained | agent/agent.py:73-74 | a `null` reason is shown as Python prints `None`, and a `null` uncertainty as `None identified` |
| Agent.Dispatch | agent/agent.py:88-106 | a known action runs its handler and the node returns nothing, or raises when the handler raises; any other name runs the explainer and returns its state |
| Agent.DispatchRaises | agent/agent.py:88-92 | for replies of the modelled types, a routed turn as written raises exactly when it reaches `show_history` with an empty history; with the corrected handlers none raises |
| Agent.FirstHistoryTurnRaises | agent/agent.py:88-92 | the first turn of a session routed to `show_history` raises after logging the no-history message; with the corrected handler it returns the same state |
| Agent.Prepare | agent/agent.py:56-86 | model failure becomes the failure message; a non-object decision raises; otherwise the decision is recorded and the action chosen |
| Agent.AgentNode | agent/agent.py:15-106 | a turn is the failure message, a raise, or the recorded decision followed by dispatch to the handlers agent.py calls or their corrected forms |
| Agent.TurnOnlyAppends | agent/agent.py:15-106 | with the handlers as written or corrected, and whether it returns or raises, a turn never shortens or rewrites either history |
| Agent.AnswerKeepsTrail | actions/answer.py:1-236 | the answer handler as written keeps the reasoning history and earlier exchanges on every path |
| Agent.FixedAnswerKeepsTrail | actions/answer.py:1-236 | so does the corrected answer handler |
| Agent.HandlersKeepTrail | agent/agent.py:89-106 | no handler agent.py calls, nor a corrected one, touches the reasoning history, and each keeps earlier exchanges, also when `show_history` raises |
| Agent.FallbackDecisionExplains | agent/agent.py:63-70 | the fallback decision names `explain`, which is not a routed action |
| Agent.UnparseableReplyExplains | agent/agent.py:63-86 | an unreadable reply records the fallback reason and routes to the explainer |
| Agent.MissingActionExplains | agent/agent.py:79-86 | a decision without `next_action` records an empty decision and routes to the explainer |
| Agent.CaseMattersInDispatch | agent/agent.py:89-106 | an action name in upper case is not routed and falls to the explainer |
| Agent.ValidateThenRescore | agent/agent.py:97-98 | after criteria are set, the next rescore scores exactly the new criteria |
| Store.Place | utils/state_manager.py:29-51 | every slot has a section and a position in it |
| Store.Assign | utils/state_manager.py:86-107 | after assigning a slot, reading it gives the assigned value |
| Store.AssignKeeps | utils/state_manager.py:86-107 | assigning one slot leaves every other slot as it was |
| Store.SlotsDetermineState | utils/state_manager.py:29-51 | two states that agree on all fourteen slots are equal |
| Store.Snapshot | utils/state_manager.py:29-51 | the saved document has exactly the timestamp and the three sections |
| Store.SnapshotHolds | utils/state_manager.py:29-51 | every slot of the state can be read back from the snapshot |
| Store.OrderComplete | utils/state_manager.py:86-107 | the restore order names each of the fourteen slots once |
| Store.SaveState | utils/state_manager.py:20-67 | the current file is written unless that write fails; the history file is written only after it; success exactly when both succeed |
| Store.Restore | utils/state_manager.py:86-116 | slots are restored in order until the first missing or wrong-typed one, where loading stops |
| Store.RestoreCopies | utils/state_manager.py:86-107 | every restored slot holds the stored value |
| Store.FoundInOrder | utils/state_manager.py:86-107 | from a document holding a state, every slot lookup in restore order succeeds with the state's value, and no slot is looked up twice |
| Store.RestoreAll | utils/state_manager.py:86-116 | restoring from a document holding a state gives back exactly that state, whatever the state restored into |
| Store.RestoreKeeps | utils/state_manager.py:114-116 | slots after the failure point keep their value from before the load |
| Store.LoadState | utils/state_manager.py:69-116 | without a file the state is unchanged; otherwise it is restored from the file |
| Store.LoadAfterSave | utils/state_manager.py:20-116 | loading after a save whose current-file write succeeded gives back the saved state |
| Store.FailedSaveStillLoads | utils/state_manager.py:53-67 | a save whose history write fails reports failure, yet the state still loads back |
| Store.RestoreWithoutConversation | utils/state_manager.py:86-99 | a document without a conversation section restores certificate and evaluation, then stops |
| Store.LostConversationKeepsInput | utils/state_manager.py:98-116 | the partial load: certificate and evaluation come from the file, the conversation keeps its old value |
| Store.ClearSession | utils/state_manager.py:118-127 | success removes the current file, failure keeps it, and history files are never touched |
| Store.ClearForgetsSession | utils/state_manager.py:118-160 | after clearing, loading changes nothing, the summary says no session, and the session list is kept |
| Store.BelowAsymmetric | utils/state_manager.py:132 | the name order is a strict order |
| Store.SessionNames | utils/state_manager.py:132 | exactly the names of the form `session_*.json` are kept, each as often as it occurs |
| Store.Insert | utils/state_manager.py:132 | inserting into a descending list keeps it descending and adds exactly that name |
| Store.SortDescending | utils/state_manager.py:132 | the names in descending order, a permutation of the input |
| Store.ListSessions | utils/state_manager.py:129-136 | descending, a name is listed exactly when it is a history file of the session form, and as often as the directory holds it, so each file once |
| Store.SessionSummary | utils/state_manager.py:138-160 | no file gives no session; the counts are those of the stored collections; any missing collection gives an error |
| Store.SummaryCounts | utils/state_manager.py:147-150 | the summary counts the exchanges, the fields and the criteria stored |
| Store.SummaryAfterSave | utils/state_manager.py:138-157 | after a good save, the summary reports the saved timestamp and the state's counts |
| Store.SaveIsListed | utils/state_manager.py:57-61 | after a good save, its history file is listed |

## Left out

- The language model and the network: every completion, and every reply parsed from one, is a parameter (`Completion`, `Replies`, `ExtractionReply`, `ValidationReply`).
- The prompts and the state summary built at agent/agent.py:20-54, which are only text sent to the model.
- `json.loads` and the regex of llm/json_utils.py:29 are uninterpreted functions (`Codec`). JSON decoding is not modelled.
- Python's `float()` on strings is the uninterpreted `toFloat`. Its failure is `None`, which maps to 0.5 as at actions/extract.py:115-117.
- `Text.Fixed`: the `:.1f` and `:.2f` formats round the exact real half away from zero. Python rounds the binary float, so halfway cases can differ. Python's `str()` of a weight (actions/explain.py:90) is shown with one decimal place instead of its shortest form.
- Explain.WelcomeMessage: the welcome text is cut to its title line. The capability list after it is fixed prose.
- Score: the `float()` failure branches at actions/score.py:66-70, 76-77 and 120-124 cannot be taken, because confidences are reals in the model. The same holds for clarify's `isinstance` check at actions/clarify.py:42.
- Validate: a `criteria` member that is not an object is not modelled. The reply type carries a map of weights or nothing. Replies outside that type raise in the source and are not modelled: a weight that is not a number fails the `:.2f` format at actions/validate.py:59, after line 56 has already replaced the criteria and before anything is logged; a reply that decodes to something other than an object fails the `.get` at actions/validate.py:51.
- Extraction: the reply type is an object whose `confidence` member is a map. Replies outside that type raise in the source and are not modelled: a `confidence` member that is not an object fails the `.items()` at actions/extract.py:89, which sits outside the `try`; a reply that decodes to something other than an object fails the `.get` at actions/extract.py:84.
- Agent.Decided: a non-string `reason` or `uncertainty` is turned into text by a `render` parameter, standing in for Python's `str()`. A false uncertainty of any type (`null`, `false`, `0`, empty) is held as the empty string: every handler reading it tests its truth first, so they behave alike, but a saved session file holds `""` where Python writes the raw value. The slice `reason[:150]` at actions/history.py:48 raises on a reason that cannot be sliced (a number, `null`, an object) and slices a list element-wise; the model's trail holds the first 150 characters of the rendered text instead.
- Text.Lower: `str.lower` folds every cased Unicode letter; the model folds only `A` to `Z`. Messages and field names with non-ASCII capitals (such as "ÉTUDES") therefore match keywords differently in score.py, answer.py, clarify.py and compare.py.
- Agent: the unreachable tail at agent/agent.py:122-130 after `_handle_llm_failure` returns is dead code and is not modelled. `agent_node` returns `None` for routed actions (agent/agent.py:89-104 fall off the end); `NodeResult.ReturnsNone` keeps that.
- The LangGraph wiring (graph/graph.py), the web and console front ends (app.py, main.py) and the model client (llm/llm_client.py) are not part of this model.
- Store: the file system is a value `Disk`. Directory creation, `print` messages and the clock are left out, and timestamps are parameters.
- Store.SaveState: a write either succeeds or fails whole. A partly written file is not modelled. Two saves in the same second share a history name, and the later one overwrites the file, as Python's `open(..., "w")` does.
- Store.Restore: a stored value of the wrong type stops the load, whereas Python assigns whatever the file holds. Whether that value later makes a handler fail depends on the slot and on which handlers read it; some never do. JSON files are typed `Value`s, not raw JSON.
- Store.ListSessions: `glob` also matches directories named like sessions. The model lists only files.
- Agent.DispatchRaises: speaks only of replies of the modelled types. The malformed validation and extraction replies listed above also make a routed turn raise in the source.
- Exceptions are modelled only where the source turns them into a result: `Outcome.Raised` for the history handler, `Prepared.Unreadable` for a decision that is not an object, and `Fault` for save and clear.

## Findings

| source | as written | input that shows it | evidently intended | confidence | as-written member | corrected member |
|---|---|---|---|---|---|---|
| actions/answer.py:218-225 | whether to append is decided by `"Auto-extracted" in last_agent_message`, which after an auto-extracting turn still holds the previous reply | two questions in a row when no field was extracted: the second reply begins with the whole first reply | decide by the `auto_extracted` flag set at actions/answer.py:24 | not executed | Answer.ReplyDependsOnPreviousTurn | Answer.FixedReplyIgnoresPreviousTurn |
| actions/history.py:9-17, 84 | on an empty history the no-history text goes into the message, and line 84 then reads `response`, which this path never binds, raising UnboundLocalError | the first turn of a session routed to `show_history` | show the no-history text and append the exchange | not executed | History.FirstCallRaises | History.FixedAgreesOnHistory |

The router takes a `Handlers` choice: `AsWritten` runs `Answer.AnswerFromState` and `History.ShowHistory` as agent.py calls them, so a first-turn `show_history` makes the node raise (`Agent.FirstHistoryTurnRaises`); `Corrected` runs `Answer.AnswerFromStateFixed` and `History.ShowHistoryFixed`.

=== FILE: agent.dfy ===
/** `agent_node` of agent/agent.py: one turn of the agent.

    The completion call either fails (every backend exhausted), which only
    replaces the agent message, or yields a reply. The reply is parsed with
    `safe_json_parse` and a fixed fallback decision; the decision's reason
    and uncertainty are stored, one reasoning step is appended, and the
    turn is dispatched on the exact `next_action` name to one of eight
    handlers, anything else going to `explain_decision`.

    Only the explain branch returns the state: every other branch assigns
    the handler's state and falls off the end of the function, so the node
    returns `None` after the handler has updated the shared state in place.
    The code after the failure handler's `return` (the reasoning summary
    appended to the message) is unreachable and is not modelled. A decoded
    reply that is not a JSON object has no `get`, so the node raises before
    changing anything.

    The handlers' own model replies are parameters, already parsed. The
    router runs either the `answer_from_state` and `show_history` that
    agent.py calls, or their corrected forms; the as-written
    `show_history` raises on an empty history, and the node then raises
    with the state the handler left behind. */
module Agent {
  import opened Wrappers
  import opened Dicts
  import opened Text
  import opened States
  import opened Parser
  import Extraction
  import Answer
  import Score
  import Validate
  import Clarify
  import Compare
  import History
  import Pause
  import Explain

  /** The outcome of the completion call. */
  datatype Completion = Exhausted(error: string) | Content(text: string)

  /** What the handlers' own completion calls return, already parsed, and
      Python's `float(str)`. */
  datatype Replies = Replies(
    extraction: Extraction.ExtractionReply,
    validation: Validate.ValidationReply,
    toFloat: string -> Option<real>)

  /** How `agent_node` ends: returning the state, returning `None` after
      updating the state in place, or raising. */
  datatype NodeResult = ReturnsState(state: State) | ReturnsNone(state: State) | Raises(state: State)

  const FallbackReason := "Failed to parse decision, defaulting to explanation"
  const FallbackUncertainty := "LLM response was not valid JSON"

  /** The decision used when the reply cannot be parsed. */
  const FallbackDecision: Json := JObj([
    ("next_action", JStr(ExplainTag)),
    ("reason", JStr(FallbackReason)),
    ("uncertainty", JStr(FallbackUncertainty))
  ])

  /** The eight names dispatched to a handler other than `explain`. */
  const Actions := [AnswerTag, HistoryTag, ExtractTag, RescoreTag, ValidateTag, ClarifyTag, CompareTag, PauseTag]

  /** A decoded value stored where the state keeps text: a string as it is,
      anything else as `render` prints it. */
  function AsText(j: Json, render: Json -> string): string {
    if j.JStr? then j.s else render(j)
  }

  /** The uncertainty as the handlers see it. Each reader of the stored
      uncertainty tests its truth and shows it only when true, so a false
      value of any type is held as the empty string. */
  function UncertaintyText(j: Json, render: Json -> string): string {
    if Truthy(j) then AsText(j, render) else ""
  }

  /** The message set when every backend is exhausted; the error text is
      cut to 100 characters. */
  function FailureMessage(error: string): string {
    "⚠️ **Temporary Service Limitation**\n\n"
      + "All available AI models have reached their rate limits. This happens during high usage.\n\n"
      + "**What you can do:**\n"
      + "• Wait a few minutes and try again\n"
      + "• Your data is saved and will be available\n"
      + "• Or come back later - your session persists!\n\n"
      + "_Technical details: " + Take(error, 100) + "_"
  }

  /** `_handle_llm_failure`: only the agent message changes. */
  function HandleFailure(s: State, error: string): (r: State)
    ensures OnlyTalk(s, r) && r.conversation.history == s.conversation.history
    ensures Contains(r.conversation.lastAgentMessage, Take(error, 100))
  {
    var head := FailureMessage("")[..|FailureMessage("")| - 1];
    assert FailureMessage(error) == head + Take(error, 100) + "_";
    ContainsMiddle(head, Take(error, 100), "_");
    WithMessage(s, FailureMessage(error))
  }

  /** The reasoning step appended for a decision. */
  function Step(s: State, d: Dict<Json>, render: Json -> string): Thought {
    Thought(
      AsText(GetOr(d, "next_action", JStr("")), render),
      AsText(GetOr(d, "reason", JStr("")), render),
      AsText(GetOr(d, "uncertainty", JStr("")), render),
      "User said: " + s.conversation.lastUserMessage)
  }

  /** The state once a decision is taken: its reason and uncertainty are
      stored (empty when missing) and exactly one reasoning step is
      appended; nothing else changes. */
  function Decided(s: State, d: Dict<Json>, render: Json -> string): (r: State)
    ensures r.certificate == s.certificate && r.evaluation == s.evaluation
    ensures r.conversation.lastReason == AsText(GetOr(d, "reason", JStr("")), render)
    ensures r.conversation.uncertainty == UncertaintyText(GetOr(d, "uncertainty", JStr("")), render)
    ensures r.conversation.reasoning == s.conversation.reasoning + [Step(s, d, render)]
    ensures r.conversation.(lastReason := s.conversation.lastReason, uncertainty := s.conversation.uncertainty,
                            reasoning := s.conversation.reasoning) == s.conversation
  {
    var c := s.conversation;
    s.(conversation := c.(
      lastReason := AsText(GetOr(d, "reason", JStr("")), render),
      uncertainty := UncertaintyText(GetOr(d, "uncertainty", JStr("")), render),
      reasoning := c.reasoning + [Step(s, d, render)]))
  }

  /** Which versions of `answer_from_state` and `show_history` the router
      runs: the ones agent.py calls, or the corrected ones. */
  datatype Handlers = AsWritten | Corrected

  /** The handler an action name selects, `explain_decision` for any name
      outside the eight. */
  function Handle(handlers: Handlers, name: string, s: State, replies: Replies): Outcome {
    if name == AnswerTag then
      Returned(
        if handlers.AsWritten? then Answer.AnswerFromState(s, replies.extraction, replies.toFloat)
        else Answer.AnswerFromStateFixed(s, replies.extraction, replies.toFloat))
    else if name == HistoryTag then
      if handlers.AsWritten? then History.ShowHistory(s) else Returned(History.ShowHistoryFixed(s))
    else if name == ExtractTag then Returned(Extraction.ExtractInformation(s, replies.extraction, replies.toFloat))
    else if name == RescoreTag then Returned(Score.Rescore(s))
    else if name == ValidateTag then Returned(Validate.ValidateCriteria(s, replies.validation))
    else if name == ClarifyTag then Returned(Clarify.AskClarification(s))
    else if name == CompareTag then Returned(Compare.CompareCertificates(s))
    else if name == PauseTag then Returned(Pause.PauseExecution(s))
    else Returned(Explain.ExplainDecision(s))
  }

  /** The name dispatched on: the `next_action` member when it is a string;
      a missing member means `explain`, and a non-string value equals no
      name, so it reaches the default as well. */
  function ActionOf(d: Dict<Json>): string {
    var v := Get(d, "next_action");
    if v.Some? && v.value.JStr? then v.value.s else ExplainTag
  }

  /** The dispatch: a name among the eight runs its handler, after which
      the node returns `None`, or raises when the handler does; any other
      name runs `explain_decision`, whose state is returned. */
  function Dispatch(handlers: Handlers, s: State, action: string, replies: Replies): (r: NodeResult)
    ensures r.ReturnsState? <==> action !in Actions
    ensures action in Actions ==> r.state == Handle(handlers, action, s, replies).state
    ensures r.Raises? <==> action in Actions && Handle(handlers, action, s, replies).Raised?
    ensures action !in Actions ==> r.state == Explain.ExplainDecision(s)
  {
    if action in Actions then
      match Handle(handlers, action, s, replies)
      case Returned(t) => ReturnsNone(t)
      case Raised(t) => Raises(t)
    else ReturnsState(Explain.ExplainDecision(s))
  }

  /** The decision a reply is parsed into. */
  function Decision(text: string, codec: Codec): Json {
    SafeJsonParse(text, Some(FallbackDecision), codec)
  }

  /** Where a turn stands before dispatch: the backends failed, the reply
      decoded to something without `get`, or an action was chosen. */
  datatype Prepared = Failed(state: State) | Unreadable | Chosen(state: State, action: string)

  /** Everything `agent_node` does before dispatching. */
  function Prepare(s: State, completion: Completion, codec: Codec, render: Json -> string): (p: Prepared)
    ensures completion.Exhausted? ==>
              && p.Failed?
              && OnlyTalk(s, p.state)
              && p.state.conversation.history == s.conversation.history
    ensures completion.Content? ==> !p.Failed? && (p.Unreadable? <==> !Decision(completion.text, codec).JObj?)
    ensures p.Chosen? ==>
              var d := Decision(completion.text, codec).members;
              p.state == Decided(s, d, render) && p.action == ActionOf(d)
  {
    match completion
    case Exhausted(e) => Failed(HandleFailure(s, e))
    case Content(text) =>
      var decision := Decision(text, codec);
      if decision.JObj? then Chosen(Decided(s, decision.members, render), ActionOf(decision.members))
      else Unreadable
  }

  /** `agent_node`. A failed completion changes only the message. A reply
      decoding to anything but an object raises before any change.
      Otherwise the decision is stored with one reasoning step and the
      turn is dispatched; the final message is the handler's own. */
  function AgentNode(handlers: Handlers, s: State, completion: Completion, codec: Codec, render: Json -> string,
                     replies: Replies): (r: NodeResult)
    ensures var p := Prepare(s, completion, codec, render);
            && (p.Failed? ==> r == ReturnsState(p.state))
            && (p.Unreadable? ==> r == Raises(s))
            && (p.Chosen? ==> r == Dispatch(handlers, p.state, p.action, replies))
  {
    match Prepare(s, completion, codec, render)
    case Failed(t) => ReturnsState(t)
    case Unreadable => Raises(s)
    case Chosen(t, action) => Dispatch(handlers, t, action, replies)
  }

  // What every handler keeps.

  /** `r` keeps the reasoning trail and the user message of `s`, and its
      history extends that of `s`. */
  predicate KeepsTrail(s: State, r: State) {
    && r.conversation.reasoning == s.conversation.reasoning
    && r.conversation.lastUserMessage == s.conversation.lastUserMessage
    && |s.conversation.history| <= |r.conversation.history|
    && r.conversation.history[..|s.conversation.history|] == s.conversation.history
  }

  lemma TalkKeepsTrail(s: State, r: State)
    requires OnlyTalk(s, r) || OnlyTalk(s.(conversation := s.conversation.(pendingConfirmation := true)), r)
             || OnlyTalk(s.(evaluation := r.evaluation), r) || OnlyTalk(s.(certificate := r.certificate), r)
    requires |s.conversation.history| <= |r.conversation.history|
    requires r.conversation.history[..|s.conversation.history|] == s.conversation.history
    ensures KeepsTrail(s, r)
  {
  }

  lemma LoggedKeepsTrail(s: State, r: State, tag: string)
    requires OnlyTalk(s, r) || OnlyTalk(s.(conversation := s.conversation.(pendingConfirmation := true)), r)
             || OnlyTalk(s.(evaluation := r.evaluation), r) || OnlyTalk(s.(certificate := r.certificate), r)
    requires LoggedOnce(s, r, tag)
    ensures KeepsTrail(s, r)
  {
    assert r.conversation.history[..|s.conversation.history|] == s.conversation.history;
    TalkKeepsTrail(s, r);
  }

  /** The answer handler as written keeps the trail, on every path. */
  lemma AnswerKeepsTrail(s: State, replies: Replies)
    ensures KeepsTrail(s, Answer.AnswerFromState(s, replies.extraction, replies.toFloat))
  {
    var r := Answer.AnswerFromState(s, replies.extraction, replies.toFloat);
    if |s.certificate.extractedFields| > 0 {
      LoggedKeepsTrail(s, r, AnswerTag);
    } else {
      var w := WithMessage(s, Answer.AutoNotice);
      var x := Extraction.ExtractInformation(w, replies.extraction, replies.toFloat);
      assert !Extraction.UsesCache(w);
      if |x.certificate.extractedFields| > 0 {
        var a := Answer.AutoExtracted(s, replies.extraction, replies.toFloat);
        assert a.conversation.history == x.conversation.history;
        assert r == Answer.Reply(a, Answer.Response(a));
        assert r.conversation.history == a.conversation.history + [r.conversation.history[|a.conversation.history|]];
      }
    }
  }

  /** So does the corrected answer handler. */
  lemma FixedAnswerKeepsTrail(s: State, replies: Replies)
    ensures KeepsTrail(s, Answer.AnswerFromStateFixed(s, replies.extraction, replies.toFloat))
  {
    var r := Answer.AnswerFromStateFixed(s, replies.extraction, replies.toFloat);
    if |s.certificate.extractedFields| > 0 {
      LoggedKeepsTrail(s, r, AnswerTag);
    } else {
      var w := WithMessage(s, Answer.AutoNotice);
      var x := Extraction.ExtractInformation(w, replies.extraction, replies.toFloat);
      assert !Extraction.UsesCache(w);
      if |x.certificate.extractedFields| > 0 {
        var a := Answer.AutoExtracted(s, replies.extraction, replies.toFloat);
        assert a.conversation.history == x.conversation.history;
        assert r.conversation.history == a.conversation.history + [r.conversation.history[|a.conversation.history|]];
      }
    }
  }

  /** Every handler the router can run keeps the trail, including the
      as-written `show_history` on the path where it raises. */
  lemma HandlersKeepTrail(handlers: Handlers, name: string, s: State, replies: Replies)
    ensures KeepsTrail(s, Handle(handlers, name, s, replies).state)
  {
    var r := Handle(handlers, name, s, replies).state;
    if name == AnswerTag {
      if handlers.AsWritten? {
        AnswerKeepsTrail(s, replies);
      } else {
        FixedAnswerKeepsTrail(s, replies);
      }
    } else if name == HistoryTag {
      if |s.conversation.history| == 0 {
        LoggedKeepsTrail(s, r, HistoryTag);
      } else {
        assert r.conversation.history[..|s.conversation.history|] == s.conversation.history;
        TalkKeepsTrail(s, r);
      }
    } else if name == ExtractTag {
      var x := Extraction.ExtractInformation(s, replies.extraction, replies.toFloat);
      if Extraction.UsesCache(s) || |replies.extraction.fields| > 0 || |replies.extraction.confidence| > 0 {
        LoggedKeepsTrail(s, r, ExtractTag);
      } else {
        TalkKeepsTrail(s, r);
      }
    } else if name == RescoreTag {
      LoggedKeepsTrail(s, r, RescoreTag);
    } else if name == ValidateTag {
      LoggedKeepsTrail(s, r, ValidateTag);
    } else if name == ClarifyTag {
      LoggedKeepsTrail(s, r, ClarifyTag);
    } else if name == CompareTag {
      LoggedKeepsTrail(s, r, CompareTag);
    } else if name == PauseTag {
      LoggedKeepsTrail(s, r, PauseTag);
    } else {
      LoggedKeepsTrail(s, r, ExplainTag);
    }
  }

  // Properties of the router.

  /** A turn only appends: whatever the reply, and whether the node
      returns or raises, the conversation and reasoning histories of the
      result extend those of the state. */
  lemma TurnOnlyAppends(handlers: Handlers, s: State, completion: Completion, codec: Codec, render: Json -> string,
                        replies: Replies)
    ensures HistoriesGrow(s, AgentNode(handlers, s, completion, codec, render, replies).state)
  {
    var r := AgentNode(handlers, s, completion, codec, render, replies);
    var p := Prepare(s, completion, codec, render);
    if p.Chosen? {
      var t := p.state;
      HandlersKeepTrail(handlers, p.action, t, replies);
      if p.action !in Actions {
        HandlersKeepTrail(handlers, ExplainTag, t, replies);
      }
      assert KeepsTrail(t, r.state);
      assert r.state.conversation.reasoning[..|s.conversation.reasoning|] == s.conversation.reasoning;
    }
  }

  /** For replies of the types the model gives them, a dispatched turn
      as written raises exactly when it goes to `show_history` with an
      empty history; with the corrected handlers no dispatched turn
      raises. Replies outside those types raise in the source too, which
      the model does not represent. */
  lemma DispatchRaises(handlers: Handlers, s: State, action: string, replies: Replies)
    ensures Dispatch(handlers, s, action, replies).Raises?
            <==> handlers.AsWritten? && action == HistoryTag && |s.conversation.history| == 0
  {
    assert HistoryTag in Actions;
  }

  /** The first turn of a session routed to `show_history`: as written,
      the node raises after the no-history message was set and logged;
      corrected, it returns `None` with the same state. */
  lemma FirstHistoryTurnRaises(s: State, text: string, codec: Codec, render: Json -> string, replies: Replies)
    requires |s.conversation.history| == 0
    requires Decision(text, codec).JObj? && ActionOf(Decision(text, codec).members) == HistoryTag
    ensures var t := Prepare(s, Content(text), codec, render).state;
            var r := AgentNode(AsWritten, s, Content(text), codec, render, replies);
            && r.Raises?
            && r.state.conversation.lastAgentMessage == History.NoHistoryMessage
            && LoggedOnce(t, r.state, HistoryTag)
            && AgentNode(Corrected, s, Content(text), codec, render, replies) == ReturnsNone(r.state)
  {
    var t := Prepare(s, Content(text), codec, render).state;
    assert |t.conversation.history| == 0;
    assert HistoryTag in Actions;
  }

  /** The fallback decision names `explain`, which is not among the eight
      dispatched names, and carries the fixed reason and uncertainty. */
  lemma FallbackDecisionExplains()
    ensures ActionOf(FallbackDecision.members) == ExplainTag
    ensures ExplainTag !in Actions
    ensures Step(Initial(""), FallbackDecision.members, _ => "").decision == ExplainTag
    ensures forall s: State, render: Json -> string :: Step(s, FallbackDecision.members, render)
              == Thought(ExplainTag, FallbackReason, FallbackUncertainty, "User said: " + s.conversation.lastUserMessage)
  {
    var d := FallbackDecision.members;
    assert Keys(d)[0] == "next_action";
    assert Get(d, "next_action") == Some(JStr(ExplainTag));
    assert Get(d, "reason") == Some(JStr(FallbackReason)) by {
      assert d[0].0 != "reason";
      assert Keys(d)[1] == "reason";
      assert Get(d[1..], "reason") == Some(JStr(FallbackReason));
    }
    assert Get(d, "uncertainty") == Some(JStr(FallbackUncertainty)) by {
      assert d[0].0 != "uncertainty" && d[1].0 != "uncertainty";
      assert Keys(d)[2] == "uncertainty";
      assert Get(d[2..], "uncertainty") == Some(JStr(FallbackUncertainty));
      assert d[1..][1..] == d[2..];
    }
    assert RescoreTag[0] != ExplainTag[0];
  }

  /** A reply every strategy fails on is read as the fallback decision:
      the step records `explain` with the fixed reason and uncertainty, and
      the turn goes to `explain_decision`. */
  lemma UnparseableReplyExplains(s: State, text: string, codec: Codec, render: Json -> string)
    requires codec.decode(text).None? && codec.decode(Unfenced(text)).None?
    requires codec.fenced(text).None? || codec.decode(codec.fenced(text).value).None?
    requires BraceSlice(text).None? || codec.decode(BraceSlice(text).value).None?
    ensures var p := Prepare(s, Content(text), codec, render);
            && p.Chosen? && p.action == ExplainTag && ExplainTag !in Actions
            && p.state.conversation.reasoning
               == s.conversation.reasoning
                  + [Thought(ExplainTag, FallbackReason, FallbackUncertainty, "User said: " + s.conversation.lastUserMessage)]
            && p.state.conversation.lastReason == FallbackReason
  {
    AllFailGivesFallback(text, Some(FallbackDecision), codec);
    FallbackDecisionExplains();
  }

  /** A decision without `next_action` logs an empty decision in its
      reasoning step, yet the turn goes to `explain_decision`. */
  lemma MissingActionExplains(s: State, text: string, codec: Codec, render: Json -> string)
    requires Decision(text, codec).JObj? && !HasKey(Decision(text, codec).members, "next_action")
    ensures var p := Prepare(s, Content(text), codec, render);
            && p.Chosen? && p.action == ExplainTag && ExplainTag !in Actions
            && p.state.conversation.reasoning[|s.conversation.reasoning|].decision == ""
  {
    FallbackDecisionExplains();
  }

  /** A decision whose reason and uncertainty are JSON `null`: the
      explanation shows the reason as `render` prints `None`, and the
      uncertainty as `None identified`. */
  lemma NullDecisionExplained(s: State, d: Dict<Json>, render: Json -> string)
    requires Get(d, "reason") == Some(JNull) && Get(d, "uncertainty") == Some(JNull)
    ensures var c := Decided(s, d, render).conversation;
            && c.lastReason == render(JNull)
            && Explain.ExplanationHead(c)
               == "**Decision Explanation:**\n\n"
                  + "**Reason for last step:** " + render(JNull) + "\n\n"
                  + "**Uncertainty:** " + "None identified" + "\n\n"
                  + "**Extracted Data:**\n"
  {
  }

  /** Every dispatched name starts with a lower-case letter. */
  lemma ActionsAreLowerCase()
    ensures forall i :: 0 <= i < |Actions| ==> |Actions[i]| > 0 && 'a' <= Actions[i][0] <= 'z'
  {
  }

  /** A name differing from the eight only in case is explained: the
      match is exact. */
  lemma CaseMattersInDispatch(d: Dict<Json>, name: string)
    requires Get(d, "next_action") == Some(JStr(name))
    requires |name| > 0 && 'A' <= name[0] <= 'Z'
    ensures ActionOf(d) == name && name !in Actions
  {
    ActionsAreLowerCase();
  }

  /** Setting criteria and then asking for a rescore scores exactly the new
      criteria: the rescore turn's scores are keyed by them, in order. */
  lemma ValidateThenRescore(s: State, reply: Validate.ValidationReply)
    requires |Validate.NewCriteria(reply)| > 0
    ensures var v := Validate.ValidateCriteria(s, reply);
            Keys(Score.Rescore(v).evaluation.scores) == Keys(Validate.NewCriteria(reply))
  {
    var v := Validate.ValidateCriteria(s, reply);
    assert v.evaluation.criteria == Validate.NewCriteria(reply);
  }
}

=== FILE: answer.dfy ===
/** `answer_from_state` of actions/answer.py: answer a question from the
    fields already in the state, extracting them first when there are none.

    The question's topic is the first entry of an ordered keyword table
    that the lowercased message hits. Each topic selects its answer from
    the certificate and evaluation: an `Answer` names the branch taken and
    the data it shows, and `Render` turns it into the reply text. */
module Answer {
  import opened Wrappers
  import opened Dicts
  import opened Text
  import opened States
  import opened Extraction

  datatype Topic =
    | NameTopic | GpaTopic | DegreeTopic | UniversityTopic | GraduationTopic
    | ScoreTopic | CriteriaTopic | HonorsTopic | ResearchTopic | LeadershipTopic

  /** The topics with their keywords, in the order they are tried. */
  const Topics: seq<(Topic, seq<string>)> := [
    (NameTopic, ["name", "student name", "whose certificate", "who is"]),
    (GpaTopic, ["gpa", "grade point", "grades", "cumulative gpa", "major gpa"]),
    (DegreeTopic, ["degree", "what degree", "major", "field of study"]),
    (UniversityTopic, ["university", "institution", "school", "college", "where did"]),
    (GraduationTopic, ["graduation", "graduated", "conferred", "completion date", "when did"]),
    (ScoreTopic, ["what score", "current score", "total score", "final score", "rating"]),
    (CriteriaTopic, ["what criteria", "evaluation criteria", "what factors"]),
    (HonorsTopic, ["honors", "awards", "distinctions", "achievements"]),
    (ResearchTopic, ["research", "publications", "papers", "lab"]),
    (LeadershipTopic, ["leadership", "president", "vice president", "officer"])
  ]

  /** Entry `i` of `table` is the first whose keywords occur in `msg`. */
  predicate FirstHit(table: seq<(Topic, seq<string>)>, msg: string, i: int) {
    && 0 <= i < |table|
    && ContainsAny(msg, table[i].1)
    && forall j :: 0 <= j < i ==> !ContainsAny(msg, table[j].1)
  }

  /** The topic of the first entry whose keywords occur in `msg`, if any. */
  function FirstTopic(table: seq<(Topic, seq<string>)>, msg: string): (t: Option<Topic>)
    ensures t.Some? ==> exists i :: FirstHit(table, msg, i) && table[i].0 == t.value
    ensures t.None? <==> forall i :: 0 <= i < |table| ==> !ContainsAny(msg, table[i].1)
  {
    if |table| == 0 then None
    else if ContainsAny(msg, table[0].1) then
      assert FirstHit(table, msg, 0);
      Some(table[0].0)
    else
      var t := FirstTopic(table[1..], msg);
      assert t.Some? ==> exists i :: FirstHit(table, msg, i) && table[i].0 == t.value by {
        if t.Some? {
          var i :| FirstHit(table[1..], msg, i) && table[1..][i].0 == t.value;
          assert FirstHit(table, msg, i + 1);
        }
      }
      assert t.None? ==> forall i :: 0 <= i < |table| ==> !ContainsAny(msg, table[i].1) by {
        if t.None? {
          forall i | 0 <= i < |table| ensures !ContainsAny(msg, table[i].1) {
            if i > 0 {
              assert table[i] == table[1..][i - 1];
            }
          }
        }
      }
      t
  }

  /** The topic of a lowercased message. */
  function Classify(msg: string): Option<Topic> {
    FirstTopic(Topics, msg)
  }

  /** The word searched for by the honors, research and leadership topics. */
  function TopicWord(t: Topic): string {
    match t
    case HonorsTopic => "honors"
    case ResearchTopic => "research"
    case LeadershipTopic => "leadership"
    case _ => ""
  }

  /** `str.title()` of the topic word. */
  function TopicTitle(t: Topic): string {
    match t
    case HonorsTopic => "Honors"
    case ResearchTopic => "Research"
    case LeadershipTopic => "Leadership"
    case _ => ""
  }

  predicate Searched(t: Topic) {
    t == HonorsTopic || t == ResearchTopic || t == LeadershipTopic
  }

  /** Topics answered with a list of the fields relevant to them. */
  predicate Listing(t: Topic) {
    t == GpaTopic || t == UniversityTopic || t == GraduationTopic || Searched(t)
  }

  /** Whether a field belongs in the list of a listing topic: by its
      lowercased name for gpa, university and graduation; by its lowercased
      name or value for the searched topics. */
  predicate Relevant(t: Topic, f: (string, string)) {
    var k := Lower(f.0);
    match t
    case GpaTopic => Contains(k, "gpa")
    case UniversityTopic => Contains(k, "university") || Contains(k, "college")
    case GraduationTopic => Contains(k, "conferred") || Contains(k, "graduation")
    case _ => Searched(t) && (Contains(k, TopicWord(t)) || Contains(Lower(f.1), TopicWord(t)))
  }

  /** The relevant fields, in field order. */
  function Select(t: Topic, fields: Dict<string>): (r: Dict<string>)
    ensures |r| <= |fields|
    ensures forall f :: f in r <==> f in fields && Relevant(t, f)
  {
    if |fields| == 0 then []
    else (if Relevant(t, fields[0]) then [fields[0]] else []) + Select(t, fields[1..])
  }

  /** Selection keeps field order: selecting from two parts in turn lists
      the first part's relevant fields before the second's. */
  lemma {:induction false} SelectAppend(t: Topic, a: Dict<string>, b: Dict<string>)
    ensures Select(t, a + b) == Select(t, a) + Select(t, b)
    decreases |a|
  {
    if |a| == 0 {
      assert a + b == b;
    } else {
      assert (a + b)[0] == a[0];
      assert (a + b)[1..] == a[1..] + b;
      SelectAppend(t, a[1..], b);
    }
  }

  /** The branch an answer takes and the data it shows. */
  datatype Answer =
    | NameIs(name: string, confidence: real)
    | DegreeIs(degree: string, confidence: real)
    | Listed(topic: Topic, fields: Dict<string>)
    | NothingListed(topic: Topic)
    | OnlyInRawText(topic: Topic)
    | ScoreReport(finalScore: real, scores: Dict<real>)
    | NoScore
    | CriteriaReport(criteria: Dict<real>)
    | NoCriteria
    | Overview(shown: Dict<string>, more: nat)
    | NoData

  /** The answer for `topic`. The name and degree topics answer only when
      the exact key `Name` or `Degree` exists and otherwise fall through to
      the overview, like a message with no topic. The overview shows the
      first five fields and counts the rest. */
  function Respond(topic: Option<Topic>, cert: Certificate, ev: Evaluation): (a: Answer)
    ensures topic == Some(NameTopic) && HasKey(cert.extractedFields, "Name") ==>
              a == NameIs(GetOr(cert.extractedFields, "Name", ""), GetOr(cert.confidence, "Name", 0.0))
    ensures topic == Some(DegreeTopic) && HasKey(cert.extractedFields, "Degree") ==>
              a == DegreeIs(GetOr(cert.extractedFields, "Degree", ""), GetOr(cert.confidence, "Degree", 0.0))
    ensures topic.Some? && Listing(topic.value) ==>
              var sel := Select(topic.value, cert.extractedFields);
              && (|sel| > 0 ==> a == Listed(topic.value, sel))
              && (|sel| == 0 && !Searched(topic.value) ==> a == NothingListed(topic.value))
              && (|sel| == 0 && Searched(topic.value) ==>
                    a == (if Contains(Lower(cert.rawText), TopicWord(topic.value))
                          then OnlyInRawText(topic.value) else NothingListed(topic.value)))
    ensures topic == Some(ScoreTopic) ==>
              a == (if ev.finalScore > 0.0 then ScoreReport(ev.finalScore, ev.scores) else NoScore)
    ensures topic == Some(CriteriaTopic) ==>
              a == (if |ev.criteria| > 0 then CriteriaReport(ev.criteria) else NoCriteria)
    ensures || topic.None?
            || (topic == Some(NameTopic) && !HasKey(cert.extractedFields, "Name"))
            || (topic == Some(DegreeTopic) && !HasKey(cert.extractedFields, "Degree"))
            ==> var fields := cert.extractedFields;
                a == (if |fields| == 0 then NoData
                      else Overview(Take5(fields), if |fields| > 5 then |fields| - 5 else 0))
  {
    var fields := cert.extractedFields;
    match topic
    case Some(t) =>
      if t == NameTopic && HasKey(fields, "Name") then
        NameIs(GetOr(fields, "Name", ""), GetOr(cert.confidence, "Name", 0.0))
      else if t == DegreeTopic && HasKey(fields, "Degree") then
        DegreeIs(GetOr(fields, "Degree", ""), GetOr(cert.confidence, "Degree", 0.0))
      else if Listing(t) then
        var sel := Select(t, fields);
        if |sel| > 0 then Listed(t, sel)
        else if Searched(t) && Contains(Lower(cert.rawText), TopicWord(t)) then OnlyInRawText(t)
        else NothingListed(t)
      else if t == ScoreTopic then
        if ev.finalScore > 0.0 then ScoreReport(ev.finalScore, ev.scores) else NoScore
      else if t == CriteriaTopic then
        if |ev.criteria| > 0 then CriteriaReport(ev.criteria) else NoCriteria
      else General(fields)
    case None => General(fields)
  }

  function General(fields: Dict<string>): Answer {
    if |fields| == 0 then NoData
    else Overview(Take5(fields), if |fields| > 5 then |fields| - 5 else 0)
  }

  /** `list(d.items())[:5]`. */
  function Take5(fields: Dict<string>): (r: Dict<string>)
    ensures |r| == if |fields| < 5 then |fields| else 5
    ensures r == fields[..|r|]
  {
    if |fields| < 5 then fields else fields[..5]
  }

  // Rendering.

  /** One `  - field: value (confidence: c%)` line per field. */
  function FieldConfLines(fields: Dict<string>, confidence: Dict<real>): string
    decreases |fields|
  {
    if |fields| == 0 then ""
    else
      "  - " + fields[0].0 + ": " + fields[0].1
        + " (confidence: " + Fixed(GetOr(confidence, fields[0].0, 0.0) * 100.0, 1) + "%)\n"
        + FieldConfLines(fields[1..], confidence)
  }

  function ScoreBreakdown(scores: Dict<real>, criteria: Dict<real>): string
    decreases |scores|
  {
    if |scores| == 0 then ""
    else
      "  - " + scores[0].0 + ": " + Fixed(scores[0].1, 1)
        + " (weight: " + Fixed(GetOr(criteria, scores[0].0, 0.0), 2) + ")\n"
        + ScoreBreakdown(scores[1..], criteria)
  }

  function CriteriaLines(criteria: Dict<real>): string
    decreases |criteria|
  {
    if |criteria| == 0 then ""
    else "  - " + criteria[0].0 + ": weight=" + Fixed(criteria[0].1, 2) + "\n" + CriteriaLines(criteria[1..])
  }

  function ListHeader(t: Topic): string {
    match t
    case GpaTopic => "📊 **GPA Information:**\n"
    case UniversityTopic => "🏛️ **Institution Information:**\n"
    case GraduationTopic => "📅 **Graduation Information:**\n"
    case _ => "🏆 **" + TopicTitle(t) + " Information:**\n"
  }

  function NothingMessage(t: Topic): string {
    match t
    case GpaTopic => "⚠️ No GPA information found in extracted data.\n\n"
    case UniversityTopic => "⚠️ No university information found in extracted data.\n\n"
    case GraduationTopic => "⚠️ No graduation date found in extracted data.\n\n"
    case _ => "⚠️ No " + TopicWord(t) + " information found in the certificate.\n\n"
  }

  /** The reply text of an answer. */
  function Render(a: Answer, cert: Certificate, ev: Evaluation): string {
    match a
    case NameIs(name, c) =>
      "📝 The student's name is **" + name + "** (confidence: " + Fixed(c * 100.0, 1) + "%)\n\n"
    case DegreeIs(degree, c) =>
      "🎓 The degree is **" + degree + "** (confidence: " + Fixed(c * 100.0, 1) + "%)\n\n"
    case Listed(t, fields) => ListHeader(t) + FieldConfLines(fields, cert.confidence) + "\n"
    case NothingListed(t) => NothingMessage(t)
    case OnlyInRawText(t) =>
      "ℹ️ " + TopicTitle(t) + " information exists in the certificate but hasn't been extracted yet.\n"
        + "Would you like me to extract it?\n\n"
    case ScoreReport(final, scores) =>
      "⭐ **Current Evaluation Score: " + Fixed(final, 1) + "/100**\n\n"
        + (if |scores| > 0 then "**Score Breakdown:**\n" + ScoreBreakdown(scores, ev.criteria) + "\n" else "")
    case NoScore => "⚠️ No score calculated yet. Please set criteria and run scoring first.\n\n"
    case CriteriaReport(criteria) => "🎯 **Active Evaluation Criteria:**\n" + CriteriaLines(criteria) + "\n"
    case NoCriteria => "⚠️ No evaluation criteria set yet.\n\n"
    case Overview(shown, more) =>
      "📋 **Available Information from Certificate:**\n" + FieldConfLines(shown, cert.confidence)
        + (if more > 0 then "  ... and " + NatToString(more) + " more fields\n" else "")
        + "\n💡 Ask me about a specific field for more details!\n\n"
    case NoData =>
      "⚠️ No certificate data extracted yet.\nSay 'Extract information from my certificate' to begin.\n\n"
  }

  // The handler.

  const AutoMarker := "Auto-extracted"
  const ExistingStateNote := "\n\n✓ *Answered from existing state (no re-extraction needed)*"
  const AutoNotice := "🔄 **No data extracted yet - let me extract it for you automatically!**\n\nExtracting certificate information now...\n"
  const AutoFailedMessage := "❌ **Failed to extract certificate information.**\n\nPlease check that the certificate file exists and has content.\nFile location: `data/certificate.txt`"
  const AutoReason := "User asked for information that wasn't extracted yet. Auto-extracted certificate data first, then answered the question. This demonstrates intelligent proactive behavior - understanding user intent and fulfilling it automatically."

  /** The reply to the state's question. */
  function Response(s: State): string {
    var topic := Classify(Lower(s.conversation.lastUserMessage));
    Render(Respond(topic, s.certificate, s.evaluation), s.certificate, s.evaluation)
  }

  /** The state after the extraction that runs when no field exists: the
      extraction's state, with the auto-extraction banner around its
      message and the auto-extraction reason. */
  function AutoExtracted(s: State, reply: ExtractionReply, toFloat: string -> Option<real>): State {
    var x := ExtractInformation(WithMessage(s, AutoNotice), reply, toFloat);
    x.(conversation := x.conversation.(
      lastReason := AutoReason,
      lastAgentMessage := Banner(x.conversation.lastAgentMessage)))
  }

  /** The extraction's message inside the auto-extraction banner, which
      opens with `✓ **Auto-extracted certificate data!**` and closes with
      a rule. */
  function Banner(m: string): string {
    "✓ **" + AutoMarker + BannerRest(m)
  }

  function BannerRest(m: string): string {
    " certificate data!**\n\n" + m + "\n\n---\n\n"
  }

  /** The banner message after an auto-extraction holds the marker the
      answering half looks for, so that half always appends to it. */
  lemma AutoExtractedMarked(s: State, reply: ExtractionReply, toFloat: string -> Option<real>)
    ensures Contains(AutoExtracted(s, reply, toFloat).conversation.lastAgentMessage, AutoMarker)
  {
    var x := ExtractInformation(WithMessage(s, AutoNotice), reply, toFloat);
    ContainsMiddle("✓ **", AutoMarker, BannerRest(x.conversation.lastAgentMessage));
  }

  /** `answer_from_state` as written. Whether the reply is appended to the
      previous message, and whether the existing-state note is added, is
      decided by looking for `Auto-extracted` in the agent message the
      state already holds. When fields exist, that message is the previous
      turn's. */
  function AnswerFromState(s: State, reply: ExtractionReply, toFloat: string -> Option<real>): (r: State)
    ensures |s.certificate.extractedFields| > 0 ==>
              && OnlyTalk(s, r)
              && LoggedOnce(s, r, AnswerTag)
              && (!Contains(s.conversation.lastAgentMessage, AutoMarker) ==>
                    r.conversation.lastAgentMessage == Response(s) + ExistingStateNote)
              && (Contains(s.conversation.lastAgentMessage, AutoMarker) ==>
                    r.conversation.lastAgentMessage == s.conversation.lastAgentMessage + Response(s))
    ensures |s.certificate.extractedFields| == 0 ==>
              var x := ExtractInformation(WithMessage(s, AutoNotice), reply, toFloat);
              && r.certificate == x.certificate
              && r.evaluation == s.evaluation
              && (|x.certificate.extractedFields| == 0 ==>
                    && r.conversation.history == x.conversation.history
                    && r.conversation.lastAgentMessage == AutoFailedMessage
                    && r.conversation.lastReason == s.conversation.lastReason)
              && (|x.certificate.extractedFields| > 0 ==>
                    var a := AutoExtracted(s, reply, toFloat);
                    && r.conversation.lastReason == AutoReason
                    && r.conversation.lastAgentMessage == a.conversation.lastAgentMessage + Response(a)
                    && |r.conversation.history| == |s.conversation.history| + 2
                    && r.conversation.history[..|s.conversation.history|] == s.conversation.history
                    && r.conversation.history[|s.conversation.history|].action == ExtractTag
                    && r.conversation.history[|s.conversation.history| + 1].action == AnswerTag)
  {
    if |s.certificate.extractedFields| == 0 then
      var x := ExtractInformation(WithMessage(s, AutoNotice), reply, toFloat);
      if |x.certificate.extractedFields| == 0 then WithMessage(x, AutoFailedMessage)
      else
        var a := AutoExtracted(s, reply, toFloat);
        AutoExtractedMarked(s, reply, toFloat);
        Reply(a, Response(a))
    else Reply(s, Response(s))
  }

  /** The answering half of `answer_from_state` as written, given the reply
      text: after a message holding the banner the reply is appended to
      it; otherwise it replaces it, followed by the existing-state note. */
  function Reply(s: State, response: string): (r: State)
    ensures OnlyTalk(s, r) && LoggedOnce(s, r, AnswerTag)
    ensures var prev := s.conversation.lastAgentMessage;
            && (Contains(prev, AutoMarker) ==> r.conversation.lastAgentMessage == prev + response)
            && (!Contains(prev, AutoMarker) ==> r.conversation.lastAgentMessage == response + ExistingStateNote)
  {
    var prev := s.conversation.lastAgentMessage;
    var noted := if !Contains(prev, AutoMarker) then response + ExistingStateNote else response;
    var msg := if Contains(prev, AutoMarker) then prev + noted else noted;
    Record(WithMessage(s, msg), AnswerTag)
  }

  /** `answer_from_state` as evidently intended: the `auto_extracted` flag
      the handler sets, not the text of the previous message, decides
      whether the reply extends the extraction banner. */
  function AnswerFromStateFixed(s: State, reply: ExtractionReply, toFloat: string -> Option<real>): (r: State)
    ensures |s.certificate.extractedFields| > 0 ==>
              && OnlyTalk(s, r)
              && LoggedOnce(s, r, AnswerTag)
              && r.conversation.lastAgentMessage == Response(s) + ExistingStateNote
    ensures |s.certificate.extractedFields| == 0 ==>
              var x := ExtractInformation(WithMessage(s, AutoNotice), reply, toFloat);
              && r.certificate == x.certificate
              && r.evaluation == s.evaluation
              && (|x.certificate.extractedFields| == 0 ==>
                    && r.conversation.history == x.conversation.history
                    && r.conversation.lastAgentMessage == AutoFailedMessage)
              && (|x.certificate.extractedFields| > 0 ==>
                    var a := AutoExtracted(s, reply, toFloat);
                    && r.conversation.lastReason == AutoReason
                    && r.conversation.lastAgentMessage == a.conversation.lastAgentMessage + Response(a)
                    && |r.conversation.history| == |s.conversation.history| + 2)
  {
    if |s.certificate.extractedFields| == 0 then
      var x := ExtractInformation(WithMessage(s, AutoNotice), reply, toFloat);
      if |x.certificate.extractedFields| == 0 then WithMessage(x, AutoFailedMessage)
      else
        var a := AutoExtracted(s, reply, toFloat);
        Record(WithMessage(a, a.conversation.lastAgentMessage + Response(a)), AnswerTag)
    else
      Record(WithMessage(s, Response(s) + ExistingStateNote), AnswerTag)
  }

  // Properties.

  /** A message hitting a name keyword is about the name, whatever else it
      mentions: the first topic wins. */
  lemma NameComesFirst(msg: string)
    requires ContainsAny(msg, Topics[0].1)
    ensures Classify(msg) == Some(NameTopic)
  {
  }

  /** The topic found is the first one hit, and no topic is found exactly
      when no keyword occurs. */
  lemma ClassifyFirstMatch(msg: string, i: nat)
    requires FirstHit(Topics, msg, i)
    ensures Classify(msg) == Some(Topics[i].0)
  {
    var t := Classify(msg);
    if t.Some? {
      var j :| FirstHit(Topics, msg, j) && Topics[j].0 == t.value;
      assert j == i;
    }
  }

  /** The overview never shows more than five fields, and shown plus
      counted make up all of them. */
  lemma OverviewCounts(cert: Certificate, ev: Evaluation)
    requires |cert.extractedFields| > 0
    ensures var a := Respond(None, cert, ev);
            && a.Overview?
            && |a.shown| <= 5
            && |a.shown| + a.more == |cert.extractedFields|
            && a.shown == cert.extractedFields[..|a.shown|]
  {
  }

  /** Asking for the name without a `Name` field gives the same answer as
      asking nothing in particular. */
  lemma MissingNameGivesOverview(cert: Certificate, ev: Evaluation)
    requires !HasKey(cert.extractedFields, "Name")
    ensures Respond(Some(NameTopic), cert, ev) == Respond(None, cert, ev)
  {
  }

  /** The score is reported only once it is positive. */
  lemma ScoreOnlyWhenPositive(cert: Certificate, ev: Evaluation)
    ensures Respond(Some(ScoreTopic), cert, ev).ScoreReport? <==> ev.finalScore > 0.0
  {
  }

  /** The finding: a question answered from existing fields right after an
      auto-extracting turn is appended to that turn's reply, because the
      previous message still holds the banner. */
  lemma StaleBannerRepeatsPreviousReply(s: State, reply: ExtractionReply, toFloat: string -> Option<real>)
    requires |s.certificate.extractedFields| > 0
    requires Contains(s.conversation.lastAgentMessage, AutoMarker)
    ensures StartsWith(AnswerFromState(s, reply, toFloat).conversation.lastAgentMessage, s.conversation.lastAgentMessage)
  {
    var prev := s.conversation.lastAgentMessage;
    assert (prev + Response(s))[..|prev|] == prev;
  }

  /** As written, the reply to the same question on the same data depends
      on what the previous turn said (`Reply` is what `AnswerFromState` does
      with the reply text once fields exist). */
  lemma ReplyDependsOnPreviousTurn(s: State, other: string, response: string)
    requires Contains(s.conversation.lastAgentMessage, AutoMarker) && Contains(other, AutoMarker)
    requires |other| != |s.conversation.lastAgentMessage|
    ensures Reply(s, response).conversation.lastAgentMessage
            != Reply(WithMessage(s, other), response).conversation.lastAgentMessage
  {
    PrefixesOfOtherLength(s.conversation.lastAgentMessage, other, response);
  }

  lemma PrefixesOfOtherLength(p: string, o: string, r: string)
    requires |o| != |p|
    ensures p + r != o + r
  {
  }

  /** With the fix it does not: only the question and the data matter. */
  lemma FixedReplyIgnoresPreviousTurn(s: State, other: string, reply: ExtractionReply, toFloat: string -> Option<real>)
    requires |s.certificate.extractedFields| > 0
    ensures AnswerFromStateFixed(s, reply, toFloat).conversation.lastAgentMessage
            == AnswerFromStateFixed(WithMessage(s, other), reply, toFloat).conversation.lastAgentMessage
  {
    SameQuestionSameResponse(s, WithMessage(s, other));
  }

  /** The reply text depends only on the question and the data. */
  lemma SameQuestionSameResponse(s: State, t: State)
    requires t.certificate == s.certificate && t.evaluation == s.evaluation
    requires t.conversation.lastUserMessage == s.conversation.lastUserMessage
    ensures Response(t) == Response(s)
  {
  }

  /** With the fix, answering the same question twice from existing fields
      gives the same reply and leaves the certificate alone. */
  lemma FixedAnswerRepeats(s: State, reply: ExtractionReply, toFloat: string -> Option<real>)
    requires |s.certificate.extractedFields| > 0
    ensures var r1 := AnswerFromStateFixed(s, reply, toFloat);
            var r2 := AnswerFromStateFixed(r1, reply, toFloat);
            && r2.conversation.lastAgentMessage == r1.conversation.lastAgentMessage
            && r2.certificate == s.certificate
  {
    var r1 := AnswerFromStateFixed(s, reply, toFloat);
    assert r1.certificate == s.certificate && r1.evaluation == s.evaluation;
    SameQuestionSameResponse(s, r1);
  }
}

=== FILE: clarify.dfy ===
/** `ask_clarification` of actions/clarify.py: a request for criteria when
    the user wants a score and none is set, otherwise a report of what is
    unclear (the router's uncertainty note and the low-confidence fields),
    with a generic tip when there is nothing specific to report. The
    handler always leaves a confirmation pending. */
module Clarify {
  import opened Dicts
  import opened Text
  import opened States

  /** A message containing one of these asks for a score. */
  const ScoreWords := ["score", "calculate", "rate", "evaluate", "scoring"]

  /** Confidences strictly below this are reported as low. */
  const LowThreshold := 0.7

  /** Whether the lowercased message contains a scoring word. Matching is by
      substring, so words like "separate" or "generate" count as well. */
  predicate WantsScore(msg: string) {
    ContainsAny(Lower(msg), ScoreWords)
  }

  /** The fields whose confidence is below the threshold, in map order. */
  function LowConfidence(confidence: Dict<real>): (low: Dict<real>)
    ensures |low| <= |confidence|
    ensures forall p :: p in low <==> p in confidence && p.1 < LowThreshold
    decreases |confidence|
  {
    if |confidence| == 0 then []
    else
      var rest := LowConfidence(confidence[1..]);
      assert forall p :: p in confidence <==> p == confidence[0] || p in confidence[1..];
      if confidence[0].1 < LowThreshold then [confidence[0]] + rest else rest
  }

  /** The low fields keep map order: those of a front part come before
      those of the rest. */
  lemma {:induction false} LowConfidenceAppend(a: Dict<real>, b: Dict<real>)
    ensures LowConfidence(a + b) == LowConfidence(a) + LowConfidence(b)
    decreases |a|
  {
    if |a| == 0 {
      assert a + b == b;
    } else {
      assert (a + b)[0] == a[0];
      assert (a + b)[1..] == a[1..] + b;
      LowConfidenceAppend(a[1..], b);
    }
  }

  /** What the handler asks for. */
  datatype Request =
    | AskCriteria
      /** `uncertainty` is reported when not empty, `low` lists the
          low-confidence fields, `tip` adds the generic advice. */
    | Unclear(uncertainty: string, low: Dict<real>, tip: bool)

  /** The request for a state: criteria are asked for exactly when a score
      is wanted and none is set; otherwise the low-confidence fields are
      those below the threshold and the tip is given exactly when neither an
      uncertainty nor a low field is there to report. */
  function Assess(s: State): (q: Request)
    ensures q.AskCriteria? <==> WantsScore(s.conversation.lastUserMessage) && |s.evaluation.criteria| == 0
    ensures q.Unclear? ==> q.uncertainty == s.conversation.uncertainty
    ensures q.Unclear? ==> forall p :: p in q.low <==> p in s.certificate.confidence && p.1 < LowThreshold
    ensures q.Unclear? ==> (q.tip <==> s.conversation.uncertainty == ""
                                       && forall p :: p in s.certificate.confidence ==> p.1 >= LowThreshold)
  {
    if WantsScore(s.conversation.lastUserMessage) && |s.evaluation.criteria| == 0 then AskCriteria
    else
      var low := LowConfidence(s.certificate.confidence);
      assert |low| > 0 ==> low[0] in low;
      Unclear(s.conversation.uncertainty, low, s.conversation.uncertainty == "" && |low| == 0)
  }

  const CriteriaRequestMessage :=
    "⚠️ **No evaluation criteria set yet!**\n\n"
    + "To calculate scores, I need to know what criteria to use.\n\n"
    + "**Please tell me what factors to evaluate, for example:**\n"
    + "• 'Set criteria to GPA 40%, Research 30%, Leadership 30%'\n"
    + "• 'Evaluate based on GPA, Institution, and Degree'\n"
    + "• 'Use GPA and Research as criteria'\n\n"
    + "You can specify weights (percentages) or I'll distribute them equally.\n\n"
    + "What criteria would you like to use? 🎯"

  const UnclearHeader := "⚠️ Some information is unclear or missing.\n\nPlease confirm or provide more details:\n"
  const TipLine := "\n💡 Tip: Try being more specific about what you'd like me to do.\n"

  /** One line of the low-confidence list. */
  function LowLine(p: (string, real)): string {
    "  - " + p.0 + " (" + Fixed(p.1 * 100.0, 1) + "% confidence)\n"
  }

  function LowLines(low: Dict<real>): seq<string> {
    seq(|low|, i requires 0 <= i < |low| => LowLine(low[i]))
  }

  /** The uncertainty note, when there is an uncertainty. */
  function UncertaintyPart(u: string): string {
    if u != "" then "\nUncertainty detected: " + u + "\n" else ""
  }

  const LowHeader := "\nFields with low confidence:\n"

  /** The low-confidence list, when there is a low field. */
  function LowPart(low: Dict<real>): string {
    if |low| > 0 then LowHeader + Concat(LowLines(low)) else ""
  }

  /** The text of a request. */
  function Render(q: Request): string {
    match q
    case AskCriteria => CriteriaRequestMessage
    case Unclear(u, low, tip) =>
      UnclearHeader + UncertaintyPart(u) + LowPart(low) + (if tip then TipLine else "")
  }

  /** `ask_clarification`: the message is the rendered request, a
      confirmation becomes pending, one entry is appended, and nothing else
      changes. */
  function AskClarification(s: State): (r: State)
    ensures OnlyTalk(s.(conversation := s.conversation.(pendingConfirmation := true)), r)
    ensures r.conversation.pendingConfirmation
    ensures LoggedOnce(s, r, ClarifyTag)
    ensures r.conversation.lastAgentMessage == Render(Assess(s))
  {
    var t := WithMessage(s, Render(Assess(s)));
    Record(t.(conversation := t.conversation.(pendingConfirmation := true)), ClarifyTag)
  }

  // Properties.

  /** Without a scoring request, or with criteria set, the message starts
      with the unclear-information header and reports the uncertainty. */
  lemma UncertaintyReported(s: State)
    requires !WantsScore(s.conversation.lastUserMessage) || |s.evaluation.criteria| > 0
    requires s.conversation.uncertainty != ""
    ensures var m := AskClarification(s).conversation.lastAgentMessage;
            StartsWith(m, UnclearHeader)
            && Contains(m, "\nUncertainty detected: " + s.conversation.uncertainty + "\n")
  {
    var q := Assess(s);
    var u := UncertaintyPart(s.conversation.uncertainty);
    var tail := LowPart(q.low) + (if q.tip then TipLine else "");
    assert Render(q) == UnclearHeader + u + tail;
    ContainsMiddle(UnclearHeader, u, tail);
    assert Render(q)[..|UnclearHeader|] == UnclearHeader;
  }

  /** Every low-confidence field is listed with its percentage. */
  lemma LowFieldsListed(s: State, p: (string, real))
    requires !WantsScore(s.conversation.lastUserMessage) || |s.evaluation.criteria| > 0
    requires p in s.certificate.confidence && p.1 < LowThreshold
    ensures Contains(AskClarification(s).conversation.lastAgentMessage, LowLine(p))
  {
    var q := Assess(s);
    assert p in q.low;
    var i :| 0 <= i < |q.low| && q.low[i] == p;
    var lines := LowLines(q.low);
    ConcatContains(lines, i);
    assert LowPart(q.low) == LowHeader + Concat(lines) + "";
    ContainsInMiddle(LowHeader, Concat(lines), "", lines[i]);
    ContainsInMiddle(UnclearHeader + UncertaintyPart(q.uncertainty), LowPart(q.low), if q.tip then TipLine else "", lines[i]);
  }

  /** A confidence of exactly 0.7 is not low. */
  lemma ThresholdNotLow(k: string)
    ensures LowConfidence([(k, 0.7)]) == []
  {
  }

  /** When every confidence is below the threshold, all fields are listed,
      in their order. */
  lemma {:induction false} AllLow(confidence: Dict<real>)
    requires forall i :: 0 <= i < |confidence| ==> confidence[i].1 < LowThreshold
    ensures LowConfidence(confidence) == confidence
    decreases |confidence|
  {
    if |confidence| > 0 {
      AllLow(confidence[1..]);
      assert [confidence[0]] + confidence[1..] == confidence;
    }
  }

  /** Substring matching: a message that mentions "separate" wants a
      score, since "separate" contains "rate". */
  lemma SeparateWantsScore(msg: string)
    requires Contains(Lower(msg), "separate")
    ensures WantsScore(msg)
  {
    ContainsMiddle("sepa", "rate", "");
    assert "sepa" + "rate" + "" == "separate";
    ContainsWithin(Lower(msg), "separate", "rate");
    assert ScoreWords[2] == "rate";
  }

  /** Asking twice keeps the request: the second message is the first. */
  lemma AskingTwiceRepeats(s: State)
    ensures var r1 := AskClarification(s);
            var r2 := AskClarification(r1);
            && r2.conversation.lastAgentMessage == r1.conversation.lastAgentMessage
            && |r2.conversation.history| == |s.conversation.history| + 2
  {
    var r1 := AskClarification(s);
    assert r1.conversation.lastUserMessage == s.conversation.lastUserMessage;
    assert Assess(r1) == Assess(s);
  }
}

=== FILE: compare.dfy ===
/** `compare_certificates` of actions/compare.py. The system holds a single
    certificate, so the handler only chooses between two fixed texts: a
    note on the comparison request when the message reads like one, and
    the list of available comparisons otherwise. */
module Compare {
  import opened Text
  import opened States

  /** The lowercased message contains "with", "vs" or "versus". */
  predicate AsksComparison(msg: string) {
    var m := Lower(msg);
    Contains(m, "with") || Contains(m, "vs") || Contains(m, "versus")
  }

  const RequestedMessage :=
    "📊 Certificate comparison requested.\n\n"
    + "I detected a comparison request, but this system is currently configured for single-certificate evaluation.\n\n"
    + "To enable multi-certificate comparison:\n"
    + "  1. Load additional certificate data into the system\n"
    + "  2. Define comparison criteria (e.g., GPA ranges, institution tiers)\n"
    + "  3. Specify what aspects to compare (academic performance, honors, etc.)\n\n"
    + "For this certificate, I can provide detailed evaluation against standard benchmarks or custom criteria you specify."

  const CapabilitiesMessage :=
    "📊 Certificate comparison capabilities:\n\n"
    + "Current system: Single certificate evaluation mode\n\n"
    + "Available comparison features:\n"
    + "  • Evaluate against standard academic benchmarks\n"
    + "  • Compare to industry averages\n"
    + "  • Assess competitiveness for graduate programs\n"
    + "  • Benchmark against peer institutions\n\n"
    + "What specific comparison would you like me to perform?"

  /** The reply: the request note exactly when the message asks for a
      comparison. The two texts differ, so the reply tells which branch
      was taken. */
  function Reply(msg: string): (m: string)
    ensures m == RequestedMessage <==> AsksComparison(msg)
    ensures m == CapabilitiesMessage <==> !AsksComparison(msg)
  {
    assert RequestedMessage[29] != CapabilitiesMessage[29];
    if AsksComparison(msg) then RequestedMessage else CapabilitiesMessage
  }

  /** `compare_certificates`: only the message and the history change, by
      exactly one entry. */
  function CompareCertificates(s: State): (r: State)
    ensures OnlyTalk(s, r)
    ensures LoggedOnce(s, r, CompareTag)
    ensures r.conversation.lastAgentMessage == Reply(s.conversation.lastUserMessage)
  {
    Record(WithMessage(s, Reply(s.conversation.lastUserMessage)), CompareTag)
  }

  // Properties.

  /** Matching is by substring: a message saying "without" is read as a
      comparison request. */
  lemma WithoutAsksComparison(msg: string)
    requires Contains(Lower(msg), "without")
    ensures AsksComparison(msg)
    ensures Reply(msg) == RequestedMessage
  {
    ContainsMiddle("", "with", "out");
    assert "" + "with" + "out" == "without";
    ContainsWithin(Lower(msg), "without", "with");
  }

  /** Capitals do not hide a request: a message holding "vs" in any
      mix of cases gets the request note. */
  lemma CapitalVsAsksComparison(msg: string, w: string)
    requires Contains(msg, w) && Lower(w) == "vs"
    ensures Reply(msg) == RequestedMessage
  {
    LowerKeepsContains(msg, w);
  }
}

=== FILE: dicts.dfy ===
/** Python dictionaries as insertion-ordered association lists.

    Every mapping the system keeps (extracted fields, confidences, criteria,
    scores, JSON objects) is a Python `dict`, whose iteration order is the
    order keys were first inserted and which several handlers observe (the
    five-field overview, the score breakdown, the per-action counts). A
    `Dict<V>` is therefore a sequence of key/value pairs; a dictionary the
    program builds never repeats a key, which `UniqueKeys` states. */
module Dicts {
  import opened Wrappers

  type Dict<V> = seq<(string, V)>

  /** `list(d.keys())`. */
  function Keys<V>(d: Dict<V>): (ks: seq<string>)
    ensures |ks| == |d|
    ensures forall i :: 0 <= i < |d| ==> ks[i] == d[i].0
  {
    seq(|d|, i requires 0 <= i < |d| => d[i].0)
  }

  /** `list(d.values())`. */
  function Values<V>(d: Dict<V>): (vs: seq<V>)
    ensures |vs| == |d|
    ensures forall i :: 0 <= i < |d| ==> vs[i] == d[i].1
  {
    seq(|d|, i requires 0 <= i < |d| => d[i].1)
  }

  /** `k in d`. */
  predicate HasKey<V>(d: Dict<V>, k: string) {
    k in Keys(d)
  }

  /** The keys of a dict with one more pair in front. */
  lemma KeysCons<V>(p: (string, V), d: Dict<V>)
    ensures Keys([p] + d) == [p.0] + Keys(d)
    ensures forall k :: HasKey([p] + d, k) <==> k == p.0 || HasKey(d, k)
  {
    assert Keys([p] + d) == [p.0] + Keys(d);
  }

  /** A Python dict never holds the same key twice. */
  predicate UniqueKeys<V>(d: Dict<V>) {
    forall i, j :: 0 <= i < j < |d| ==> d[i].0 != d[j].0
  }

  /** A sequence without repeats holds each value at most once. */
  lemma {:induction false} DistinctOnce<T>(s: seq<T>)
    requires forall i, j :: 0 <= i < j < |s| ==> s[i] != s[j]
    ensures forall x :: multiset(s)[x] <= 1
  {
    if |s| > 0 {
      var rest := s[1..];
      assert forall i, j :: 0 <= i < j < |rest| ==> rest[i] != rest[j] by {
        forall i, j | 0 <= i < j < |rest| ensures rest[i] != rest[j] {
          assert rest[i] == s[i + 1] && rest[j] == s[j + 1];
        }
      }
      DistinctOnce(rest);
      assert s[0] !in rest by {
        forall k | 0 <= k < |rest| ensures rest[k] != s[0] {
          assert rest[k] == s[k + 1];
        }
      }
      assert s == [s[0]] + rest;
      assert multiset(s) == multiset{s[0]} + multiset(rest);
    }
  }

  /** A sequence holding each value at most once has no repeats. */
  lemma OnceDistinct<T>(s: seq<T>, i: nat, j: nat)
    requires forall x :: multiset(s)[x] <= 1
    requires i < j < |s|
    ensures s[i] != s[j]
  {
    var a, b := s[..j], s[j..];
    assert s == a + b;
    assert a[i] == s[i] && b[0] == s[j];
    assert multiset(s)[s[j]] == multiset(a)[s[j]] + multiset(b)[s[j]];
  }

  /** `d.get(k)`: the value stored under `k`, or `None` when `k` is absent. */
  function Get<V>(d: Dict<V>, k: string): (r: Option<V>)
    ensures r.None? <==> !HasKey(d, k)
    ensures r.Some? ==> (k, r.value) in d
  {
    if |d| == 0 then None
    else if d[0].0 == k then Some(d[0].1)
    else Get(d[1..], k)
  }

  /** `d.get(k, default)`. */
  function GetOr<V>(d: Dict<V>, k: string, default: V): V {
    Get(d, k).GetOr(default)
  }

  /** In a dict without repeated keys, looking up the i-th key finds the
      i-th value. */
  lemma {:induction false} GetAt<V>(d: Dict<V>, i: nat)
    requires UniqueKeys(d) && i < |d|
    ensures Get(d, d[i].0) == Some(d[i].1)
  {
    if i > 0 {
      assert d[0].0 != d[i].0;
      assert d[1..][i - 1] == d[i];
      GetAt(d[1..], i - 1);
    }
  }

  /** The position of the first pair whose key is `k`. */
  function KeyIndex<V>(d: Dict<V>, k: string): (i: nat)
    requires HasKey(d, k)
    ensures i < |d| && d[i].0 == k
    ensures forall j :: 0 <= j < i ==> d[j].0 != k
  {
    if d[0].0 == k then 0
    else
      assert k in Keys(d[1..]) by {
        var j :| 0 <= j < |d| && Keys(d)[j] == k;
        assert Keys(d[1..])[j - 1] == k;
      }
      1 + KeyIndex(d[1..], k)
  }

  /** A lookup finds the first pair carrying the key. */
  lemma {:induction false} GetFirst<V>(d: Dict<V>, i: nat)
    requires i < |d|
    requires forall j :: 0 <= j < i ==> d[j].0 != d[i].0
    ensures Get(d, d[i].0) == Some(d[i].1)
  {
    if i > 0 {
      assert d[1..][i - 1] == d[i];
      GetFirst(d[1..], i - 1);
    }
  }

  /** `d[k] = v`: overwrites the value in place when `k` is present, appends
      the pair otherwise. */
  function Put<V>(d: Dict<V>, k: string, v: V): (r: Dict<V>)
    ensures HasKey(d, k) ==> Keys(r) == Keys(d)
    ensures !HasKey(d, k) ==> r == d + [(k, v)]
    ensures Get(r, k) == Some(v)
    ensures forall j :: 0 <= j < |d| && d[j].0 != k ==> r[j] == d[j]
  {
    if HasKey(d, k) then
      var i := KeyIndex(d, k);
      var r := d[i := (k, v)];
      assert Keys(r) == Keys(d);
      GetFirst(r, i);
      r
    else
      var r := d + [(k, v)];
      assert forall j :: 0 <= j < |d| ==> r[j].0 != k by {
        forall j | 0 <= j < |d| ensures r[j].0 != k {
          assert Keys(d)[j] == d[j].0;
        }
      }
      GetFirst(r, |d|);
      r
  }

  /** Writing a key keeps a dict free of repeated keys. */
  lemma PutUnique<V>(d: Dict<V>, k: string, v: V)
    requires UniqueKeys(d)
    ensures UniqueKeys(Put(d, k, v))
  {
    var r := Put(d, k, v);
    if !HasKey(d, k) {
      forall j | 0 <= j < |d| ensures d[j].0 != k {
        assert Keys(d)[j] == d[j].0;
      }
    } else {
      assert Keys(r) == Keys(d);
      forall i, j | 0 <= i < j < |r| ensures r[i].0 != r[j].0 {
        assert Keys(r)[i] == Keys(d)[i] && Keys(r)[j] == Keys(d)[j];
      }
    }
  }

  /** `sum(xs)`. */
  function Sum(xs: seq<real>): real {
    if |xs| == 0 then 0.0 else xs[0] + Sum(xs[1..])
  }

  /** Summing two concatenated lists adds their sums. */
  lemma {:induction false} SumAppend(xs: seq<real>, ys: seq<real>)
    ensures Sum(xs + ys) == Sum(xs) + Sum(ys)
  {
    if |xs| == 0 {
      assert xs + ys == ys;
    } else {
      assert (xs + ys)[1..] == xs[1..] + ys;
      SumAppend(xs[1..], ys);
    }
  }
}

=== FILE: explain.dfy ===
/** `explain_decision` of actions/explain.py, the router's default handler:
    a welcome text for greetings, capability questions and short messages,
    otherwise a dump of the last decision's reason and uncertainty, the
    extracted fields with their confidences, the final score and the
    criteria. */
module Explain {
  import opened Dicts
  import opened Text
  import opened States

  const Greetings := ["hello", "hi", "hey", "good morning", "good afternoon", "good evening", "greetings", "howdy"]
  const CapabilityQueries := ["what can you do", "help", "capabilities", "what do you do", "how does this work"]

  /** Messages shorter than this, once stripped, are welcomed. */
  const ShortLength := 15

  /** The lowercased, stripped message the handler inspects. */
  function Inspected(msg: string): string {
    Strip(Lower(msg))
  }

  /** The welcome branch: a greeting or a capability question occurs as a
      substring, or the message is short. */
  predicate Welcomes(msg: string) {
    var m := Inspected(msg);
    ContainsAny(m, Greetings) || ContainsAny(m, CapabilityQueries) || |m| < ShortLength
  }

  /** The welcome text, cut to its title line: the capability list that
      follows it is fixed prose. */
  const WelcomeMessage := "👋 **Hello! Welcome to the Agentic Certificate Evaluation AI!**\n\n"

  /** The opening of the explanation: the reason, and the uncertainty or
      `None identified`. */
  function ExplanationHead(c: Conversation): string {
    "**Decision Explanation:**\n\n"
      + "**Reason for last step:** " + c.lastReason + "\n\n"
      + "**Uncertainty:** " + (if c.uncertainty != "" then c.uncertainty else "None identified") + "\n\n"
      + "**Extracted Data:**\n"
  }

  /** One field with its confidence, 0 when it has none. */
  function FieldLine(f: (string, string), confidence: Dict<real>): string {
    "  - " + f.0 + ": " + f.1 + " (confidence: " + Fixed(GetOr(confidence, f.0, 0.0) * 100.0, 1) + "%)\n"
  }

  function FieldLines(cert: Certificate): seq<string> {
    seq(|cert.extractedFields|, i requires 0 <= i < |cert.extractedFields| =>
      FieldLine(cert.extractedFields[i], cert.confidence))
  }

  /** The field part of the explanation. */
  function DataPart(cert: Certificate): string {
    if |cert.extractedFields| > 0 then Concat(FieldLines(cert)) else "  - No data extracted yet\n"
  }

  function CriterionLine(c: (string, real)): string {
    "  - " + c.0 + " (weight: " + Fixed(c.1, 1) + ")\n"
  }

  function CriteriaPart(ev: Evaluation): string {
    if |ev.criteria| > 0 then
      "\n**Active Criteria:**\n"
        + Concat(seq(|ev.criteria|, i requires 0 <= i < |ev.criteria| => CriterionLine(ev.criteria[i])))
    else ""
  }

  /** What follows the data part: the final score and the criteria. */
  function ScorePart(ev: Evaluation): string {
    "\n**Current Score:** " + Fixed(ev.finalScore, 1) + "/100\n" + CriteriaPart(ev)
  }

  /** The full explanation. */
  function Explanation(s: State): string {
    ExplanationHead(s.conversation) + DataPart(s.certificate) + ScorePart(s.evaluation)
  }

  /** The handler's reply: the welcome text exactly when the message is
      welcomed, otherwise the explanation, which opens with the reason and
      the uncertainty. */
  function Reply(s: State): (m: string)
    ensures Welcomes(s.conversation.lastUserMessage) ==> m == WelcomeMessage
    ensures !Welcomes(s.conversation.lastUserMessage) ==> m == Explanation(s)
    ensures !Welcomes(s.conversation.lastUserMessage) ==> StartsWith(m, ExplanationHead(s.conversation))
  {
    if Welcomes(s.conversation.lastUserMessage) then WelcomeMessage
    else
      var head := ExplanationHead(s.conversation);
      assert Explanation(s) == head + (DataPart(s.certificate) + ScorePart(s.evaluation));
      Explanation(s)
  }

  /** `explain_decision`: the message is the reply, one entry is appended
      and nothing else changes. */
  function ExplainDecision(s: State): (r: State)
    ensures OnlyTalk(s, r)
    ensures LoggedOnce(s, r, ExplainTag)
    ensures r.conversation.lastAgentMessage == Reply(s)
  {
    Record(WithMessage(s, Reply(s)), ExplainTag)
  }

  // Properties.

  /** Greeting detection is by substring: any message containing "this"
      contains "hi" and is welcomed, whatever it asks. */
  lemma ThisIsAGreeting(msg: string)
    requires Contains(Inspected(msg), "this")
    ensures Welcomes(msg)
  {
    HiInThis();
    var m := Inspected(msg);
    ContainsWithin(m, "this", Greetings[1]);
    assert ContainsAny(m, Greetings);
  }

  lemma HiInThis()
    ensures Contains("this", Greetings[1])
  {
    ContainsMiddle("t", "hi", "s");
    assert "t" + "hi" + "s" == "this";
  }

  /** A short message is welcomed even when it asks for an explanation. */
  lemma ShortMessageWelcomed(msg: string)
    requires |Strip(Lower(msg))| < ShortLength
    ensures Welcomes(msg)
  {
  }

  /** Outside the welcome branch every extracted field is listed with its
      confidence. */
  lemma ExplanationListsFields(s: State, i: nat)
    requires !Welcomes(s.conversation.lastUserMessage)
    requires i < |s.certificate.extractedFields|
    ensures Contains(Reply(s), FieldLine(s.certificate.extractedFields[i], s.certificate.confidence))
  {
    var lines := FieldLines(s.certificate);
    ConcatContains(lines, i);
    ContainsInMiddle(ExplanationHead(s.conversation), DataPart(s.certificate), ScorePart(s.evaluation), lines[i]);
  }

  /** A field without a confidence entry is shown at 0%. */
  lemma MissingConfidenceShownAsZero(f: (string, string), confidence: Dict<real>)
    requires !HasKey(confidence, f.0)
    ensures FieldLine(f, confidence) == "  - " + f.0 + ": " + f.1 + " (confidence: " + Fixed(0.0, 1) + "%)\n"
  {
  }
}

=== FILE: extraction.dfy ===
/** `extract_information` of actions/extract.py: the re-extract gate, the
    cached path, the normalisation of the confidences the model returned,
    the failure path and the wholesale replacement of the certificate's
    fields and confidences.

    The completion call is not modelled: the handler receives the reply
    already parsed, as the `fields` and `confidence` members of the decoded
    object (the parse fallback `{"fields": {}, "confidence": {}}` being the
    empty reply). Python's `float(str)` is the parameter `toFloat`. */
module Extraction {
  import opened Wrappers
  import opened Dicts
  import opened Text
  import opened States
  import opened Parser

  /** The `fields` and `confidence` members of the parsed reply. */
  datatype ExtractionReply = ExtractionReply(fields: Dict<string>, confidence: Dict<Json>)

  /** What the reply is when the parser falls back. */
  const EmptyReply := ExtractionReply([], [])

  /** A message containing one of these asks for a fresh extraction. */
  const ReextractWords := ["re-extract", "extract again", "update", "correct", "change"]

  /** The cache is used when fields exist and no re-extract word occurs in
      the lowercased message. */
  predicate UsesCache(s: State) {
    |s.certificate.extractedFields| > 0
    && !ContainsAny(Lower(s.conversation.lastUserMessage), ReextractWords)
  }

  /** Python's `float(x)` for a decoded JSON value: numbers as they are,
      booleans as 1.0 and 0.0, strings through `toFloat`; `None`, lists and
      objects raise. */
  function FloatOf(j: Json, toFloat: string -> Option<real>): (r: Option<real>)
    ensures j.JNum? ==> r == Some(j.n)
    ensures j.JBool? ==> r == Some(if j.b then 1.0 else 0.0)
    ensures j.JStr? ==> r == toFloat(j.s)
    ensures j.JNull? || j.JArr? || j.JObj? ==> r.None?
  {
    match j
    case JNum(n) => Some(n)
    case JBool(b) => Some(if b then 1.0 else 0.0)
    case JStr(t) => toFloat(t)
    case _ => None
  }

  /** The percentage rule: a value above 1 is read as a percentage. */
  function FromPercent(c: real): real {
    if c > 1.0 then c / 100.0 else c
  }

  /** `max(0.0, min(1.0, c))`. */
  function Clamp(c: real): (r: real)
    ensures 0.0 <= r <= 1.0
    ensures 0.0 <= c <= 1.0 ==> r == c
    ensures c < 0.0 ==> r == 0.0
    ensures c > 1.0 ==> r == 1.0
  {
    if c > 1.0 then 1.0 else if c < 0.0 then 0.0 else c
  }

  /** The confidence stored for one raw value. Objects use their `value`
      member, else their `score` member, without clamping; numbers and
      booleans (a Python `bool` is an `int`) and parsable strings (stripped,
      `%` removed) go through the percentage rule and are clamped; anything
      else, and anything `float` rejects, is 0.5. */
  function NormalizeConfidence(v: Json, toFloat: string -> Option<real>): (r: real)
    ensures v.JNum? ==> r == Clamp(FromPercent(v.n))
    ensures v.JBool? ==> r == (if v.b then 1.0 else 0.0)
    ensures v.JStr? ==> r == (match toFloat(Without(Strip(v.s), '%'))
                              case Some(c) => Clamp(FromPercent(c))
                              case None => 0.5)
    ensures v.JObj? && HasKey(v.members, "value") ==>
              r == FloatOf(GetOr(v.members, "value", JNull), toFloat).GetOr(0.5)
    ensures v.JObj? && !HasKey(v.members, "value") && HasKey(v.members, "score") ==>
              r == FloatOf(GetOr(v.members, "score", JNull), toFloat).GetOr(0.5)
    ensures v.JObj? && !HasKey(v.members, "value") && !HasKey(v.members, "score") ==> r == 0.5
    ensures v.JNull? || v.JArr? ==> r == 0.5
    ensures !v.JObj? ==> 0.0 <= r <= 1.0
  {
    match v
    case JObj(members) =>
      (match Get(members, "value")
       case Some(x) => FloatOf(x, toFloat).GetOr(0.5)
       case None =>
         match Get(members, "score")
         case Some(x) => FloatOf(x, toFloat).GetOr(0.5)
         case None => 0.5)
    case JNum(n) => Clamp(FromPercent(n))
    case JBool(b) => Clamp(FromPercent(if b then 1.0 else 0.0))
    case JStr(t) =>
      (match toFloat(Without(Strip(t), '%'))
       case Some(c) => Clamp(FromPercent(c))
       case None => 0.5)
    case _ => 0.5
  }

  /** The normalised confidence map: same keys in the same order, one
      normalised value per raw value. */
  function NormalizeAll(raw: Dict<Json>, toFloat: string -> Option<real>): (c: Dict<real>)
    ensures Keys(c) == Keys(raw)
    ensures forall i :: 0 <= i < |raw| ==> c[i].1 == NormalizeConfidence(raw[i].1, toFloat)
  {
    seq(|raw|, i requires 0 <= i < |raw| => (raw[i].0, NormalizeConfidence(raw[i].1, toFloat)))
  }

  /** `"\n".join(f"  - {k}: {v}" ...)`. */
  function FieldLines(fields: Dict<string>): string {
    Join(seq(|fields|, i requires 0 <= i < |fields| => "  - " + fields[i].0 + ": " + fields[i].1), '\n')
  }

  /** `"\n".join(f"  - {k}: {v * 100:.1f}%" ...)`. */
  function ConfidenceLines(confidence: Dict<real>): string {
    Join(seq(|confidence|, i requires 0 <= i < |confidence| =>
           "  - " + confidence[i].0 + ": " + Fixed(confidence[i].1 * 100.0, 1) + "%"), '\n')
  }

  function CachedMessage(cert: Certificate): string {
    "✓ Using previously extracted certificate information:\n" + FieldLines(cert.extractedFields)
      + "\n\nConfidence levels:\n" + ConfidenceLines(cert.confidence)
      + "\n\n(Data was cached from previous extraction. Say 're-extract' to force fresh extraction.)"
  }

  const FailedMessage := "❌ Failed to extract information. Please try rephrasing your request.\n\nThe LLM response could not be parsed correctly."

  function ExtractedMessage(cert: Certificate): string {
    "✓ Extracted certificate information:\n"
      + (if |cert.extractedFields| > 0 then FieldLines(cert.extractedFields) else "  - No fields extracted")
      + "\n\nConfidence levels:\n"
      + (if |cert.confidence| > 0 then ConfidenceLines(cert.confidence) else "  - No confidence data")
  }

  /** `extract_information`. On the cached path nothing but the message and
      one history entry changes. On a fresh extraction that finds nothing,
      only the message changes and no entry is appended. Otherwise the
      fields and confidences are replaced by the reply's (not merged), the
      raw text stays, and one entry is appended. */
  function ExtractInformation(s: State, reply: ExtractionReply, toFloat: string -> Option<real>): (r: State)
    ensures r.evaluation == s.evaluation
    ensures r.certificate.rawText == s.certificate.rawText
    ensures OnlyTalk(s.(certificate := r.certificate), r)
    ensures UsesCache(s) ==> OnlyTalk(s, r) && LoggedOnce(s, r, ExtractTag)
    ensures !UsesCache(s) && |reply.fields| == 0 && |reply.confidence| == 0 ==>
              && OnlyTalk(s, r)
              && r.conversation.history == s.conversation.history
              && r.conversation.lastAgentMessage == FailedMessage
    ensures !UsesCache(s) && (|reply.fields| > 0 || |reply.confidence| > 0) ==>
              && r.certificate.extractedFields == reply.fields
              && r.certificate.confidence == NormalizeAll(reply.confidence, toFloat)
              && LoggedOnce(s, r, ExtractTag)
  {
    if UsesCache(s) then
      Record(WithMessage(s, CachedMessage(s.certificate)), ExtractTag)
    else
      var confidence := NormalizeAll(reply.confidence, toFloat);
      if |reply.fields| == 0 && |confidence| == 0 then
        WithMessage(s, FailedMessage)
      else
        var cert := s.certificate.(extractedFields := reply.fields, confidence := confidence);
        Record(WithMessage(s.(certificate := cert), ExtractedMessage(cert)), ExtractTag)
  }

  // Properties of normalisation.

  /** A number in [0, 1] is kept; one in (1, 100] is read as a percentage;
      a larger one is clamped to 1, and a negative one to 0. */
  lemma NumberConfidence(n: real, toFloat: string -> Option<real>)
    ensures 0.0 <= n <= 1.0 ==> NormalizeConfidence(JNum(n), toFloat) == n
    ensures 1.0 < n <= 100.0 ==> NormalizeConfidence(JNum(n), toFloat) == n / 100.0
    ensures n > 100.0 ==> NormalizeConfidence(JNum(n), toFloat) == 1.0
    ensures n < 0.0 ==> NormalizeConfidence(JNum(n), toFloat) == 0.0
  {
  }

  /** A string is read like a number once stripped of spaces and `%`:
      `"85%"` and the number 85 give the same confidence. */
  lemma PercentStringConfidence(t: string, n: real, toFloat: string -> Option<real>)
    requires toFloat(Without(Strip(t), '%')) == Some(n)
    ensures NormalizeConfidence(JStr(t), toFloat) == NormalizeConfidence(JNum(n), toFloat)
  {
  }

  /** Objects are not clamped: `{"value": 5}` stores 5. */
  lemma ObjectConfidenceUnclamped(toFloat: string -> Option<real>)
    ensures NormalizeConfidence(JObj([("value", JNum(5.0))]), toFloat) == 5.0
  {
    assert Keys([("value", JNum(5.0))])[0] == "value";
  }

  /** Every stored confidence lies in [0, 1] unless its raw value was an
      object. */
  lemma NormalizedInRange(raw: Dict<Json>, toFloat: string -> Option<real>)
    requires forall i :: 0 <= i < |raw| ==> !raw[i].1.JObj?
    ensures forall p :: p in NormalizeAll(raw, toFloat) ==> 0.0 <= p.1 <= 1.0
  {
    var c := NormalizeAll(raw, toFloat);
    forall p | p in c ensures 0.0 <= p.1 <= 1.0 {
      var i :| 0 <= i < |c| && c[i] == p;
      assert c[i].1 == NormalizeConfidence(raw[i].1, toFloat);
    }
  }

  /** Normalising confidences that are already numbers in [0, 1] changes
      nothing. */
  lemma NormalizeKeepsUnitNumbers(raw: Dict<Json>, toFloat: string -> Option<real>)
    requires forall i :: 0 <= i < |raw| ==> raw[i].1.JNum? && 0.0 <= raw[i].1.n <= 1.0
    ensures forall i :: 0 <= i < |raw| ==> NormalizeAll(raw, toFloat)[i] == (raw[i].0, raw[i].1.n)
  {
    var c := NormalizeAll(raw, toFloat);
    forall i | 0 <= i < |raw| ensures c[i] == (raw[i].0, raw[i].1.n) {
      assert Keys(c)[i] == Keys(raw)[i];
    }
  }

  // Properties of the handler.

  /** The parser's fallback reply is a failed extraction: unless the cache
      is used, the state keeps its certificate and history. */
  lemma FallbackReplyFails(s: State, toFloat: string -> Option<real>)
    requires !UsesCache(s)
    ensures var r := ExtractInformation(s, EmptyReply, toFloat);
            r.certificate == s.certificate && r.conversation.history == s.conversation.history
  {
  }

  /** After a successful extraction that found fields, asking again without
      a re-extract word uses the cache: the certificate stays as extracted. */
  lemma SecondExtractionCached(s: State, reply: ExtractionReply, again: ExtractionReply,
                               toFloat: string -> Option<real>)
    requires !UsesCache(s) && |reply.fields| > 0
    requires !ContainsAny(Lower(s.conversation.lastUserMessage), ReextractWords)
    ensures var r1 := ExtractInformation(s, reply, toFloat);
            var r2 := ExtractInformation(r1, again, toFloat);
            && r2.certificate == r1.certificate
            && |r2.conversation.history| == |s.conversation.history| + 2
  {
    var r1 := ExtractInformation(s, reply, toFloat);
    assert r1.conversation.lastUserMessage == s.conversation.lastUserMessage;
    assert UsesCache(r1);
  }
}

=== FILE: history.dfy ===
/** `show_history` of actions/history.py: a report of every exchange with
    truncated previews, the last five reasoning steps, the number of times
    each action was taken (most frequent first), and the size of the
    state.

    As written the handler cannot finish on an empty history: the
    no-history branch never binds the report that the last statement
    assigns. `ShowHistory` models that code, ending in `Raised`;
    `ShowHistoryFixed` is the handler with that assignment moved into the
    branch that builds the report; the router can run either. In both,
    the entry appended for a non-empty history records the message shown
    before the report, since the report is assigned only after the
    append. */
module History {
  import opened Dicts
  import opened Text
  import opened States

  const NoHistoryMessage :=
    "📜 **Conversation History**\n\nNo conversation history yet. This is our first interaction!\n\n"
    + "Start by saying:\n• 'Extract information from my certificate'\n• 'Set evaluation criteria'\n• 'Score my certificate'\n"

  const UserPreviewLength := 100
  const AgentPreviewLength := 200
  const TrailLength := 5
  const ReasonPreviewLength := 150

  /** A text cut to `limit` characters, with `...` marking a cut. */
  function Preview(text: string, limit: nat): (p: string)
    ensures |text| <= limit ==> p == text
    ensures |text| > limit ==> |p| == limit + 3 && StartsWith(p, text[..limit]) && EndsWith(p, "...")
  {
    if |text| > limit then text[..limit] + "..." else text
  }

  /** `c * n`. */
  function Repeat(c: char, n: nat): (r: string)
    ensures |r| == n && forall i :: 0 <= i < n ==> r[i] == c
  {
    seq(n, _ => c)
  }

  /** The block shown for exchange number `n`. */
  function Block(n: nat, t: Turn): string {
    "**[" + NatToString(n) + "] Turn " + NatToString(n) + "**\n"
      + "🎯 Action: `" + t.action + "`\n\n"
      + "👤 **You:** " + Preview(t.user, UserPreviewLength) + "\n\n"
      + "🤖 **Agent:** " + Preview(t.agent, AgentPreviewLength) + "\n\n"
      + Repeat('-', 70) + "\n\n"
  }

  function Blocks(h: seq<Turn>): seq<string> {
    seq(|h|, i requires 0 <= i < |h| => Block(i + 1, h[i]))
  }

  /** `reasoning_history[-5:]`: the last five steps, or all of them when
      there are fewer. */
  function LastSteps(rs: seq<Thought>): (r: seq<Thought>)
    ensures |r| == if |rs| < TrailLength then |rs| else TrailLength
    ensures r == rs[|rs| - |r|..]
  {
    if |rs| > TrailLength then rs[|rs| - TrailLength..] else rs
  }

  /** Step `n` of the trail. The ellipsis is added whether or not the
      reason was cut. */
  function TrailLine(n: nat, t: Thought): string {
    NatToString(n) + ". **" + t.decision + "**: " + Take(t.reason, ReasonPreviewLength) + "...\n"
  }

  function TrailLines(rs: seq<Thought>): seq<string> {
    var last := LastSteps(rs);
    seq(|last|, i requires 0 <= i < |last| => TrailLine(i + 1, last[i]))
  }

  function TrailPart(rs: seq<Thought>): string {
    if |rs| > 0 then "\n💭 **Reasoning Trail:**\n\n" + Concat(TrailLines(rs)) else ""
  }

  // Counting the actions.

  /** How many entries of `h` carry action `a`. */
  function Occurrences(h: seq<Turn>, a: string): nat {
    if |h| == 0 then 0
    else Occurrences(h[..|h| - 1], a) + (if h[|h| - 1].action == a then 1 else 0)
  }

  /** The count a tally holds for `a`, 0 when it has none. */
  function CountOf(t: Dict<nat>, a: string): nat {
    GetOr(t, a, 0)
  }

  /** The sum of the counts of a tally. */
  function Total(t: Dict<nat>): nat {
    if |t| == 0 then 0 else t[0].1 + Total(t[1..])
  }

  /** `counts[a] = counts.get(a, 0) + 1`: the count of `a` goes up by one,
      in place when present and as a new last entry otherwise. */
  function Bump(t: Dict<nat>, a: string): (r: Dict<nat>)
    ensures forall b :: HasKey(r, b) <==> HasKey(t, b) || b == a
    decreases |t|
  {
    if |t| == 0 then
      assert Keys([(a, 1)]) == [a];
      [(a, 1)]
    else
      var r := if t[0].0 == a then [(a, t[0].1 + 1)] + t[1..] else [t[0]] + Bump(t[1..], a);
      KeysCons(r[0], r[1..]);
      KeysCons(t[0], t[1..]);
      assert r == [r[0]] + r[1..];
      assert t == [t[0]] + t[1..];
      r
  }

  lemma {:induction false} BumpPositive(t: Dict<nat>, a: string)
    requires forall i :: 0 <= i < |t| ==> t[i].1 > 0
    ensures forall i :: 0 <= i < |Bump(t, a)| ==> Bump(t, a)[i].1 > 0
    decreases |t|
  {
    if |t| > 0 && t[0].0 != a {
      BumpPositive(t[1..], a);
      assert Bump(t, a) == [t[0]] + Bump(t[1..], a);
    }
  }

  /** A bump adds one to the count of `a` and to no other. */
  lemma {:induction false} BumpCount(t: Dict<nat>, a: string, b: string)
    ensures CountOf(Bump(t, a), b) == CountOf(t, b) + (if b == a then 1 else 0)
    decreases |t|
  {
    if |t| > 0 && t[0].0 != a {
      BumpCount(t[1..], a, b);
    }
  }

  lemma {:induction false} BumpTotal(t: Dict<nat>, a: string)
    ensures Total(Bump(t, a)) == Total(t) + 1
    decreases |t|
  {
    if |t| == 0 {
      assert Total([(a, 1)]) == 1 + Total([]);
    } else if t[0].0 == a {
      var r := [(a, t[0].1 + 1)] + t[1..];
      assert r[1..] == t[1..];
    } else {
      BumpTotal(t[1..], a);
      var r := [t[0]] + Bump(t[1..], a);
      assert r[1..] == Bump(t[1..], a);
    }
  }

  lemma {:induction false} BumpUnique(t: Dict<nat>, a: string)
    requires UniqueKeys(t)
    ensures UniqueKeys(Bump(t, a))
    decreases |t|
  {
    if |t| > 0 {
      var r := Bump(t, a);
      assert !HasKey(t[1..], t[0].0) by {
        forall j | 0 <= j < |t[1..]| ensures Keys(t[1..])[j] != t[0].0 {
          assert t[1..][j] == t[j + 1];
        }
      }
      assert UniqueKeys(t[1..]);
      if t[0].0 == a {
        forall i, j | 0 <= i < j < |r| ensures r[i].0 != r[j].0 {
          assert r[j] == t[j];
          if i > 0 {
            assert r[i] == t[i];
          }
        }
      } else {
        BumpUnique(t[1..], a);
        var rest := Bump(t[1..], a);
        assert r == [t[0]] + rest;
        forall j | 0 <= j < |rest| ensures rest[j].0 != t[0].0 {
          assert Keys(rest)[j] == rest[j].0;
        }
        forall i, j | 0 <= i < j < |r| ensures r[i].0 != r[j].0 {
          assert r[j] == rest[j - 1];
          if i > 0 {
            assert r[i] == rest[i - 1];
          }
        }
      }
    }
  }

  /** A bump adds an entry exactly when the action is new. */
  lemma {:induction false} BumpLength(t: Dict<nat>, a: string)
    ensures |Bump(t, a)| == |t| + (if HasKey(t, a) then 0 else 1)
    decreases |t|
  {
    if |t| > 0 {
      KeysCons(t[0], t[1..]);
      assert t == [t[0]] + t[1..];
      if t[0].0 != a {
        BumpLength(t[1..], a);
      }
    }
  }

  /** A bump leaves every existing key in its place. */
  lemma {:induction false} BumpKeyAt(t: Dict<nat>, a: string, k: nat)
    requires k < |t|
    ensures k < |Bump(t, a)| && Bump(t, a)[k].0 == t[k].0
    decreases |t|
  {
    if t[0].0 != a && k > 0 {
      BumpKeyAt(t[1..], a, k - 1);
    }
  }

  /** A new action becomes the last key. */
  lemma {:induction false} BumpNewLast(t: Dict<nat>, a: string)
    requires !HasKey(t, a)
    ensures |Bump(t, a)| == |t| + 1 && Bump(t, a)[|t|].0 == a
    decreases |t|
  {
    if |t| > 0 {
      KeysCons(t[0], t[1..]);
      assert t == [t[0]] + t[1..];
      BumpNewLast(t[1..], a);
    }
  }

  /** A bump keeps the key order: a new action becomes the last key, and
      an action already present keeps its place. */
  lemma {:induction false} BumpKeys(t: Dict<nat>, a: string)
    ensures Keys(Bump(t, a)) == Keys(t) + (if HasKey(t, a) then [] else [a])
  {
    var r := Bump(t, a);
    var ks := Keys(t) + (if HasKey(t, a) then [] else [a]);
    BumpLength(t, a);
    forall k | 0 <= k < |r| ensures Keys(r)[k] == ks[k] {
      if k < |t| {
        BumpKeyAt(t, a, k);
      } else {
        BumpNewLast(t, a);
      }
    }
  }

  /** The tally `show_history` builds: actions in the order they first
      appear, each with the number of entries that carry it. The counts
      sum to the number of entries. */
  function Tally(h: seq<Turn>): (t: Dict<nat>)
    ensures UniqueKeys(t)
    ensures forall i :: 0 <= i < |t| ==> t[i].1 > 0
    ensures forall a :: CountOf(t, a) == Occurrences(h, a)
    ensures forall a :: HasKey(t, a) <==> Occurrences(h, a) > 0
    ensures Total(t) == |h|
  {
    if |h| == 0 then []
    else
      var prev := Tally(h[..|h| - 1]);
      var a := h[|h| - 1].action;
      var t := Bump(prev, a);
      BumpPositive(prev, a);
      BumpUnique(prev, a);
      BumpTotal(prev, a);
      forall b ensures CountOf(t, b) == Occurrences(h, b) {
        BumpCount(prev, a, b);
      }
      t
  }

  /** Entries of an action exist exactly when it occurs. */
  lemma {:induction false} OccurrencesPositive(h: seq<Turn>, a: string)
    ensures Occurrences(h, a) > 0 <==> exists q :: 0 <= q < |h| && h[q].action == a
    decreases |h|
  {
    if |h| > 0 {
      var g := h[..|h| - 1];
      OccurrencesPositive(g, a);
      if exists q :: 0 <= q < |g| && g[q].action == a {
        var q :| 0 <= q < |g| && g[q].action == a;
        assert h[q] == g[q];
      }
      if exists q :: 0 <= q < |h| && h[q].action == a {
        var q :| 0 <= q < |h| && h[q].action == a;
        if q < |g| {
          assert g[q] == h[q];
        }
      }
    }
  }

  /** One more entry extends the tally's keys by its action when that
      action is new, and leaves them alone otherwise. */
  lemma {:induction false} TallyAppendKeys(h: seq<Turn>, x: Turn)
    ensures Keys(Tally(h + [x])) == Keys(Tally(h)) + (if Occurrences(h, x.action) > 0 then [] else [x.action])
  {
    var g := h + [x];
    assert g[..|g| - 1] == h;
    BumpKeys(Tally(h), x.action);
  }

  /** The actions of `h` in the order of their first use: a reference
      definition of the tally's key order. */
  function FirstUses(h: seq<Turn>): seq<string>
    decreases |h|
  {
    if |h| == 0 then []
    else
      var u := FirstUses(h[..|h| - 1]);
      var a := h[|h| - 1].action;
      if a in u then u else u + [a]
  }

  /** An action is among the first uses exactly when some entry has it. */
  lemma {:induction false} FirstUsesIn(h: seq<Turn>, a: string)
    ensures a in FirstUses(h) <==> exists q :: 0 <= q < |h| && h[q].action == a
    decreases |h|
  {
    if |h| > 0 {
      var g := h[..|h| - 1];
      FirstUsesIn(g, a);
      if exists q :: 0 <= q < |g| && g[q].action == a {
        var q :| 0 <= q < |g| && g[q].action == a;
        assert h[q] == g[q];
      }
      if exists q :: 0 <= q < |h| && h[q].action == a {
        var q :| 0 <= q < |h| && h[q].action == a;
        if q < |g| {
          assert g[q] == h[q];
        }
      }
    }
  }

  /** The tally's keys are the actions in first-use order. */
  lemma {:induction false} TallyKeysFirstUses(h: seq<Turn>)
    ensures Keys(Tally(h)) == FirstUses(h)
    decreases |h|
  {
    if |h| > 0 {
      var g := h[..|h| - 1];
      var x := h[|h| - 1];
      TallyKeysFirstUses(g);
      assert h == g + [x];
      TallyAppendKeys(g, x);
      FirstUsesIn(g, x.action);
      OccurrencesPositive(g, x.action);
    }
  }

  /** In first-use order, every entry of an action listed later comes
      after some entry of each action listed before it. */
  lemma {:induction false} FirstUseOrder(h: seq<Turn>, i: nat, j: nat, q: nat)
    requires i < j < |FirstUses(h)|
    requires q < |h| && h[q].action == FirstUses(h)[j]
    ensures exists p :: 0 <= p < q && h[p].action == FirstUses(h)[i]
    decreases |h|
  {
    var g := h[..|h| - 1];
    var x := h[|h| - 1];
    var u := FirstUses(g);
    assert FirstUses(h) == if x.action in u then u else u + [x.action];
    assert FirstUses(h)[i] == u[i];
    FirstUsesIn(g, u[i]);
    if j < |u| {
      assert FirstUses(h)[j] == u[j];
      var r: nat := q;
      if q == |h| - 1 {
        FirstUsesIn(g, u[j]);
        r :| r < |g| && g[r].action == u[j];
      }
      assert g[r] == h[r];
      FirstUseOrder(g, i, j, r);
      var p :| 0 <= p < r && g[p].action == u[i];
      assert h[p] == g[p];
    } else {
      var p :| 0 <= p < |g| && g[p].action == u[i];
      assert h[p] == g[p];
      FirstUsesIn(g, x.action);
      forall k | 0 <= k < |g| ensures h[k].action != x.action {
        assert h[k] == g[k];
      }
    }
  }

  // Ordering the tally: `sorted(counts.items(), key=count, reverse=True)`,
  // which is stable, so actions with equal counts keep their order.

  /** Counts never increase along `s`. */
  predicate Descending(s: Dict<nat>) {
    forall i, j :: 0 <= i < j < |s| ==> s[i].1 >= s[j].1
  }

  /** The entries of `s` whose count is `c`, in order. */
  function WithCount(s: Dict<nat>, c: nat): Dict<nat> {
    if |s| == 0 then [] else (if s[0].1 == c then [s[0]] else []) + WithCount(s[1..], c)
  }

  lemma {:induction false} WithCountAppend(a: Dict<nat>, b: Dict<nat>, c: nat)
    ensures WithCount(a + b, c) == WithCount(a, c) + WithCount(b, c)
    decreases |a|
  {
    if |a| == 0 {
      assert a + b == b;
    } else {
      var h := if a[0].1 == c then [a[0]] else [];
      assert (a + b)[0] == a[0];
      assert (a + b)[1..] == a[1..] + b;
      WithCountAppend(a[1..], b, c);
      assert WithCount(a + b, c) == h + (WithCount(a[1..], c) + WithCount(b, c));
      assert WithCount(a, c) == h + WithCount(a[1..], c);
    }
  }

  /** No entry of a descending list whose first count is below `c` has
      count `c`. */
  lemma {:induction false} NoneWithCount(s: Dict<nat>, c: nat)
    requires Descending(s) && (|s| == 0 || s[0].1 < c)
    ensures WithCount(s, c) == []
    decreases |s|
  {
    if |s| > 0 {
      if |s| > 1 {
        assert s[1..][0].1 == s[1].1 <= s[0].1;
      }
      NoneWithCount(s[1..], c);
    }
  }

  /** Inserting `x` into a list after every leading entry whose count is
      at least its own. */
  function Insert(x: (string, nat), s: Dict<nat>): (r: Dict<nat>)
    ensures |r| == |s| + 1
    decreases |s|
  {
    if |s| == 0 then [x]
    else if s[0].1 >= x.1 then [s[0]] + Insert(x, s[1..])
    else [x] + s
  }

  lemma {:induction false} InsertMultiset(x: (string, nat), s: Dict<nat>)
    ensures multiset(Insert(x, s)) == multiset(s) + multiset{x}
    decreases |s|
  {
    if |s| > 0 {
      assert s == [s[0]] + s[1..];
      if s[0].1 >= x.1 {
        InsertMultiset(x, s[1..]);
      }
    }
  }

  lemma {:induction false} InsertBounded(x: (string, nat), s: Dict<nat>, m: nat)
    requires x.1 <= m && forall k :: 0 <= k < |s| ==> s[k].1 <= m
    ensures forall k :: 0 <= k < |Insert(x, s)| ==> Insert(x, s)[k].1 <= m
    decreases |s|
  {
    if |s| > 0 && s[0].1 >= x.1 {
      InsertBounded(x, s[1..], m);
      var rest := Insert(x, s[1..]);
      assert Insert(x, s) == [s[0]] + rest;
    }
  }

  /** Insertion keeps a list descending. */
  lemma {:induction false} InsertDescending(x: (string, nat), s: Dict<nat>)
    requires Descending(s)
    ensures Descending(Insert(x, s))
    decreases |s|
  {
    if |s| > 0 {
      if s[0].1 >= x.1 {
        InsertDescending(x, s[1..]);
        InsertBounded(x, s[1..], s[0].1);
        var rest := Insert(x, s[1..]);
        var r := [s[0]] + rest;
        forall i, j | 0 <= i < j < |r| ensures r[i].1 >= r[j].1 {
          if i > 0 {
            assert r[i] == rest[i - 1] && r[j] == rest[j - 1];
          }
        }
      }
    }
  }

  /** Insertion is stable: among the entries with one count, `x` comes
      after every entry already there. */
  lemma {:induction false} InsertWithCount(x: (string, nat), s: Dict<nat>, c: nat)
    requires Descending(s)
    ensures WithCount(Insert(x, s), c) == WithCount(s, c) + (if x.1 == c then [x] else [])
    decreases |s|
  {
    if |s| == 0 {
      assert WithCount([x], c) == (if x.1 == c then [x] else []) + WithCount([], c);
    } else if s[0].1 >= x.1 {
      InsertWithCount(x, s[1..], c);
      var r := [s[0]] + Insert(x, s[1..]);
      assert r[1..] == Insert(x, s[1..]);
    } else {
      NoneWithCount(s, x.1);
      var r := [x] + s;
      assert r[1..] == s;
    }
  }

  /** The stable descending order of a tally. */
  function SortByCount(t: Dict<nat>): (r: Dict<nat>)
    ensures Descending(r)
    ensures multiset(r) == multiset(t)
    ensures forall c :: WithCount(r, c) == WithCount(t, c)
  {
    if |t| == 0 then []
    else
      var init := t[..|t| - 1];
      var last := t[|t| - 1];
      assert t == init + [last];
      var sorted := SortByCount(init);
      var r := Insert(last, sorted);
      InsertDescending(last, sorted);
      InsertMultiset(last, sorted);
      assert multiset(t) == multiset(init) + multiset{last};
      forall c ensures WithCount(r, c) == WithCount(t, c) {
        WithCountAppend(init, [last], c);
        InsertWithCount(last, sorted, c);
        assert WithCount([last], c) == (if last.1 == c then [last] else []) + WithCount([], c);
      }
      r
  }

  /** One line of the action list. */
  function ActionLine(p: (string, nat)): string {
    "    • " + p.0 + ": " + NatToString(p.1) + "x\n"
  }

  function ActionLines(t: Dict<nat>): seq<string> {
    seq(|t|, i requires 0 <= i < |t| => ActionLine(t[i]))
  }

  /** The statistics and state summary closing the report. */
  function StatsPart(s: State): string {
    var h := s.conversation.history;
    "\n\n📊 **Session Statistics:**\n"
      + "  - Total Exchanges: " + NatToString(|h|) + "\n"
      + "  - Reasoning Steps: " + NatToString(|s.conversation.reasoning|) + "\n"
      + "  - Actions Taken:\n"
      + Concat(ActionLines(SortByCount(Tally(h))))
      + "\n📋 **Current State:**\n"
      + "  - Extracted Fields: " + NatToString(|s.certificate.extractedFields|) + "\n"
      + "  - Active Criteria: " + NatToString(|s.evaluation.criteria|) + "\n"
      + "  - Final Score: " + Fixed(s.evaluation.finalScore, 1) + "/100\n"
  }

  function HeaderPart(h: seq<Turn>): string {
    "📜 **Conversation History (" + NatToString(|h|) + " exchanges)**\n\n" + Repeat('=', 70) + "\n\n"
  }

  /** What follows the exchanges: the trail and the statistics. */
  function ClosingPart(s: State): string {
    TrailPart(s.conversation.reasoning) + StatsPart(s)
  }

  /** The report on a state's history. */
  function Report(s: State): string {
    HeaderPart(s.conversation.history) + Concat(Blocks(s.conversation.history)) + ClosingPart(s)
  }

  /** `show_history` as written. With an empty history the no-history
      message is set and logged, and the handler then raises. Otherwise the
      entry records the message shown before, and the report becomes the
      message. Only the message and the history change. */
  function ShowHistory(s: State): (r: Outcome)
    ensures OnlyTalk(s, r.state)
    ensures |s.conversation.history| == 0 ==>
              && r.Raised?
              && r.state.conversation.lastAgentMessage == NoHistoryMessage
              && LoggedOnce(s, r.state, HistoryTag)
    ensures |s.conversation.history| > 0 ==>
              && r.Returned?
              && r.state.conversation.lastAgentMessage == Report(s)
              && r.state.conversation.history
                 == s.conversation.history
                    + [Turn(s.conversation.lastUserMessage, s.conversation.lastAgentMessage, HistoryTag)]
  {
    if |s.conversation.history| == 0 then
      Raised(Record(WithMessage(s, NoHistoryMessage), HistoryTag))
    else
      Returned(WithMessage(Record(s, HistoryTag), Report(s)))
  }

  /** `show_history` with the final assignment inside the branch that
      builds the report: every call returns, and the no-history message
      is shown on the first turn. */
  function ShowHistoryFixed(s: State): (r: State)
    ensures OnlyTalk(s, r)
    ensures |r.conversation.history| == |s.conversation.history| + 1
    ensures r.conversation.history[..|s.conversation.history|] == s.conversation.history
    ensures r.conversation.history[|s.conversation.history|].action == HistoryTag
    ensures |s.conversation.history| == 0 ==>
              r.conversation.lastAgentMessage == NoHistoryMessage && LoggedOnce(s, r, HistoryTag)
    ensures |s.conversation.history| > 0 ==> r.conversation.lastAgentMessage == Report(s)
  {
    if |s.conversation.history| == 0 then Record(WithMessage(s, NoHistoryMessage), HistoryTag)
    else WithMessage(Record(s, HistoryTag), Report(s))
  }

  // Properties.

  /** The first call of a session crashes as written; its state changes
      are those the corrected handler returns. */
  lemma FirstCallRaises(s: State)
    requires |s.conversation.history| == 0
    ensures ShowHistory(s) == Raised(ShowHistoryFixed(s))
  {
  }

  /** Once there is a history, the corrected handler behaves as written. */
  lemma FixedAgreesOnHistory(s: State)
    requires |s.conversation.history| > 0
    ensures ShowHistory(s) == Returned(ShowHistoryFixed(s))
  {
  }

  /** The entry logged with a report records the message shown before it,
      not the report. */
  lemma EntryRecordsPreviousMessage(s: State)
    requires |s.conversation.history| > 0
    requires s.conversation.lastAgentMessage != Report(s)
    ensures !LoggedOnce(s, ShowHistoryFixed(s), HistoryTag)
  {
    var r := ShowHistoryFixed(s);
    var n := |s.conversation.history|;
    assert r.conversation.history[n].agent == s.conversation.lastAgentMessage;
  }

  /** Previews: a 250-character agent message is cut to 203 characters,
      while a 103-character user message ending in `...` previews to
      itself. */
  lemma PreviewEdges(long: string, dotted: string)
    requires |long| == 250
    requires |dotted| == 103 && EndsWith(dotted, "...")
    ensures |Preview(long, AgentPreviewLength)| == 203
    ensures Preview(dotted, UserPreviewLength) == dotted
  {
    var p := Preview(dotted, UserPreviewLength);
    assert p == dotted[..100] + "...";
    assert dotted == dotted[..100] + dotted[100..];
  }

  /** The trail shows at most five steps, the latest ones. */
  lemma TrailIsTheLastFive(rs: seq<Thought>, i: nat)
    requires |rs| >= TrailLength && i < TrailLength
    ensures TrailLines(rs)[i] == TrailLine(i + 1, rs[|rs| - TrailLength + i])
  {
  }

  /** Each block of the exchanges sits in the report. */
  lemma ReportContainsBlock(s: State, i: nat)
    requires i < |Blocks(s.conversation.history)|
    ensures Contains(Report(s), Blocks(s.conversation.history)[i])
  {
    var h := s.conversation.history;
    ConcatContains(Blocks(h), i);
    ContainsInMiddle(HeaderPart(h), Concat(Blocks(h)), ClosingPart(s), Blocks(h)[i]);
  }

  /** Every exchange appears in the report. */
  lemma ReportShowsEveryExchange(s: State, i: nat)
    requires i < |s.conversation.history|
    ensures Contains(Report(s), Block(i + 1, s.conversation.history[i]))
  {
    var h := s.conversation.history;
    ReportContainsBlock(s, i);
    BlockAt(h, i);
    ContainsSame(Report(s), Blocks(h)[i], Block(i + 1, h[i]));
  }

  /** The `i`-th block shows the `i`-th exchange under number `i + 1`. */
  lemma BlockAt(h: seq<Turn>, i: nat)
    requires i < |h|
    ensures i < |Blocks(h)| && Blocks(h)[i] == Block(i + 1, h[i])
  {
  }

  /** An entry of the sorted tally is an entry of the tally. */
  lemma ListedFromTally(t: Dict<nat>, k: nat)
    requires k < |SortByCount(t)|
    ensures exists m :: 0 <= m < |t| && t[m] == SortByCount(t)[k]
  {
    var l := SortByCount(t);
    assert l[k] in multiset(l);
    assert l[k] in t;
  }

  /** Each listed count is the number of entries of its action. */
  lemma ListedCountExact(h: seq<Turn>, k: nat)
    requires k < |SortByCount(Tally(h))|
    ensures SortByCount(Tally(h))[k].1 == Occurrences(h, SortByCount(Tally(h))[k].0)
  {
    var t := Tally(h);
    ListedFromTally(t, k);
    var m :| 0 <= m < |t| && t[m] == SortByCount(t)[k];
    GetAt(t, m);
    assert CountOf(t, t[m].0) == t[m].1;
  }

  /** The sorted tally names each action once. */
  lemma ListedOnce(h: seq<Turn>)
    ensures UniqueKeys(SortByCount(Tally(h)))
  {
    var t := Tally(h);
    var l := SortByCount(t);
    assert forall i, j :: 0 <= i < j < |t| ==> t[i] != t[j];
    DistinctOnce(t);
    forall i, j | 0 <= i < j < |l| ensures l[i].0 != l[j].0 {
      OnceDistinct(l, i, j);
      ListedFromTally(t, i);
      ListedFromTally(t, j);
      var m1 :| 0 <= m1 < |t| && t[m1] == l[i];
      var m2 :| 0 <= m2 < |t| && t[m2] == l[j];
      assert m1 != m2;
    }
  }

  /** Every action taken is listed. */
  lemma ListedComplete(h: seq<Turn>, a: string)
    requires Occurrences(h, a) > 0
    ensures exists k :: 0 <= k < |SortByCount(Tally(h))| && SortByCount(Tally(h))[k].0 == a
  {
    var t := Tally(h);
    var l := SortByCount(t);
    var m := KeyIndex(t, a);
    assert t[m] in multiset(l);
    var k :| 0 <= k < |l| && l[k] == t[m];
  }

  /** The action list names each action taken, each once and with its
      number of entries. */
  lemma ActionCountsExact(h: seq<Turn>)
    ensures var l := SortByCount(Tally(h));
            && UniqueKeys(l)
            && (forall k :: 0 <= k < |l| ==> l[k].1 == Occurrences(h, l[k].0))
            && (forall a :: Occurrences(h, a) > 0 ==> exists k :: 0 <= k < |l| && l[k].0 == a)
  {
    ListedOnce(h);
    forall k | 0 <= k < |SortByCount(Tally(h))|
      ensures SortByCount(Tally(h))[k].1 == Occurrences(h, SortByCount(Tally(h))[k].0)
    {
      ListedCountExact(h, k);
    }
    forall a | Occurrences(h, a) > 0
      ensures exists k :: 0 <= k < |SortByCount(Tally(h))| && SortByCount(Tally(h))[k].0 == a
    {
      ListedComplete(h, a);
    }
  }

  /** Two actions taken equally often are listed in the order they were
      first taken: they keep their tally order, and in the tally the
      earlier one was used before any use of the later one. */
  lemma TiesKeepFirstUseOrder(h: seq<Turn>, i: nat, j: nat)
    requires i < j < |Tally(h)| && Tally(h)[i].1 == Tally(h)[j].1
    ensures var t := Tally(h);
            exists k, l :: 0 <= k < l < |WithCount(SortByCount(t), t[i].1)|
                           && WithCount(SortByCount(t), t[i].1)[k] == t[i]
                           && WithCount(SortByCount(t), t[i].1)[l] == t[j]
    ensures forall q :: 0 <= q < |h| && h[q].action == Tally(h)[j].0 ==>
              exists p :: 0 <= p < q && h[p].action == Tally(h)[i].0
  {
    var t := Tally(h);
    TiesKeepTallyOrder(t, i, j);
    TallyKeysFirstUses(h);
    assert t[i].0 == Keys(t)[i] == FirstUses(h)[i];
    assert t[j].0 == Keys(t)[j] == FirstUses(h)[j];
    forall q | 0 <= q < |h| && h[q].action == t[j].0
      ensures exists p :: 0 <= p < q && h[p].action == t[i].0
    {
      FirstUseOrder(h, i, j, q);
    }
  }

  /** Sorting is stable: entries with equal counts keep their order. */
  lemma {:induction false} TiesKeepTallyOrder(t: Dict<nat>, i: nat, j: nat)
    requires i < j < |t| && t[i].1 == t[j].1
    ensures exists k, l :: 0 <= k < l < |WithCount(SortByCount(t), t[i].1)|
                           && WithCount(SortByCount(t), t[i].1)[k] == t[i]
                           && WithCount(SortByCount(t), t[i].1)[l] == t[j]
  {
    var c := t[i].1;
    var a := t[..i];
    var b := t[i + 1..j];
    var d := t[j + 1..];
    assert t == a + [t[i]] + b + [t[j]] + d;
    WithCountAppend(a + [t[i]] + b + [t[j]], d, c);
    WithCountAppend(a + [t[i]] + b, [t[j]], c);
    WithCountAppend(a + [t[i]], b, c);
    WithCountAppend(a, [t[i]], c);
    var w := WithCount(t, c);
    assert WithCount(SortByCount(t), c) == w;
    var k := |WithCount(a, c)|;
    var l := |WithCount(a, c)| + 1 + |WithCount(b, c)|;
    assert WithCount([t[i]], c) == [t[i]];
    assert WithCount([t[j]], c) == [t[j]];
    assert w == WithCount(a, c) + [t[i]] + WithCount(b, c) + [t[j]] + WithCount(d, c);
    assert w[k] == t[i] && w[l] == t[j];
  }
}

=== FILE: parser.dfy ===
/** The best-effort response parser of llm/json_utils.py.

    `safe_json_parse` tries four ways of finding a JSON document in a model
    reply and returns the first that decodes, or the caller's fallback. The
    JSON decoder itself (`json.loads`, RFC 8259) and the regular-expression
    search for a fenced block are not re-implemented: they are the two
    functions of a `Codec`, passed in and left uninterpreted. */
module Parser {
  import opened Wrappers
  import opened Dicts
  import opened Text

  /** A decoded JSON value. Objects keep their member order. */
  datatype Json =
    | JNull
    | JBool(b: bool)
    | JNum(n: real)
    | JStr(s: string)
    | JArr(items: seq<Json>)
    | JObj(members: Dict<Json>)

  /** Python's truth value of a decoded value: `None`, `False`, zero, and
      the empty string, list and object are false. */
  predicate Truthy(j: Json) {
    match j
    case JNull => false
    case JBool(b) => b
    case JNum(n) => n != 0.0
    case JStr(t) => |t| > 0
    case JArr(items) => |items| > 0
    case JObj(members) => |members| > 0
  }

  /** `decode` stands for `json.loads` (None when it raises), `fenced` for
      the group of the first match of the fenced-object pattern (None when
      there is no match). */
  datatype Codec = Codec(decode: string -> Option<Json>, fenced: string -> Option<string>)

  const Fence := "```"

  /** Strategy 1: decode the whole reply. */
  function Direct(content: string, codec: Codec): Option<Json> {
    codec.decode(content)
  }

  /** Strategy 2: decode the braces captured inside a fenced block. */
  function FromFence(content: string, codec: Codec): Option<Json> {
    match codec.fenced(content)
    case Some(inner) => codec.decode(inner)
    case None => None
  }

  /** The text from the first `{` through the last `}`, when both exist and
      the last `}` comes after the first `{`. */
  function BraceSlice(content: string): (r: Option<string>)
    ensures r.None? <==> ('{' !in content || '}' !in content
                          || LastIndex(content, '}') <= FirstIndex(content, '{'))
    ensures r.Some? ==> |r.value| >= 2 && r.value[0] == '{' && r.value[|r.value| - 1] == '}'
    ensures r.Some? ==> exists a :: BracesAt(content, r.value, a)
  {
    var start := FirstIndex(content, '{');
    var end := LastIndex(content, '}');
    if start != -1 && end != -1 && end > start then
      assert BracesAt(content, content[start..end + 1], start);
      Some(content[start..end + 1])
    else None
  }

  /** `t` is the slice of `content` at `a`, no `{` comes before it and no
      `}` after it. */
  predicate BracesAt(content: string, t: string, a: int) {
    && 0 <= a && a + |t| <= |content| && t == content[a..a + |t|]
    && '{' !in content[..a] && '}' !in content[a + |t|..]
  }

  /** Strategy 3: decode the outermost brace span. */
  function FromBraces(content: string, codec: Codec): Option<Json> {
    match BraceSlice(content)
    case Some(t) => codec.decode(t)
    case None => None
  }

  /** Python's `parts[1:-1]`. */
  function Inner(parts: seq<string>): seq<string> {
    if |parts| <= 2 then [] else parts[1..|parts| - 1]
  }

  /** The text strategy 4 decodes: the stripped reply, and when that both
      starts and ends with a fence, its lines without the first and the
      last. */
  function Unfenced(content: string): string {
    var cleaned := Strip(content);
    if StartsWith(cleaned, Fence) && EndsWith(cleaned, Fence) then
      Join(Inner(Split(cleaned, '\n')), '\n')
    else cleaned
  }

  /** Strategy 4: decode the unfenced text. */
  function FromCleaned(content: string, codec: Codec): Option<Json> {
    codec.decode(Unfenced(content))
  }

  /** The four strategies in the order they are tried. */
  function Attempts(content: string, codec: Codec): (a: seq<Option<Json>>)
    ensures |a| == 4
  {
    [Direct(content, codec), FromFence(content, codec),
     FromBraces(content, codec), FromCleaned(content, codec)]
  }

  /** The value of the first successful attempt, or `fallback`. */
  function FirstOf(a: seq<Option<Json>>, fallback: Json): (r: Json)
    ensures || (exists i :: FirstSuccess(a, i) && a[i] == Some(r))
            || ((forall i :: 0 <= i < |a| ==> a[i].None?) && r == fallback)
    ensures |a| > 0 && a[0].Some? ==> r == a[0].value
  {
    if |a| == 0 then fallback
    else if a[0].Some? then
      assert FirstSuccess(a, 0);
      a[0].value
    else
      var r := FirstOf(a[1..], fallback);
      assert || (exists i :: FirstSuccess(a, i) && a[i] == Some(r))
             || ((forall i :: 0 <= i < |a| ==> a[i].None?) && r == fallback) by {
        if exists i :: FirstSuccess(a[1..], i) && a[1..][i] == Some(r) {
          var i :| FirstSuccess(a[1..], i) && a[1..][i] == Some(r);
          assert FirstSuccess(a, i + 1);
        }
      }
      r
  }

  /** Attempt `i` succeeded and every earlier one failed. */
  predicate FirstSuccess(a: seq<Option<Json>>, i: int) {
    0 <= i < |a| && a[i].Some? && forall j :: 0 <= j < i ==> a[j].None?
  }

  /** `safe_json_parse(content, fallback)`: the first strategy that decodes
      wins, whatever JSON value it yields; if none does, the fallback (a
      missing fallback being `{}`). */
  function SafeJsonParse(content: string, fallback: Option<Json>, codec: Codec): (r: Json)
    ensures var a := Attempts(content, codec);
            || (exists i :: FirstSuccess(a, i) && a[i] == Some(r))
            || ((forall i :: 0 <= i < 4 ==> a[i].None?) && r == fallback.GetOr(JObj([])))
    ensures codec.decode(content).Some? ==> r == codec.decode(content).value
  {
    var a := Attempts(content, codec);
    assert a[0] == codec.decode(content);
    FirstOf(a, fallback.GetOr(JObj([])))
  }

  /** When no strategy decodes, the fallback comes back unchanged, and a
      missing fallback becomes the empty object. */
  lemma AllFailGivesFallback(content: string, fallback: Option<Json>, codec: Codec)
    requires codec.decode(content).None? && codec.decode(Unfenced(content)).None?
    requires codec.fenced(content).None? || codec.decode(codec.fenced(content).value).None?
    requires BraceSlice(content).None? || codec.decode(BraceSlice(content).value).None?
    ensures SafeJsonParse(content, fallback, codec) == fallback.GetOr(JObj([]))
    ensures fallback.None? ==> SafeJsonParse(content, fallback, codec) == JObj([])
  {
  }

  /** A reply that is not JSON but holds a fenced object yields the object
      decoded from inside the fence. */
  lemma FencedReplyDecoded(content: string, fallback: Option<Json>, codec: Codec, inner: string, j: Json)
    requires codec.decode(content).None?
    requires codec.fenced(content) == Some(inner) && codec.decode(inner) == Some(j)
    ensures SafeJsonParse(content, fallback, codec) == j
  {
  }

  /** A reply with no brace and no fence, like `garbage`, that the decoder
      rejects as a whole yields the fallback. */
  lemma {:induction false} PlainTextGivesFallback(content: string, fallback: Option<Json>, codec: Codec)
    requires '{' !in content && !Contains(content, Fence)
    requires codec.decode(content).None? && codec.decode(Strip(content)).None?
    requires codec.fenced(content).None?
    ensures SafeJsonParse(content, fallback, codec) == fallback.GetOr(JObj([]))
  {
    UnfencedWithoutFence(content);
    assert BraceSlice(content).None?;
    AllFailGivesFallback(content, fallback, codec);
  }

  /** A reply that holds no fence is only stripped by strategy 4. */
  lemma {:induction false} UnfencedWithoutFence(content: string)
    requires !Contains(content, Fence)
    ensures Unfenced(content) == Strip(content)
  {
    var cleaned := Strip(content);
    if StartsWith(cleaned, Fence) {
      var a :| StripsTo(content, cleaned, a);
      assert content[a..a + |Fence|] == cleaned[..|Fence|];
      assert OccursAt(content, Fence, a);
      ContainsIffOccurs(content, Fence);
    }
  }

  // Splitting facts behind the line-dropping step of strategy 4.

  lemma {:induction false} SplitWithoutSeparator(s: string, sep: char)
    requires sep !in s
    ensures Split(s, sep) == [s]
    decreases |s|
  {
    if |s| > 0 {
      SplitWithoutSeparator(s[1..], sep);
      assert [s[0]] + s[1..] == s;
    }
  }

  lemma {:induction false} SplitAtFirst(a: string, sep: char, b: string)
    requires sep !in a
    ensures Split(a + [sep] + b, sep) == [a] + Split(b, sep)
    decreases |a|
  {
    var s := a + [sep] + b;
    if |a| > 0 {
      assert s[1..] == a[1..] + [sep] + b;
      SplitAtFirst(a[1..], sep, b);
      assert [a[0]] + a[1..] == a;
    } else {
      assert s[1..] == b;
    }
  }

  lemma {:induction false} SplitAtLast(a: string, sep: char, b: string)
    requires sep !in b
    ensures Split(a + [sep] + b, sep) == Split(a, sep) + [b]
    decreases |a|
  {
    var s := a + [sep] + b;
    if |a| == 0 {
      assert s[1..] == b;
      SplitWithoutSeparator(b, sep);
    } else {
      assert s[1..] == a[1..] + [sep] + b;
      SplitAtLast(a[1..], sep, b);
      var rest := Split(a[1..], sep);
      if a[0] != sep {
        assert (rest + [b])[0] == rest[0];
        assert (rest + [b])[1..] == rest[1..] + [b];
      }
    }
  }

  /** Dropping the first and the last line of a text whose first line is
      `first` and last line is `last` leaves exactly the text between them. */
  lemma DropFirstAndLastLine(first: string, middle: string, last: string)
    requires '\n' !in first && '\n' !in last
    ensures Join(Inner(Split(first + "\n" + middle + "\n" + last, '\n')), '\n') == middle
  {
    var s := first + "\n" + middle + "\n" + last;
    assert s == first + ['\n'] + (middle + ['\n'] + last);
    SplitAtFirst(first, '\n', middle + "\n" + last);
    SplitAtLast(middle, '\n', last);
    var parts := [first] + Split(middle, '\n') + [last];
    assert Split(s, '\n') == parts;
    assert Inner(parts) == Split(middle, '\n');
    JoinSplit(middle, '\n');
  }

  /** A fenced reply `fence-line, body, closing fence` is decoded from its
      body. */
  lemma FencedBodyDecoded(content: string, open: string, body: string)
    requires Strip(content) == Fence + open + "\n" + body + "\n" + Fence
    requires '\n' !in open
    ensures Unfenced(content) == body
  {
    var cleaned := Strip(content);
    assert cleaned == (Fence + open) + "\n" + body + "\n" + Fence;
    assert cleaned[..3] == Fence;
    assert cleaned[|cleaned| - 3..] == Fence;
    assert '\n' !in Fence + open;
    DropFirstAndLastLine(Fence + open, body, Fence);
  }

  /** `validate_json_structure(data, required_keys)`. */
  function ValidateJsonStructure(data: Dict<Json>, required: seq<string>): (r: bool)
    ensures r <==> forall i :: 0 <= i < |required| ==> HasKey(data, required[i])
  {
    |required| == 0 || (HasKey(data, required[0]) && ValidateJsonStructure(data, required[1..]))
  }

  /** `extract_with_default(data, key, default)`. */
  function ExtractWithDefault(data: Dict<Json>, key: string, default: Json): (r: Json)
    ensures HasKey(data, key) ==> (key, r) in data
    ensures !HasKey(data, key) ==> r == default
  {
    GetOr(data, key, default)
  }
}

=== FILE: pause.dfy ===
/** `pause_execution` of actions/pause.py: report the size of the state,
    leave a confirmation pending and log the turn. */
module Pause {
  import opened Text
  import opened States

  function FieldsLine(s: State): string {
    "  - Extracted fields: " + NatToString(|s.certificate.extractedFields|) + "\n"
  }

  function CriteriaLine(s: State): string {
    "  - Active criteria: " + NatToString(|s.evaluation.criteria|) + "\n"
  }

  function ScoreLine(s: State): string {
    "  - Current score: " + Fixed(s.evaluation.finalScore, 1) + "/100\n\n"
  }

  const PauseHead := "⏸️ Pausing execution. Awaiting your confirmation.\n\nCurrent state:\n"
  const PauseTail := "Please confirm to proceed or provide new instructions."

  /** The report: it holds the field count, the criteria count and the
      final score, each on its own line. */
  function PauseMessage(s: State): (m: string)
    ensures Contains(m, FieldsLine(s))
    ensures Contains(m, CriteriaLine(s))
    ensures Contains(m, ScoreLine(s))
  {
    var m := PauseHead + FieldsLine(s) + CriteriaLine(s) + ScoreLine(s) + PauseTail;
    Around3(PauseHead, FieldsLine(s), CriteriaLine(s), ScoreLine(s), PauseTail);
    m
  }

  /** Each of three middle parts occurs in the whole. */
  lemma Around3(h: string, a: string, b: string, c: string, t: string)
    ensures Contains(h + a + b + c + t, a)
    ensures Contains(h + a + b + c + t, b)
    ensures Contains(h + a + b + c + t, c)
  {
    assert h + a + b + c + t == h + a + (b + c + t);
    ContainsMiddle(h, a, b + c + t);
    assert h + a + b + c + t == (h + a) + b + (c + t);
    ContainsMiddle(h + a, b, c + t);
    ContainsMiddle(h + a + b, c, t);
  }

  /** `pause_execution`: the message reports the number of fields, the
      number of criteria and the final score; a confirmation becomes
      pending; one entry is appended; nothing else changes. */
  function PauseExecution(s: State): (r: State)
    ensures OnlyTalk(s.(conversation := s.conversation.(pendingConfirmation := true)), r)
    ensures r.conversation.pendingConfirmation
    ensures LoggedOnce(s, r, PauseTag)
    ensures Contains(r.conversation.lastAgentMessage, FieldsLine(s))
    ensures Contains(r.conversation.lastAgentMessage, CriteriaLine(s))
    ensures Contains(r.conversation.lastAgentMessage, ScoreLine(s))
  {
    var t := WithMessage(s, PauseMessage(s));
    Record(t.(conversation := t.conversation.(pendingConfirmation := true)), PauseTag)
  }

  /** Pausing again while paused repeats the same report and logs a second
      entry: the counts it reports are not changed by pausing. */
  lemma PausingTwiceRepeats(s: State)
    ensures var r1 := PauseExecution(s);
            var r2 := PauseExecution(r1);
            && r2.conversation.lastAgentMessage == r1.conversation.lastAgentMessage
            && r2.certificate == s.certificate && r2.evaluation == s.evaluation
            && |r2.conversation.history| == |s.conversation.history| + 2
  {
    var r1 := PauseExecution(s);
    assert FieldsLine(r1) == FieldsLine(s) && CriteriaLine(r1) == CriteriaLine(s) && ScoreLine(r1) == ScoreLine(s);
  }
}

=== FILE: score.dfy ===
/** The scoring rule of actions/score.py (`rescore_certificate`).

    With criteria, each criterion picks a keyword list from a fixed synonym
    table, collects the extracted fields whose lowercased name or value
    contains a lowercased keyword (and that have a confidence entry), and
    scores mean confidence x 100 x weight; with no such field it scores
    70 x weight when a keyword occurs in the certificate text and 30 x weight
    otherwise. The final score is the sum of the scores over the sum of the
    weights. Without criteria, every confidence c scores c x 100 and the
    final score is their mean. */
module Score {
  import opened Wrappers
  import opened Dicts
  import opened Text
  import opened States

  /** The synonym table, in its declaration order. */
  const FieldMapping: Dict<seq<string>> := [
    ("GPA", ["Cumulative GPA", "Major GPA", "GPA"]),
    ("gpa", ["Cumulative GPA", "Major GPA", "GPA"]),
    ("Academic Performance", ["Cumulative GPA", "Major GPA", "Total Units Completed"]),
    ("academics", ["Cumulative GPA", "Major GPA"]),
    ("Research", ["research", "publication", "paper", "lab"]),
    ("research experience", ["research", "publication", "paper", "lab"]),
    ("Leadership", ["leadership", "president", "vice president", "captain"]),
    ("leadership", ["leadership", "president", "vice president", "captain"]),
    ("Honors", ["honors", "dean's list", "award", "distinction"]),
    ("honors", ["honors", "dean's list", "award", "distinction"]),
    ("Institution", ["University", "institution", "college"]),
    ("institution", ["University", "institution", "college"]),
    ("Degree", ["Degree", "degree type"]),
    ("degree type", ["Degree", "degree type"])
  ]

  /** The keywords a criterion is matched with: the table entry for its
      exact name, else the one for its lowercased name, else the name
      itself as the only keyword. */
  function KeywordsFor(criterion: string): (ks: seq<string>)
    ensures |ks| > 0
    ensures HasKey(FieldMapping, criterion) ==> Get(FieldMapping, criterion) == Some(ks)
    ensures !HasKey(FieldMapping, criterion) && HasKey(FieldMapping, Lower(criterion))
            ==> Get(FieldMapping, Lower(criterion)) == Some(ks)
    ensures !HasKey(FieldMapping, criterion) && !HasKey(FieldMapping, Lower(criterion))
            ==> ks == [criterion]
  {
    assert forall i :: 0 <= i < |FieldMapping| ==> |FieldMapping[i].1| > 0;
    match Get(FieldMapping, criterion)
    case Some(ks) => ks
    case None =>
      match Get(FieldMapping, Lower(criterion))
      case Some(ks) => ks
      case None => [criterion]
  }

  /** A keyword hits a field when, lowercased, it occurs in the lowercased
      field name or the lowercased field value. */
  predicate Hits(keyword: string, name: string, value: string) {
    Contains(Lower(name), Lower(keyword)) || Contains(Lower(value), Lower(keyword))
  }

  /** A field counts for a criterion when some keyword hits it and the
      field has a confidence entry. */
  predicate Matches(keywords: seq<string>, field: (string, string), confidence: Dict<real>) {
    (exists i :: 0 <= i < |keywords| && Hits(keywords[i], field.0, field.1))
    && HasKey(confidence, field.0)
  }

  /** The matching fields, in field order; a field is taken once, at the
      first keyword that hits it. */
  function MatchedFields(keywords: seq<string>, fields: Dict<string>, confidence: Dict<real>): (m: Dict<string>)
    ensures |m| <= |fields|
    ensures forall f :: f in m <==> f in fields && Matches(keywords, f, confidence)
  {
    if |fields| == 0 then []
    else
      (if Matches(keywords, fields[0], confidence) then [fields[0]] else [])
        + MatchedFields(keywords, fields[1..], confidence)
  }

  /** Matching keeps field order: the matches of a front part come before
      those of the rest. */
  lemma {:induction false} MatchedFieldsAppend(keywords: seq<string>, a: Dict<string>, b: Dict<string>, confidence: Dict<real>)
    ensures MatchedFields(keywords, a + b, confidence) == MatchedFields(keywords, a, confidence) + MatchedFields(keywords, b, confidence)
    decreases |a|
  {
    if |a| == 0 {
      assert a + b == b;
    } else {
      assert (a + b)[0] == a[0];
      assert (a + b)[1..] == a[1..] + b;
      MatchedFieldsAppend(keywords, a[1..], b, confidence);
    }
  }

  /** Each field is counted at most once: the matched names of a dict are
      pairwise distinct. */
  lemma {:induction false} MatchedFieldsDistinct(keywords: seq<string>, fields: Dict<string>, confidence: Dict<real>)
    requires UniqueKeys(fields)
    ensures UniqueKeys(MatchedFields(keywords, fields, confidence))
  {
    if |fields| > 0 {
      var tail := fields[1..];
      assert UniqueKeys(tail);
      MatchedFieldsDistinct(keywords, tail, confidence);
      var rest := MatchedFields(keywords, tail, confidence);
      forall j | 0 <= j < |rest| ensures rest[j].0 != fields[0].0 {
        assert rest[j] in tail;
        var k :| 0 <= k < |tail| && tail[k] == rest[j];
        assert fields[k + 1] == rest[j];
      }
    }
  }

  /** The stored confidences of the matched fields, in order. */
  function ConfidencesOf(matched: Dict<string>, confidence: Dict<real>): (cs: seq<real>)
    requires forall f :: f in matched ==> HasKey(confidence, f.0)
    ensures |cs| == |matched|
    ensures forall i :: 0 <= i < |matched| ==> Get(confidence, matched[i].0) == Some(cs[i])
  {
    seq(|matched|, i requires 0 <= i < |matched| => Get(confidence, matched[i].0).value)
  }

  /** The arithmetic mean. */
  function Mean(xs: seq<real>): real
    requires |xs| > 0
  {
    Sum(xs) / (|xs| as real)
  }

  /** Some keyword, lowercased, occurs in the lowercased certificate text. */
  predicate InRawText(keywords: seq<string>, rawText: string) {
    exists i :: 0 <= i < |keywords| && Contains(Lower(rawText), Lower(keywords[i]))
  }

  /** The score of one criterion of weight `weight`. */
  function CriterionScore(criterion: string, weight: real, cert: Certificate): real {
    KeywordScore(KeywordsFor(criterion), weight, cert)
  }

  /** The score of a criterion matched with `keywords`. */
  function KeywordScore(keywords: seq<string>, weight: real, cert: Certificate): real {
    var matched := MatchedFields(keywords, cert.extractedFields, cert.confidence);
    assert forall f :: f in matched ==> HasKey(cert.confidence, f.0);
    if |matched| > 0 then Mean(ConfidencesOf(matched, cert.confidence)) * 100.0 * weight
    else if InRawText(keywords, cert.rawText) then 70.0 * weight
    else 30.0 * weight
  }

  /** One score per criterion, in criteria order. */
  function CriteriaScores(criteria: Dict<real>, cert: Certificate): (scores: Dict<real>)
    ensures Keys(scores) == Keys(criteria)
    ensures forall i :: 0 <= i < |criteria| ==>
              scores[i].1 == CriterionScore(criteria[i].0, criteria[i].1, cert)
  {
    seq(|criteria|, i requires 0 <= i < |criteria| =>
          (criteria[i].0, CriterionScore(criteria[i].0, criteria[i].1, cert)))
  }

  /** Every confidence, as a percentage. */
  function ConfidenceScores(confidence: Dict<real>): (scores: Dict<real>)
    ensures Keys(scores) == Keys(confidence)
    ensures forall i :: 0 <= i < |confidence| ==> scores[i].1 == confidence[i].1 * 100.0
  {
    seq(|confidence|, i requires 0 <= i < |confidence| => (confidence[i].0, confidence[i].1 * 100.0))
  }

  /** The score breakdown with weights, one line per score. */
  function WeightedDetails(scores: Dict<real>, criteria: Dict<real>): string {
    Join(seq(|scores|, i requires 0 <= i < |scores| =>
           "  - " + scores[i].0 + ": " + Fixed(scores[i].1, 1)
             + " (weight: " + Fixed(GetOr(criteria, scores[i].0, 0.0), 2) + ")"), '\n')
  }

  /** The score breakdown without weights, one line per score. */
  function PlainDetails(scores: Dict<real>): string {
    Join(seq(|scores|, i requires 0 <= i < |scores| => "  - " + scores[i].0 + ": " + Fixed(scores[i].1, 1)), '\n')
  }

  const NoConfidenceMessage := "❌ Cannot score certificate: No extracted information or criteria available.\nPlease extract information first."

  /** The evaluation `rescore_certificate` computes. With criteria: one
      score per criterion, in criteria order, and the weighted mean (0 when
      the weights sum to 0). Without criteria but with confidences: every
      confidence as a percentage, and their mean. With neither: the scores
      are kept and the final score is 0. The criteria are never changed. */
  function Rescored(e: Evaluation, cert: Certificate): (r: Evaluation)
    ensures r.criteria == e.criteria
    ensures |e.criteria| > 0 ==>
              && Keys(r.scores) == Keys(e.criteria)
              && (forall i :: 0 <= i < |e.criteria| ==>
                    r.scores[i].1 == CriterionScore(e.criteria[i].0, e.criteria[i].1, cert))
              && r.finalScore
                 == (if Sum(Values(e.criteria)) > 0.0
                     then Sum(Values(r.scores)) / Sum(Values(e.criteria))
                     else 0.0)
    ensures var c := cert.confidence;
            |e.criteria| == 0 && |c| > 0 ==>
              && Keys(r.scores) == Keys(c)
              && (forall i :: 0 <= i < |c| ==> r.scores[i].1 == c[i].1 * 100.0)
              && r.finalScore == Sum(Values(r.scores)) / (|c| as real)
    ensures |e.criteria| == 0 && |cert.confidence| == 0 ==>
              r.scores == e.scores && r.finalScore == 0.0
  {
    if |e.criteria| > 0 then
      var scores := CriteriaScores(e.criteria, cert);
      var total := Sum(Values(e.criteria));
      e.(scores := scores, finalScore := if total > 0.0 then Sum(Values(scores)) / total else 0.0)
    else if |cert.confidence| > 0 then
      var scores := ConfidenceScores(cert.confidence);
      e.(scores := scores, finalScore := Sum(Values(scores)) / (|scores| as real))
    else
      e.(finalScore := 0.0)
  }

  /** The report shown after rescoring `e` into `r`. */
  function RescoreMessage(e: Evaluation, cert: Certificate, r: Evaluation): string {
    if |e.criteria| > 0 then
      "✓ Certificate re-scored based on current criteria:\n\n"
        + WeightedDetails(r.scores, e.criteria)
        + "\n\n**Final Weighted Score: " + Fixed(r.finalScore, 1) + "/100**"
    else if |cert.confidence| > 0 then
      "✓ Certificate scored based on confidence levels:\n\n" + PlainDetails(r.scores)
        + "\n\n**Average Score: " + Fixed(r.finalScore, 1) + "/100**\n\n"
        + "Note: No evaluation criteria set. Using confidence-based scoring.\n"
        + "You can set criteria by saying: 'Evaluate based on [criterion1, criterion2]'"
    else NoConfidenceMessage
  }

  /** `rescore_certificate`. The certificate is never modified, the new
      evaluation is the one `Rescored` describes, nothing else but the agent
      message changes, and exactly one `rescore` entry is appended on every
      path. */
  function Rescore(s: State): (r: State)
    ensures r.certificate == s.certificate
    ensures r.evaluation == Rescored(s.evaluation, s.certificate)
    ensures OnlyTalk(s.(evaluation := r.evaluation), r)
    ensures LoggedOnce(s, r, RescoreTag)
    ensures |s.evaluation.criteria| == 0 && |s.certificate.confidence| == 0 ==>
              r.conversation.lastAgentMessage == NoConfidenceMessage
  {
    var ev := Rescored(s.evaluation, s.certificate);
    Record(WithMessage(s.(evaluation := ev), RescoreMessage(s.evaluation, s.certificate, ev)), RescoreTag)
  }

  // Properties of the rule.

  /** A criterion whose keywords hit some field with a confidence entry
      scores the mean confidence of exactly those fields, times 100 times its
      weight. */
  lemma MatchedCriterionScore(keywords: seq<string>, weight: real, cert: Certificate, f: (string, string))
    requires f in cert.extractedFields && Matches(keywords, f, cert.confidence)
    ensures var m := MatchedFields(keywords, cert.extractedFields, cert.confidence);
            && f in m
            && KeywordScore(keywords, weight, cert) == Mean(ConfidencesOf(m, cert.confidence)) * 100.0 * weight
  {
    var m := MatchedFields(keywords, cert.extractedFields, cert.confidence);
    assert f in m;
    assert |m| > 0;
  }

  /** A criterion whose keywords hit no field with a confidence entry scores
      70 times its weight when a keyword occurs in the certificate text, and
      30 times its weight otherwise. */
  lemma UnmatchedCriterionScore(keywords: seq<string>, weight: real, cert: Certificate)
    requires forall f :: f in cert.extractedFields ==> !Matches(keywords, f, cert.confidence)
    ensures InRawText(keywords, cert.rawText) ==> KeywordScore(keywords, weight, cert) == 70.0 * weight
    ensures !InRawText(keywords, cert.rawText) ==> KeywordScore(keywords, weight, cert) == 30.0 * weight
  {
    NothingMatched(keywords, cert.extractedFields, cert.confidence);
  }

  /** When no field matches, the matched list is empty. */
  lemma {:induction false} NothingMatched(keywords: seq<string>, fields: Dict<string>, confidence: Dict<real>)
    requires forall f :: f in fields ==> !Matches(keywords, f, confidence)
    ensures MatchedFields(keywords, fields, confidence) == []
  {
    if |fields| > 0 {
      assert fields[0] in fields;
      NothingMatched(keywords, fields[1..], confidence);
    }
  }

  /** Every confidence lies in [0, 1]. */
  predicate UnitConfidences(confidence: Dict<real>) {
    forall p :: p in confidence ==> 0.0 <= p.1 <= 1.0
  }

  /** No criterion has a negative weight. */
  predicate NonNegativeWeights(criteria: Dict<real>) {
    forall i :: 0 <= i < |criteria| ==> criteria[i].1 >= 0.0
  }

  lemma {:induction false} SumUnitBounds(xs: seq<real>)
    requires forall i :: 0 <= i < |xs| ==> 0.0 <= xs[i] <= 1.0
    ensures 0.0 <= Sum(xs) <= |xs| as real
  {
    if |xs| > 0 {
      SumUnitBounds(xs[1..]);
    }
  }

  /** The mean of values in [0, 1] lies in [0, 1]. */
  lemma MeanUnitBounds(xs: seq<real>)
    requires |xs| > 0
    requires forall i :: 0 <= i < |xs| ==> 0.0 <= xs[i] <= 1.0
    ensures 0.0 <= Mean(xs) <= 1.0
  {
    SumUnitBounds(xs);
  }

  /** With confidences in [0, 1] and a non-negative weight, a criterion
      scores between 0 and 100 times its weight. */
  lemma KeywordScoreBounds(keywords: seq<string>, weight: real, cert: Certificate)
    requires UnitConfidences(cert.confidence) && weight >= 0.0
    ensures 0.0 <= KeywordScore(keywords, weight, cert) <= 100.0 * weight
  {
    var m := MatchedFields(keywords, cert.extractedFields, cert.confidence);
    if |m| > 0 {
      var cs := ConfidencesOf(m, cert.confidence);
      forall i | 0 <= i < |cs| ensures 0.0 <= cs[i] <= 1.0 {
        assert (m[i].0, cs[i]) in cert.confidence;
      }
      MeanUnitBounds(cs);
      ScaledUnitBounds(Mean(cs), weight);
      assert KeywordScore(keywords, weight, cert) == Mean(cs) * 100.0 * weight;
      assert 0.0 <= Mean(cs) * 100.0 * weight <= 100.0 * weight;
    } else {
      assert KeywordScore(keywords, weight, cert) == if InRawText(keywords, cert.rawText) then 70.0 * weight else 30.0 * weight;
    }
  }

  /** A value in [0, 1] scaled by 100 and a non-negative weight lies
      between 0 and 100 times the weight. */
  lemma ScaledUnitBounds(x: real, weight: real)
    requires 0.0 <= x <= 1.0 && weight >= 0.0
    ensures 0.0 <= x * 100.0 * weight <= 100.0 * weight
  {
    assert x * weight <= weight;
  }

  lemma {:induction false} WeightedSumBounds(scores: seq<real>, weights: seq<real>)
    requires |scores| == |weights|
    requires forall i :: 0 <= i < |scores| ==> 0.0 <= scores[i] <= 100.0 * weights[i]
    ensures 0.0 <= Sum(scores) <= 100.0 * Sum(weights)
  {
    if |scores| > 0 {
      WeightedSumBounds(scores[1..], weights[1..]);
    }
  }

  /** With confidences in [0, 1] and non-negative weights, the criteria's
      scores sum to between 0 and 100 times the weights' sum. */
  lemma CriteriaScoresBounds(criteria: Dict<real>, cert: Certificate)
    requires UnitConfidences(cert.confidence) && NonNegativeWeights(criteria)
    ensures var sum := Sum(Values(CriteriaScores(criteria, cert)));
            0.0 <= sum <= 100.0 * Sum(Values(criteria))
  {
    var sv := Values(CriteriaScores(criteria, cert));
    var wv := Values(criteria);
    forall i | 0 <= i < |sv| ensures 0.0 <= sv[i] <= 100.0 * wv[i] {
      KeywordScoreBounds(KeywordsFor(criteria[i].0), criteria[i].1, cert);
    }
    WeightedSumBounds(sv, wv);
  }

  /** With confidences in [0, 1], the confidence-only scores average to a
      value in [0, 100]. */
  lemma ConfidenceScoresBounds(confidence: Dict<real>)
    requires UnitConfidences(confidence) && |confidence| > 0
    ensures var sv := Values(ConfidenceScores(confidence));
            0.0 <= Sum(sv) / (|confidence| as real) <= 100.0
  {
    var sv := Values(ConfidenceScores(confidence));
    var ones := seq(|sv|, i => 1.0);
    forall i | 0 <= i < |sv| ensures 0.0 <= sv[i] <= 100.0 * ones[i] {
      assert confidence[i] in confidence;
    }
    WeightedSumBounds(sv, ones);
    SumOnes(|sv|);
    assert Sum(sv) <= 100.0 * (|confidence| as real);
  }

  /** With confidences in [0, 1] and non-negative weights, the final score
      lies in [0, 100], with or without criteria. */
  lemma FinalScoreInRange(e: Evaluation, cert: Certificate)
    requires UnitConfidences(cert.confidence)
    requires NonNegativeWeights(e.criteria)
    ensures 0.0 <= Rescored(e, cert).finalScore <= 100.0
  {
    if |e.criteria| > 0 {
      CriteriaScoresBounds(e.criteria, cert);
      var total := Sum(Values(e.criteria));
      var sum := Sum(Values(CriteriaScores(e.criteria, cert)));
      if total > 0.0 {
        RatioBounds(sum, total);
      }
    } else if |cert.confidence| > 0 {
      ConfidenceScoresBounds(cert.confidence);
    }
  }

  lemma RatioBounds(sum: real, total: real)
    requires total > 0.0 && 0.0 <= sum <= 100.0 * total
    ensures 0.0 <= sum / total <= 100.0
  {
  }

  lemma ValuesPair(a: string, x: real, b: string, y: real)
    ensures Values([(a, x), (b, y)]) == [x, y]
  {
  }

  lemma SumPair(x: real, y: real)
    ensures Sum([x, y]) == x + y
  {
    assert [x, y][1..] == [y];
    assert Sum([y]) == y + Sum([y][1..]);
    assert [y][1..] == [];
  }

  lemma {:induction false} SumOnes(n: nat)
    ensures Sum(seq(n, i => 1.0)) == n as real
  {
    if n > 0 {
      assert seq(n, i => 1.0)[1..] == seq(n - 1, i => 1.0);
      SumOnes(n - 1);
    }
  }

  // The worked example: criteria GPA and Research at 0.5 each, one
  // extracted field "Cumulative GPA" = "3.9" with confidence 0.9, and no
  // trace of research anywhere.

  /** A keyword with a character that the lowercased text lacks does not
      occur in it. */
  lemma AbsentCharMisses(text: string, keyword: string, k: nat)
    requires k < |keyword| && LowerChar(keyword[k]) !in Lower(text)
    ensures !Contains(Lower(text), Lower(keyword))
  {
    if Contains(Lower(text), Lower(keyword)) {
      ContainedCharsOccur(Lower(text), Lower(keyword), k);
    }
  }

  lemma GpaKeywords()
    ensures KeywordsFor("GPA") == ["Cumulative GPA", "Major GPA", "GPA"]
  {
    var t := FieldMapping;
    assert t[0] == ("GPA", ["Cumulative GPA", "Major GPA", "GPA"]);
    assert Get(t, "GPA") == Some(t[0].1);
  }

  lemma ResearchKeywords()
    ensures KeywordsFor("Research") == ["research", "publication", "paper", "lab"]
  {
    var t := FieldMapping;
    assert t[4] == ("Research", ["research", "publication", "paper", "lab"]);
    assert t[0].0 != "Research" && t[1].0 != "Research" && t[2].0 != "Research" && t[3].0 != "Research";
    assert Get(t[3..], "Research") == Get(t[4..], "Research");
    assert Get(t[2..], "Research") == Get(t[3..], "Research");
    assert Get(t[1..], "Research") == Get(t[2..], "Research");
    assert Get(t, "Research") == Get(t[1..], "Research");
    assert Get(t[4..], "Research") == Some(t[4].1);
  }

  /** No Research keyword occurs in `text` when `text` has neither an `r`
      nor a `b` in any case. */
  lemma ResearchMisses(text: string)
    requires forall i :: 0 <= i < |text| ==> text[i] !in "rRbB"
    ensures !InRawText(["research", "publication", "paper", "lab"], text)
  {
    assert 'r' !in Lower(text) && 'b' !in Lower(text) by {
      forall i | 0 <= i < |text| ensures Lower(text)[i] != 'r' && Lower(text)[i] != 'b' {
        assert text[i] !in "rRbB";
      }
    }
    AbsentCharMisses(text, "research", 0);
    AbsentCharMisses(text, "publication", 2);
    AbsentCharMisses(text, "paper", 4);
    AbsentCharMisses(text, "lab", 2);
  }

  function ExampleCertificate(): Certificate {
    Certificate("Cumulative GPA 3.9", [("Cumulative GPA", "3.9")], [("Cumulative GPA", 0.9)])
  }

  lemma ExampleGpa(cert: Certificate)
    requires cert.extractedFields == [("Cumulative GPA", "3.9")] && cert.confidence == [("Cumulative GPA", 0.9)]
    ensures CriterionScore("GPA", 0.5, cert) == 45.0
  {
    GpaKeywords();
    SingleFieldScore(KeywordsFor("GPA"), 0.5, cert, ("Cumulative GPA", "3.9"), 0.9);
  }

  /** A certificate whose one field is named by the first keyword scores
      that field's confidence times 100 times the weight. */
  lemma SingleFieldScore(keywords: seq<string>, weight: real, cert: Certificate, field: (string, string), c: real)
    requires cert.extractedFields == [field] && cert.confidence == [(field.0, c)]
    requires |keywords| > 0 && keywords[0] == field.0
    ensures KeywordScore(keywords, weight, cert) == c * 100.0 * weight
  {
    assert Hits(keywords[0], field.0, field.1) by {
      assert StartsWith(Lower(field.0), Lower(keywords[0]));
    }
    assert HasKey(cert.confidence, field.0) by {
      assert Keys(cert.confidence)[0] == field.0;
    }
    assert Matches(keywords, field, cert.confidence);
    var m := MatchedFields(keywords, cert.extractedFields, cert.confidence);
    assert m == [field] by {
      assert cert.extractedFields[1..] == [];
    }
    var cs := ConfidencesOf(m, cert.confidence);
    assert cs == [c];
    assert Sum(cs) == c;
  }

  lemma ExampleResearch()
    ensures CriterionScore("Research", 0.5, ExampleCertificate()) == 15.0
  {
    ResearchKeywords();
    ExampleResearchUnmatched();
  }

  lemma ExampleResearchUnmatched()
    ensures KeywordScore(["research", "publication", "paper", "lab"], 0.5, ExampleCertificate()) == 15.0
  {
    var cert := ExampleCertificate();
    var field := ("Cumulative GPA", "3.9");
    var research := ["research", "publication", "paper", "lab"];
    ResearchMisses(field.0);
    ResearchMisses(field.1);
    ResearchMisses(cert.rawText);
    assert !Matches(research, field, cert.confidence) by {
      forall i | 0 <= i < |research| ensures !Hits(research[i], field.0, field.1) {
        assert !Contains(Lower(field.0), Lower(research[i]));
        assert !Contains(Lower(field.1), Lower(research[i]));
      }
    }
    assert forall f :: f in cert.extractedFields ==> f == field;
    UnmatchedCriterionScore(research, 0.5, cert);
  }

  /** Two criteria are scored in their order. */
  lemma TwoCriteriaScores(c1: string, w1: real, c2: string, w2: real, cert: Certificate)
    ensures CriteriaScores([(c1, w1), (c2, w2)], cert)
            == [(c1, CriterionScore(c1, w1, cert)), (c2, CriterionScore(c2, w2, cert))]
  {
    var scores := CriteriaScores([(c1, w1), (c2, w2)], cert);
    assert Keys(scores)[0] == c1 && Keys(scores)[1] == c2;
  }

  /** GPA scores 0.9 x 100 x 0.5 = 45, Research 30 x 0.5 = 15, and the final
      score is (45 + 15) / 1.0 = 60. */
  lemma WorkedExample(e: Evaluation, cert: Certificate)
    requires e.criteria == [("GPA", 0.5), ("Research", 0.5)] && cert == ExampleCertificate()
    ensures Rescored(e, cert).scores == [("GPA", 45.0), ("Research", 15.0)]
    ensures Rescored(e, cert).finalScore == 60.0
  {
    TwoCriteriaScores("GPA", 0.5, "Research", 0.5, cert);
    ExampleGpa(cert);
    ExampleResearch();
    var scores := CriteriaScores(e.criteria, cert);
    assert CriterionScore("GPA", 0.5, cert) == 45.0;
    assert CriterionScore("Research", 0.5, cert) == 15.0;
    assert scores == [("GPA", 45.0), ("Research", 15.0)];
    ValuesPair("GPA", 45.0, "Research", 15.0);
    ValuesPair("GPA", 0.5, "Research", 0.5);
    SumPair(45.0, 15.0);
    SumPair(0.5, 0.5);
    WeightedFinal(e, cert, 60.0, 1.0);
  }

  /** With criteria of positive total weight, the final score is the sum
      of the criteria's scores over that total. */
  lemma WeightedFinal(e: Evaluation, cert: Certificate, sum: real, total: real)
    requires |e.criteria| > 0 && Sum(Values(e.criteria)) == total && total > 0.0
    requires Sum(Values(CriteriaScores(e.criteria, cert))) == sum
    ensures Rescored(e, cert).finalScore == sum / total
  {
  }
}

=== FILE: states.dfy ===
/** The shared state bag every handler reads and writes: the certificate,
    the evaluation and the conversation sub-states, with the defaults of
    their declarations. Handlers are pure functions from one `State` to the
    next; the conversation and reasoning histories only ever grow. */
module States {
  import opened Dicts

  /** The certificate text and what extraction found in it. */
  datatype Certificate = Certificate(
    rawText: string,
    extractedFields: Dict<string>,
    confidence: Dict<real>)

  /** The user's criteria with their weights, and the last computed scores. */
  datatype Evaluation = Evaluation(
    criteria: Dict<real>,
    scores: Dict<real>,
    finalScore: real)

  /** One `{user, agent, action}` entry of the conversation history. */
  datatype Turn = Turn(user: string, agent: string, action: string)

  /** One `{decision, reason, uncertainty, context}` entry of the reasoning
      history. */
  datatype Thought = Thought(decision: string, reason: string, uncertainty: string, context: string)

  datatype Conversation = Conversation(
    lastUserMessage: string,
    lastAgentMessage: string,
    lastReason: string,
    uncertainty: string,
    lastUserIntent: string,
    pendingConfirmation: bool,
    history: seq<Turn>,
    reasoning: seq<Thought>)

  datatype State = State(certificate: Certificate, evaluation: Evaluation, conversation: Conversation)

  /** How a handler ends: by returning, or by raising an exception after the
      in-place updates it had already made. */
  datatype Outcome = Returned(state: State) | Raised(state: State)

  // The action tags the handlers write into the conversation history; the
  // router dispatches on the same names.
  const ExtractTag := "extract_information"
  const AnswerTag := "answer_from_state"
  const RescoreTag := "rescore"
  const ValidateTag := "validate_criteria"
  const ClarifyTag := "ask_clarification"
  const CompareTag := "compare_certificates"
  const HistoryTag := "show_history"
  const PauseTag := "pause"
  const ExplainTag := "explain"

  /** A fresh session: every field at its declared default. */
  function Initial(rawText: string): (s: State)
    ensures s.certificate.rawText == rawText
    ensures |s.conversation.history| == 0 && |s.conversation.reasoning| == 0
  {
    State(
      Certificate(rawText, [], []),
      Evaluation([], [], 0.0),
      Conversation("", "", "", "", "", false, [], []))
  }

  /** `last_agent_message = m`. */
  function WithMessage(s: State, m: string): State {
    s.(conversation := s.conversation.(lastAgentMessage := m))
  }

  /** The closing step every handler shares: append `{user: last user
      message, agent: last agent message, action: tag}`. */
  function Record(s: State, tag: string): (r: State)
    ensures r.certificate == s.certificate && r.evaluation == s.evaluation
    ensures r.conversation.history
         == s.conversation.history + [Turn(s.conversation.lastUserMessage, s.conversation.lastAgentMessage, tag)]
    ensures r.conversation.(history := s.conversation.history) == s.conversation
  {
    var c := s.conversation;
    s.(conversation := c.(history := c.history + [Turn(c.lastUserMessage, c.lastAgentMessage, tag)]))
  }

  /** `r` differs from `s` at most in the agent message and the history:
      certificate, evaluation and every other conversation field are kept. */
  predicate OnlyTalk(s: State, r: State) {
    && r.certificate == s.certificate
    && r.evaluation == s.evaluation
    && r.conversation.(lastAgentMessage := s.conversation.lastAgentMessage,
                       history := s.conversation.history) == s.conversation
  }

  /** `r`'s history is `s`'s with exactly one entry appended, tagged `tag`,
      recording the user message and `r`'s agent message. */
  predicate LoggedOnce(s: State, r: State, tag: string) {
    r.conversation.history
      == s.conversation.history
         + [Turn(s.conversation.lastUserMessage, r.conversation.lastAgentMessage, tag)]
  }

  /** The histories of `r` extend those of `s`: nothing was removed or
      rewritten, entries were only appended. */
  predicate HistoriesGrow(s: State, r: State) {
    && |s.conversation.history| <= |r.conversation.history|
    && r.conversation.history[..|s.conversation.history|] == s.conversation.history
    && |s.conversation.reasoning| <= |r.conversation.reasoning|
    && r.conversation.reasoning[..|s.conversation.reasoning|] == s.conversation.reasoning
  }
}

=== FILE: store.dfy ===
/** The session store of utils/state_manager.py, over an abstract disk: a
    current-session document and a directory of history snapshots keyed by
    file name. A snapshot maps the fourteen persisted fields of the state
    (3 certificate, 3 evaluation, 8 conversation) under a timestamp;
    loading copies them back one by one, in order, and stops at the first
    one it cannot read, leaving the fields before it overwritten. */
module Store {
  import opened Wrappers
  import opened Dicts
  import opened Text
  import opened States

  /** A JSON value as `json.dump` writes the state: strings, booleans,
      numbers, string and number maps, the two histories, and sections. */
  datatype Value =
    | Str(text: string)
    | Flag(flag: bool)
    | Number(number: real)
    | Fields(fields: Dict<string>)
    | Weights(weights: Dict<real>)
    | Turns(turns: seq<Turn>)
    | Thoughts(thoughts: seq<Thought>)
    | Section(members: map<string, Value>)

  /** A decoded session file: a top-level JSON object. Objects are maps:
      lookups do not depend on key order. */
  type Document = map<string, Value>

  /** A file on disk: absent, present but not decodable, or a document. */
  datatype Stored = Missing | Corrupt | Saved(doc: Document)

  /** The current-session file and the history directory, by file name. */
  datatype Disk = Disk(current: Stored, history: Dict<Stored>)

  /** The fourteen persisted fields, in the order `load_state` restores them. */
  datatype Slot =
    | RawText | ExtractedFields | Confidence
    | Criteria | Scores | FinalScore
    | LastUserMessage | LastAgentMessage | LastReason | Uncertainty
    | LastUserIntent | PendingConfirmation | ConversationHistory | ReasoningHistory

  const CertificateSlots := [RawText, ExtractedFields, Confidence]
  const EvaluationSlots := [Criteria, Scores, FinalScore]
  const ConversationSlots := [LastUserMessage, LastAgentMessage, LastReason, Uncertainty,
                              LastUserIntent, PendingConfirmation, ConversationHistory, ReasoningHistory]
  const Order := CertificateSlots + EvaluationSlots + ConversationSlots

  /** The section a slot is saved under. */
  function SectionOf(slot: Slot): string {
    match slot
    case RawText | ExtractedFields | Confidence => "certificate"
    case Criteria | Scores | FinalScore => "evaluation"
    case _ => "conversation"
  }

  /** The slots saved under a section. */
  function SectionSlots(section: string): seq<Slot> {
    if section == "certificate" then CertificateSlots
    else if section == "evaluation" then EvaluationSlots
    else ConversationSlots
  }

  /** The slots saved alongside a slot, and its position among them. */
  function Place(slot: Slot): (p: (seq<Slot>, nat))
    ensures p.1 < |p.0| && p.0[p.1] == slot
    ensures p.0 == SectionSlots(SectionOf(slot))
  {
    match slot
    case RawText => (CertificateSlots, 0)
    case ExtractedFields => (CertificateSlots, 1)
    case Confidence => (CertificateSlots, 2)
    case Criteria => (EvaluationSlots, 0)
    case Scores => (EvaluationSlots, 1)
    case FinalScore => (EvaluationSlots, 2)
    case LastUserMessage => (ConversationSlots, 0)
    case LastAgentMessage => (ConversationSlots, 1)
    case LastReason => (ConversationSlots, 2)
    case Uncertainty => (ConversationSlots, 3)
    case LastUserIntent => (ConversationSlots, 4)
    case PendingConfirmation => (ConversationSlots, 5)
    case ConversationHistory => (ConversationSlots, 6)
    case ReasoningHistory => (ConversationSlots, 7)
  }

  /** Where a slot stands in the restore order. */
  function Position(slot: Slot): (i: nat)
    ensures i < |Order| && Order[i] == slot
  {
    match slot
    case RawText => 0
    case ExtractedFields => 1
    case Confidence => 2
    case Criteria => 3
    case Scores => 4
    case FinalScore => 5
    case LastUserMessage => 6
    case LastAgentMessage => 7
    case LastReason => 8
    case Uncertainty => 9
    case LastUserIntent => 10
    case PendingConfirmation => 11
    case ConversationHistory => 12
    case ReasoningHistory => 13
  }

  /** The key a slot is saved under within its section. */
  function KeyOf(slot: Slot): string {
    match slot
    case RawText => "raw_text"
    case ExtractedFields => "extracted_fields"
    case Confidence => "confidence"
    case Criteria => "criteria"
    case Scores => "scores"
    case FinalScore => "final_score"
    case LastUserMessage => "last_user_message"
    case LastAgentMessage => "last_agent_message"
    case LastReason => "last_reason"
    case Uncertainty => "uncertainty"
    case LastUserIntent => "last_user_intent"
    case PendingConfirmation => "pending_confirmation"
    case ConversationHistory => "conversation_history"
    case ReasoningHistory => "reasoning_history"
  }

  /** The value of a slot in a state, as it is written. */
  function Read(s: State, slot: Slot): Value {
    match slot
    case RawText => Str(s.certificate.rawText)
    case ExtractedFields => Fields(s.certificate.extractedFields)
    case Confidence => Weights(s.certificate.confidence)
    case Criteria => Weights(s.evaluation.criteria)
    case Scores => Weights(s.evaluation.scores)
    case FinalScore => Number(s.evaluation.finalScore)
    case LastUserMessage => Str(s.conversation.lastUserMessage)
    case LastAgentMessage => Str(s.conversation.lastAgentMessage)
    case LastReason => Str(s.conversation.lastReason)
    case Uncertainty => Str(s.conversation.uncertainty)
    case LastUserIntent => Str(s.conversation.lastUserIntent)
    case PendingConfirmation => Flag(s.conversation.pendingConfirmation)
    case ConversationHistory => Turns(s.conversation.history)
    case ReasoningHistory => Thoughts(s.conversation.reasoning)
  }

  /** Whether a value has the shape a slot holds. */
  predicate Fits(slot: Slot, v: Value) {
    match slot
    case RawText | LastUserMessage | LastAgentMessage | LastReason | Uncertainty | LastUserIntent => v.Str?
    case ExtractedFields => v.Fields?
    case Confidence | Criteria | Scores => v.Weights?
    case FinalScore => v.Number?
    case PendingConfirmation => v.Flag?
    case ConversationHistory => v.Turns?
    case ReasoningHistory => v.Thoughts?
  }

  /** The state with one slot set to a value of its shape. */
  function Assign(s: State, slot: Slot, v: Value): (r: State)
    requires Fits(slot, v)
    ensures Read(r, slot) == v
  {
    var c := s.certificate;
    var e := s.evaluation;
    var k := s.conversation;
    match slot
    case RawText => s.(certificate := c.(rawText := v.text))
    case ExtractedFields => s.(certificate := c.(extractedFields := v.fields))
    case Confidence => s.(certificate := c.(confidence := v.weights))
    case Criteria => s.(evaluation := e.(criteria := v.weights))
    case Scores => s.(evaluation := e.(scores := v.weights))
    case FinalScore => s.(evaluation := e.(finalScore := v.number))
    case LastUserMessage => s.(conversation := k.(lastUserMessage := v.text))
    case LastAgentMessage => s.(conversation := k.(lastAgentMessage := v.text))
    case LastReason => s.(conversation := k.(lastReason := v.text))
    case Uncertainty => s.(conversation := k.(uncertainty := v.text))
    case LastUserIntent => s.(conversation := k.(lastUserIntent := v.text))
    case PendingConfirmation => s.(conversation := k.(pendingConfirmation := v.flag))
    case ConversationHistory => s.(conversation := k.(history := v.turns))
    case ReasoningHistory => s.(conversation := k.(reasoning := v.thoughts))
  }

  /** Setting one slot leaves every other slot as it was. */
  lemma AssignKeeps(s: State, slot: Slot, v: Value, other: Slot)
    requires Fits(slot, v) && other != slot
    ensures Read(Assign(s, slot, v), other) == Read(s, other)
  {
  }

  /** Two states agreeing on every slot are equal: the fourteen slots are
      the whole state. */
  lemma SlotsDetermineState(r: State, t: State)
    requires forall slot :: Read(r, slot) == Read(t, slot)
    ensures r == t
  {
    assert Read(r, RawText) == Read(t, RawText);
    assert Read(r, ExtractedFields) == Read(t, ExtractedFields);
    assert Read(r, Confidence) == Read(t, Confidence);
    assert Read(r, Criteria) == Read(t, Criteria);
    assert Read(r, Scores) == Read(t, Scores);
    assert Read(r, FinalScore) == Read(t, FinalScore);
    assert Read(r, LastUserMessage) == Read(t, LastUserMessage);
    assert Read(r, LastAgentMessage) == Read(t, LastAgentMessage);
    assert Read(r, LastReason) == Read(t, LastReason);
    assert Read(r, Uncertainty) == Read(t, Uncertainty);
    assert Read(r, LastUserIntent) == Read(t, LastUserIntent);
    assert Read(r, PendingConfirmation) == Read(t, PendingConfirmation);
    assert Read(r, ConversationHistory) == Read(t, ConversationHistory);
    assert Read(r, ReasoningHistory) == Read(t, ReasoningHistory);
  }

  /** `data[section][key]`: `None` where Python raises, because the section
      is missing or not an object, or the key is missing. */
  function Lookup(doc: Document, section: string, key: string): Option<Value> {
    if section in doc && doc[section].Section? && key in doc[section].members
    then Some(doc[section].members[key])
    else None
  }

  /** A slot with what the document holds for it. */
  type Entry = (Slot, Option<Value>)

  /** The lookups for a list of slots, in order. */
  function Found(doc: Document, slots: seq<Slot>): (r: seq<Entry>)
    ensures |r| == |slots|
    ensures forall i :: 0 <= i < |slots| ==> r[i] == (slots[i], Lookup(doc, SectionOf(slots[i]), KeyOf(slots[i])))
  {
    seq(|slots|, i requires 0 <= i < |slots| => (slots[i], Lookup(doc, SectionOf(slots[i]), KeyOf(slots[i]))))
  }

  /** Whether an entry can be restored: present, and of its slot's shape. */
  predicate Usable(e: Entry) {
    e.1.Some? && Fits(e.0, e.1.value)
  }

  // Saving.

  /** The members of one section: each slot's value under its key. */
  function Members(s: State, slots: seq<Slot>): (m: map<string, Value>)
    ensures |m| <= |slots|
  {
    if |slots| == 0 then map[]
    else Members(s, slots[1..])[KeyOf(slots[0]) := Read(s, slots[0])]
  }

  /** The document `save_state` writes: the timestamp and the three
      sections. */
  function Snapshot(s: State, timestamp: string): (doc: Document)
    ensures doc.Keys == {"timestamp", "certificate", "evaluation", "conversation"}
  {
    map["timestamp" := Str(timestamp),
        "certificate" := Section(Members(s, CertificateSlots)),
        "evaluation" := Section(Members(s, EvaluationSlots)),
        "conversation" := Section(Members(s, ConversationSlots))]
  }

  /** Where a save fails, if it does: opening the current-session file or
      the history file. A failed open leaves that file as it was. */
  datatype Fault = Sound | CurrentFails | HistoryFails

  /** The history file name for a `%Y%m%d_%H%M%S` stamp. */
  function HistoryName(stamp: string): string {
    "session_" + stamp + ".json"
  }

  /** `save_state`: the snapshot goes to the current-session file and then
      to a history file named by the stamp. `timestamp` and `stamp` stand
      for the two readings of the clock. The result is true exactly when
      both writes happen. */
  function SaveState(disk: Disk, s: State, timestamp: string, stamp: string, fault: Fault): (r: (Disk, bool))
    ensures r.1 <==> fault.Sound?
    ensures !fault.CurrentFails? ==> r.0.current == Saved(Snapshot(s, timestamp))
    ensures fault.CurrentFails? ==> r.0 == disk
    ensures fault.Sound? ==> Get(r.0.history, HistoryName(stamp)) == Some(Saved(Snapshot(s, timestamp)))
    ensures !fault.Sound? ==> r.0.history == disk.history
    ensures |r.0.history| >= |disk.history|
    ensures forall j :: 0 <= j < |disk.history| && disk.history[j].0 != HistoryName(stamp) ==>
              r.0.history[j] == disk.history[j]
  {
    var doc := Saved(Snapshot(s, timestamp));
    match fault
    case CurrentFails => (disk, false)
    case HistoryFails => (disk.(current := doc), false)
    case Sound => (Disk(doc, Put(disk.history, HistoryName(stamp), doc)), true)
  }

  // Loading.

  /** The in-place restore: entries are copied in order until the first
      one that is missing or of the wrong shape. The count says how many
      were copied: all of them exactly when every entry is usable. */
  function Restore(s: State, entries: seq<Entry>): (r: (State, nat))
    ensures r.1 <= |entries|
    ensures forall i :: 0 <= i < r.1 ==> Usable(entries[i])
    ensures r.1 < |entries| ==> !Usable(entries[r.1])
    decreases |entries|
  {
    if |entries| == 0 || !Usable(entries[0]) then (s, 0)
    else
      var rest := Restore(Assign(s, entries[0].0, entries[0].1.value), entries[1..]);
      (rest.0, rest.1 + 1)
  }

  /** `load_state`: with no current-session file the state is returned as
      given; a file that does not decode raises before any change; otherwise
      the slots are restored in order and the state is returned as far as
      the restore got. */
  function LoadState(disk: Disk, s: State): (r: State)
    ensures !disk.current.Saved? ==> r == s
    ensures disk.current.Saved? ==> r == Restore(s, Found(disk.current.doc, Order)).0
  {
    match disk.current
    case Saved(doc) => Restore(s, Found(doc, Order)).0
    case _ => s
  }

  // Clearing, listing and summarising.

  /** `clear_session`: the current-session file is removed, the history
      directory is not touched. `fails` is a failed unlink, which leaves the
      disk as it was and answers false. */
  function ClearSession(disk: Disk, fails: bool): (r: (Disk, bool))
    ensures r.1 <==> !fails
    ensures r.0.history == disk.history
    ensures !fails ==> r.0.current == Missing
    ensures fails ==> r.0 == disk
  {
    if fails then (disk, false) else (disk.(current := Missing), true)
  }

  /** A name the pattern `session_*.json` matches. */
  predicate IsSessionName(name: string) {
    |name| >= 13 && StartsWith(name, "session_") && EndsWith(name, ".json")
  }

  /** Code-point lexicographic order on strings, strict. */
  predicate Below(a: string, b: string)
    decreases |a|
  {
    if |a| == 0 then |b| > 0
    else |b| > 0 && (a[0] < b[0] || (a[0] == b[0] && Below(a[1..], b[1..])))
  }

  lemma {:induction false} BelowAsymmetric(a: string, b: string)
    ensures Below(a, b) ==> !Below(b, a)
    decreases |a|
  {
    if |a| > 0 && |b| > 0 && a[0] == b[0] {
      BelowAsymmetric(a[1..], b[1..]);
    }
  }

  /** Newest first: no name is below the one after it. */
  predicate Descending(names: seq<string>) {
    forall i :: 0 < i < |names| ==> !Below(names[i - 1], names[i])
  }

  /** The names `session_*.json` matches, in directory order. */
  function SessionNames(names: seq<string>): (r: seq<string>)
    ensures forall n :: n in r <==> n in names && IsSessionName(n)
    ensures multiset(r) <= multiset(names)
    ensures forall n :: multiset(r)[n] == if IsSessionName(n) then multiset(names)[n] else 0
  {
    if |names| == 0 then []
    else
      var rest := SessionNames(names[1..]);
      assert names == [names[0]] + names[1..];
      assert multiset(names) == multiset{names[0]} + multiset(names[1..]);
      if IsSessionName(names[0]) then [names[0]] + rest else rest
  }

  /** One insertion step of the descending sort. */
  function Insert(n: string, sorted: seq<string>): (r: seq<string>)
    requires Descending(sorted)
    ensures Descending(r)
    ensures multiset(r) == multiset(sorted) + multiset{n}
    ensures |r| > 0 && (r[0] == n || (|sorted| > 0 && r[0] == sorted[0]))
  {
    if |sorted| == 0 || !Below(n, sorted[0]) then [n] + sorted
    else
      var rest := Insert(n, sorted[1..]);
      BelowAsymmetric(n, sorted[0]);
      assert sorted == [sorted[0]] + sorted[1..];
      [sorted[0]] + rest
  }

  /** `sorted(..., reverse=True)` on names. */
  function SortDescending(names: seq<string>): (r: seq<string>)
    ensures Descending(r)
    ensures multiset(r) == multiset(names)
  {
    if |names| == 0 then []
    else
      assert names == [names[0]] + names[1..];
      Insert(names[0], SortDescending(names[1..]))
  }

  /** `list_sessions`: the history names `session_*.json` matches, in
      descending code-point order, which for stamped names is newest
      first. Each matching file is listed as often as the directory holds
      it, so once when its names are distinct. */
  function ListSessions(disk: Disk): (r: seq<string>)
    ensures Descending(r)
    ensures forall n :: n in r <==> HasKey(disk.history, n) && IsSessionName(n)
    ensures forall n :: multiset(r)[n] == if IsSessionName(n) then multiset(Keys(disk.history))[n] else 0
    ensures UniqueKeys(disk.history) ==> forall i, j :: 0 <= i < j < |r| ==> r[i] != r[j]
  {
    var names := SessionNames(Keys(disk.history));
    var r := SortDescending(names);
    assert forall n :: n in r <==> n in multiset(r);
    assert forall n :: HasKey(disk.history, n) <==> n in Keys(disk.history);
    assert UniqueKeys(disk.history) ==> forall i, j :: 0 <= i < j < |r| ==> r[i] != r[j] by {
      if UniqueKeys(disk.history) {
        FewerRepeats(Keys(disk.history), r);
      }
    }
    r
  }

  /** A list holding each name at most as often as a list without
      repeats has no repeats either. */
  lemma FewerRepeats(ks: seq<string>, r: seq<string>)
    requires forall i, j :: 0 <= i < j < |ks| ==> ks[i] != ks[j]
    requires forall n :: multiset(r)[n] <= multiset(ks)[n]
    ensures forall i, j :: 0 <= i < j < |r| ==> r[i] != r[j]
  {
    DistinctOnce(ks);
    forall i, j | 0 <= i < j < |r| ensures r[i] != r[j] {
      OnceDistinct(r, i, j);
    }
  }

  /** What `get_session_summary` reports. `Unreadable` is the error
      message; `timestamp` is the saved value or `Unknown`. */
  datatype Summary =
    | NoSession
    | Unreadable
    | Session(timestamp: Value, conversations: nat, fields: nat, criteria: nat)

  /** `len(value)`: defined on strings, maps and lists, a TypeError
      otherwise. */
  function Length(v: Value): Option<nat> {
    match v
    case Str(t) => Some(|t|)
    case Fields(f) => Some(|f|)
    case Weights(w) => Some(|w|)
    case Turns(t) => Some(|t|)
    case Thoughts(t) => Some(|t|)
    case Section(m) => Some(|m|)
    case _ => None
  }

  /** The length of a looked-up value, `None` where Python raises. */
  function Size(v: Option<Value>): Option<nat> {
    if v.Some? then Length(v.value) else None
  }

  /** `get_session_summary`: nothing without a current-session file, an
      error for a file that does not decode or lacks a counted member, else
      the timestamp and the three counts. */
  function SessionSummary(disk: Disk): (r: Summary)
    ensures disk.current.Missing? <==> r.NoSession?
    ensures disk.current.Corrupt? ==> r.Unreadable?
    ensures r.Session? ==>
              var doc := disk.current.doc;
              && r.timestamp == (if "timestamp" in doc then doc["timestamp"] else Str("Unknown"))
              && Size(Lookup(doc, "conversation", "conversation_history")) == Some(r.conversations)
              && Size(Lookup(doc, "certificate", "extracted_fields")) == Some(r.fields)
              && Size(Lookup(doc, "evaluation", "criteria")) == Some(r.criteria)
    ensures disk.current.Saved? && r.Unreadable? ==>
              var doc := disk.current.doc;
              || Size(Lookup(doc, "conversation", "conversation_history")).None?
              || Size(Lookup(doc, "certificate", "extracted_fields")).None?
              || Size(Lookup(doc, "evaluation", "criteria")).None?
  {
    match disk.current
    case Missing => NoSession
    case Corrupt => Unreadable
    case Saved(doc) =>
      var conversations := Size(Lookup(doc, "conversation", "conversation_history"));
      var fields := Size(Lookup(doc, "certificate", "extracted_fields"));
      var criteria := Size(Lookup(doc, "evaluation", "criteria"));
      if conversations.Some? && fields.Some? && criteria.Some? then
        Session((if "timestamp" in doc then doc["timestamp"] else Str("Unknown")), conversations.value, fields.value, criteria.value)
      else Unreadable
  }

  // Properties.

  /** Each slot restored holds the entry's value. */
  lemma {:induction false} RestoreCopies(s: State, entries: seq<Entry>, i: nat)
    requires forall j, k :: 0 <= j < k < |entries| ==> entries[j].0 != entries[k].0
    requires i < Restore(s, entries).1
    ensures entries[i].1 == Some(Read(Restore(s, entries).0, entries[i].0))
    decreases |entries|
  {
    var t := Assign(s, entries[0].0, entries[0].1.value);
    var rest := entries[1..];
    if i == 0 {
      forall j | 0 <= j < Restore(t, rest).1 ensures rest[j].0 != entries[0].0 {
        assert rest[j] == entries[j + 1];
      }
      RestoreKeeps(t, rest, entries[0].0);
    } else {
      assert rest[i - 1] == entries[i];
      RestoreCopies(t, rest, i - 1);
    }
  }

  /** A slot the restore did not reach keeps the value it had. */
  lemma {:induction false} RestoreKeeps(s: State, entries: seq<Entry>, slot: Slot)
    requires forall i :: 0 <= i < Restore(s, entries).1 ==> entries[i].0 != slot
    ensures Read(Restore(s, entries).0, slot) == Read(s, slot)
    decreases |entries|
  {
    if |entries| > 0 && Usable(entries[0]) {
      var t := Assign(s, entries[0].0, entries[0].1.value);
      var rest := entries[1..];
      forall i | 0 <= i < Restore(t, rest).1 ensures rest[i].0 != slot {
        assert rest[i] == entries[i + 1];
      }
      RestoreKeeps(t, rest, slot);
      AssignKeeps(s, entries[0].0, entries[0].1.value, slot);
    }
  }

  /** Every slot is in the restore order, once. */
  lemma OrderComplete()
    ensures forall slot :: slot in Order
    ensures forall i, j :: 0 <= i < j < |Order| ==> Order[i] != Order[j]
    ensures |Order| == 14
  {
    forall slot ensures slot in Order {
      assert Order[Position(slot)] == slot;
    }
  }

  /** No two slots of a section share a key. */
  predicate DistinctKeys(slots: seq<Slot>) {
    forall i, j :: 0 <= i < j < |slots| ==> KeyOf(slots[i]) != KeyOf(slots[j])
  }

  lemma SectionKeysDistinct()
    ensures DistinctKeys(CertificateSlots) && DistinctKeys(EvaluationSlots) && DistinctKeys(ConversationSlots)
  {
    assert KeyOf(LastUserMessage)[0] != KeyOf(ReasoningHistory)[0];
    assert KeyOf(LastReason)[0] != KeyOf(Uncertainty)[0];
    assert KeyOf(PendingConfirmation)[0] != KeyOf(ConversationHistory)[0];
  }

  /** In a section without repeated keys, every slot's value is found
      under its key. */
  lemma {:induction false} MembersHold(s: State, slots: seq<Slot>, i: nat)
    requires DistinctKeys(slots) && i < |slots|
    ensures KeyOf(slots[i]) in Members(s, slots)
    ensures Members(s, slots)[KeyOf(slots[i])] == Read(s, slots[i])
    decreases |slots|
  {
    if i > 0 {
      assert slots[1..][i - 1] == slots[i];
      assert KeyOf(slots[0]) != KeyOf(slots[i]);
      MembersHold(s, slots[1..], i - 1);
    }
  }

  /** A slot's value is found in the snapshot where loading looks for it. */
  lemma SnapshotHolds(s: State, timestamp: string, slot: Slot)
    ensures Lookup(Snapshot(s, timestamp), SectionOf(slot), KeyOf(slot)) == Some(Read(s, slot))
  {
    var p := Place(slot);
    SectionKeysDistinct();
    MembersHold(s, p.0, p.1);
  }

  /** A document holds a state when every slot's value is where loading
      looks for it. */
  predicate Holds(doc: Document, s: State) {
    forall slot :: Lookup(doc, SectionOf(slot), KeyOf(slot)) == Some(Read(s, slot))
  }

  /** Restoring from a document that holds a state gives that state, whatever
      the state restored into. */
  lemma RestoreAll(doc: Document, s: State, t: State)
    requires Holds(doc, s)
    ensures Restore(t, Found(doc, Order)).0 == s
  {
    var entries := Found(doc, Order);
    FoundInOrder(doc, s);
    var r := Restore(t, entries);
    assert r.1 == |entries|;
    forall slot ensures Read(r.0, slot) == Read(s, slot) {
      var i := Position(slot);
      RestoreCopies(t, entries, i);
    }
    SlotsDetermineState(r.0, s);
  }

  /** From a document holding a state, every lookup in restore order is
      usable, carries the state's value, and no slot is looked up twice. */
  lemma FoundInOrder(doc: Document, s: State)
    requires Holds(doc, s)
    ensures var entries := Found(doc, Order);
            && (forall i :: 0 <= i < |entries| ==> entries[i] == (Order[i], Some(Read(s, Order[i]))))
            && (forall i :: 0 <= i < |entries| ==> Usable(entries[i]))
            && (forall j, k :: 0 <= j < k < |entries| ==> entries[j].0 != entries[k].0)
  {
    OrderComplete();
    var entries := Found(doc, Order);
    forall i | 0 <= i < |entries| ensures Usable(entries[i]) {
      ReadFits(s, Order[i]);
    }
  }

  /** What a slot reads has that slot's shape. */
  lemma ReadFits(s: State, slot: Slot)
    ensures Fits(slot, Read(s, slot))
  {
  }

  /** Loading what was just saved gives back the saved state, whatever the
      state being loaded into: all fourteen slots are overwritten and the
      timestamp is not restored anywhere. */
  lemma LoadAfterSave(disk: Disk, s: State, t: State, timestamp: string, stamp: string, fault: Fault)
    requires !fault.CurrentFails?
    ensures LoadState(SaveState(disk, s, timestamp, stamp, fault).0, t) == s
  {
    forall slot ensures Lookup(Snapshot(s, timestamp), SectionOf(slot), KeyOf(slot)) == Some(Read(s, slot)) {
      SnapshotHolds(s, timestamp, slot);
    }
    RestoreAll(Snapshot(s, timestamp), s, t);
  }

  /** A save whose history write fails still replaced the current session:
      it answers false, yet a load restores the new state. */
  lemma FailedSaveStillLoads(disk: Disk, s: State, t: State, timestamp: string, stamp: string)
    ensures var r := SaveState(disk, s, timestamp, stamp, HistoryFails);
            !r.1 && LoadState(r.0, t) == s
  {
    LoadAfterSave(disk, s, t, timestamp, stamp, HistoryFails);
  }

  /** A document holding the certificate and evaluation slots of `s` but
      no conversation section restores those six slots and then stops: the
      conversation is the one the state already had. */
  lemma {:induction false} RestoreWithoutConversation(doc: Document, s: State, t: State)
    requires forall i :: 0 <= i < 6 ==> Lookup(doc, SectionOf(Order[i]), KeyOf(Order[i])) == Some(Read(s, Order[i]))
    requires "conversation" !in doc
    ensures Restore(t, Found(doc, Order)).0 == t.(certificate := s.certificate, evaluation := s.evaluation)
  {
    var expected := t.(certificate := s.certificate, evaluation := s.evaluation);
    OrderComplete();
    var entries := Found(doc, Order);
    var r := Restore(t, entries);
    assert !Usable(entries[6]);
    assert r.1 == 6;
    forall slot ensures Read(r.0, slot) == Read(expected, slot) {
      if slot in Order[..6] {
        var i :| 0 <= i < 6 && Order[i] == slot;
        RestoreCopies(t, entries, i);
      } else {
        RestoreKeeps(t, entries, slot);
      }
    }
    SlotsDetermineState(r.0, expected);
  }

  /** A snapshot without its conversation section restores the certificate
      and the evaluation and then stops: a missing key aborts the load
      midway and the partly overwritten state is what it returns. */
  lemma LostConversationKeepsInput(s: State, t: State, timestamp: string)
    ensures LoadState(Disk(Saved(Snapshot(s, timestamp) - {"conversation"}), []), t)
         == t.(certificate := s.certificate, evaluation := s.evaluation)
  {
    var doc := Snapshot(s, timestamp) - {"conversation"};
    forall i | 0 <= i < 6 ensures Lookup(doc, SectionOf(Order[i]), KeyOf(Order[i])) == Some(Read(s, Order[i])) {
      SnapshotHolds(s, timestamp, Order[i]);
    }
    RestoreWithoutConversation(doc, s, t);
  }

  /** Without a current session, loading and the summary leave everything
      as it is, even when history snapshots exist: clearing forgets the
      session for both, and the history list is unchanged. */
  lemma ClearForgetsSession(disk: Disk, t: State)
    ensures var r := ClearSession(disk, false).0;
            && LoadState(r, t) == t
            && SessionSummary(r) == NoSession
            && ListSessions(r) == ListSessions(disk)
  {
  }

  /** The summary of a document holding a state's counted members. */
  lemma SummaryCounts(doc: Document, history: Dict<Stored>, s: State, timestamp: Value)
    requires Lookup(doc, "conversation", "conversation_history") == Some(Turns(s.conversation.history))
    requires Lookup(doc, "certificate", "extracted_fields") == Some(Fields(s.certificate.extractedFields))
    requires Lookup(doc, "evaluation", "criteria") == Some(Weights(s.evaluation.criteria))
    requires "timestamp" in doc && doc["timestamp"] == timestamp
    ensures SessionSummary(Disk(Saved(doc), history))
         == Session(timestamp, |s.conversation.history|, |s.certificate.extractedFields|, |s.evaluation.criteria|)
  {
  }

  /** The summary of a saved state: its timestamp, the number of
      exchanges, extracted fields and criteria. */
  lemma SummaryAfterSave(disk: Disk, s: State, timestamp: string, stamp: string)
    ensures SessionSummary(SaveState(disk, s, timestamp, stamp, Sound).0)
         == Session(Str(timestamp), |s.conversation.history|, |s.certificate.extractedFields|, |s.evaluation.criteria|)
  {
    var doc := Snapshot(s, timestamp);
    SnapshotHolds(s, timestamp, ConversationHistory);
    SnapshotHolds(s, timestamp, ExtractedFields);
    SnapshotHolds(s, timestamp, Criteria);
    SummaryCounts(doc, SaveState(disk, s, timestamp, stamp, Sound).0.history, s, Str(timestamp));
  }

  /** A sound save lists its history file. */
  lemma SaveIsListed(disk: Disk, s: State, timestamp: string, stamp: string)
    ensures HistoryName(stamp) in ListSessions(SaveState(disk, s, timestamp, stamp, Sound).0)
  {
    var name := HistoryName(stamp);
    assert name == "session_" + (stamp + ".json");
    assert name[..8] == "session_";
    assert name[|name| - 5..] == ".json";
  }
}

=== FILE: text.dfy ===
/** The string operations the handlers use: Python's `str.lower`, `in`,
    `strip`, `replace`, `find`/`rfind`, `split`/`join`, slicing, and the
    fixed-point number formatting of f-strings. Strings are `seq<char>`. */
module Text {

  /** `str.lower` on one character. Only the ASCII letters are folded. */
  function LowerChar(c: char): char {
    if 'A' <= c <= 'Z' then (c as int + 32) as char else c
  }

  /** `str.lower`: folds every ASCII capital, keeps every other character. */
  function Lower(s: string): (r: string)
    ensures |r| == |s|
    ensures forall i :: 0 <= i < |s| ==> r[i] == LowerChar(s[i])
    ensures forall i :: 0 <= i < |r| ==> !('A' <= r[i] <= 'Z')
  {
    seq(|s|, i requires 0 <= i < |s| => LowerChar(s[i]))
  }

  /** Lowering twice is lowering once. */
  lemma LowerIdempotent(s: string)
    ensures Lower(Lower(s)) == Lower(s)
  {
  }

  /** `s.startswith(p)`. */
  predicate StartsWith(s: string, p: string) {
    |p| <= |s| && s[..|p|] == p
  }

  /** `s.endswith(p)`. */
  predicate EndsWith(s: string, p: string) {
    |p| <= |s| && s[|s| - |p|..] == p
  }

  /** Python's substring test `t in s`, by scanning start positions. */
  predicate Contains(s: string, t: string)
    decreases |s|
  {
    StartsWith(s, t) || (|s| > 0 && Contains(s[1..], t))
  }

  /** `t` occurs in `s` at some position: the textbook meaning of `t in s`. */
  ghost predicate Occurs(s: string, t: string) {
    exists i :: OccursAt(s, t, i)
  }

  /** `t` sits in `s` starting at position `i`. */
  ghost predicate OccursAt(s: string, t: string, i: int) {
    0 <= i && i + |t| <= |s| && s[i..i + |t|] == t
  }

  /** The scanning definition agrees with the occurrence one, both ways. */
  lemma {:induction false} ContainsIffOccurs(s: string, t: string)
    ensures Contains(s, t) <==> Occurs(s, t)
    decreases |s|
  {
    if |s| > 0 {
      ContainsIffOccurs(s[1..], t);
      if Occurs(s[1..], t) {
        var i :| OccursAt(s[1..], t, i);
        TailSlice(s, i, |t|);
        assert OccursAt(s, t, i + 1);
      }
      if StartsWith(s, t) {
        assert OccursAt(s, t, 0);
      }
      if Occurs(s, t) && !StartsWith(s, t) {
        var i :| OccursAt(s, t, i);
        assert i != 0;
        TailSlice(s, i - 1, |t|);
        assert OccursAt(s[1..], t, i - 1);
      }
    } else {
      if Occurs(s, t) {
        var i :| OccursAt(s, t, i);
        assert |t| == 0;
      }
      if |t| == 0 {
        assert OccursAt(s, t, 0);
      }
    }
  }

  /** A slice of the tail is the slice of the whole one position later. */
  lemma TailSlice(s: string, i: nat, n: nat)
    requires 0 < |s| && i + n <= |s| - 1
    ensures s[1..][i..i + n] == s[i + 1..i + 1 + n]
  {
    var a, b := s[1..][i..i + n], s[i + 1..i + 1 + n];
    forall k | 0 <= k < n ensures a[k] == b[k] {
    }
  }

  /** Every character of a contained text occurs in the container; used to
      refute concrete substring tests. */
  lemma {:induction false} ContainedCharsOccur(s: string, t: string, k: nat)
    requires Contains(s, t) && k < |t|
    ensures t[k] in s
    decreases |s|
  {
    if StartsWith(s, t) {
      assert s[k] == t[k];
    } else {
      ContainedCharsOccur(s[1..], t, k);
    }
  }

  /** Python's `any(w in s for w in words)`. */
  predicate ContainsAny(s: string, words: seq<string>) {
    exists i :: 0 <= i < |words| && Contains(s, words[i])
  }

  /** Containment only depends on the text looked for. */
  lemma ContainsSame(s: string, u: string, v: string)
    requires Contains(s, u) && u == v
    ensures Contains(s, v)
  {
  }

  /** A text contains whatever sits anywhere inside it. */
  lemma ContainsMiddle(a: string, b: string, c: string)
    ensures Contains(a + b + c, b)
  {
    assert OccursAt(a + b + c, b, |a|);
    ContainsIffOccurs(a + b + c, b);
  }

  /** Whatever the middle of a text contains, the text contains. */
  lemma ContainsInMiddle(a: string, b: string, c: string, u: string)
    requires Contains(b, u)
    ensures Contains(a + b + c, u)
  {
    ContainsMiddle(a, b, c);
    ContainsWithin(a + b + c, b, u);
  }

  /** Containment is transitive: a text holding `t` holds every part of `t`. */
  lemma ContainsWithin(s: string, t: string, u: string)
    requires Contains(s, t) && Contains(t, u)
    ensures Contains(s, u)
  {
    ContainsIffOccurs(s, t);
    ContainsIffOccurs(t, u);
    var i :| OccursAt(s, t, i);
    var j :| OccursAt(t, u, j);
    forall k | 0 <= k < |u|
      ensures s[i + j..i + j + |u|][k] == u[k]
    {
      assert u[k] == t[j + k] == s[i..i + |t|][j + k];
    }
    assert OccursAt(s, u, i + j);
    ContainsIffOccurs(s, u);
  }

  /** Lowering keeps containment: a text holding `t` holds `t` lowered
      once it is lowered itself. */
  lemma LowerKeepsContains(s: string, t: string)
    requires Contains(s, t)
    ensures Contains(Lower(s), Lower(t))
  {
    ContainsIffOccurs(s, t);
    var i :| OccursAt(s, t, i);
    var w := Lower(s)[i..i + |t|];
    forall k | 0 <= k < |t| ensures w[k] == Lower(t)[k] {
      assert s[i + k] == t[k];
    }
    assert OccursAt(Lower(s), Lower(t), i);
    ContainsIffOccurs(Lower(s), Lower(t));
  }

  /** The concatenation of `parts`: the string built by `+=` in a loop. */
  function Concat(parts: seq<string>): string
    decreases |parts|
  {
    if |parts| == 0 then "" else parts[0] + Concat(parts[1..])
  }

  /** Every part occurs in the concatenation. */
  lemma {:induction false} ConcatContains(parts: seq<string>, i: nat)
    requires i < |parts|
    ensures Contains(Concat(parts), parts[i])
    decreases i
  {
    if i == 0 {
      ContainsMiddle("", parts[0], Concat(parts[1..]));
      assert "" + parts[0] + Concat(parts[1..]) == Concat(parts);
    } else {
      ConcatContains(parts[1..], i - 1);
      ContainsMiddle(parts[0], Concat(parts[1..]), "");
      assert parts[0] + Concat(parts[1..]) + "" == Concat(parts);
      ContainsWithin(Concat(parts), Concat(parts[1..]), parts[i]);
    }
  }

  /** `str.isspace` on one character: the characters Unicode classes as
      spaces or separators, or gives a whitespace bidirectional class —
      the ASCII whitespace and separator controls, NEL, NO-BREAK SPACE,
      OGHAM SPACE MARK, the spaces U+2000 to U+200A, the line and
      paragraph separators, and the narrow, mathematical and ideographic
      spaces. */
  predicate IsSpace(c: char) {
    var n := c as int;
    || n == 32 || 9 <= n <= 13 || 28 <= n <= 31 || n == 0x85 || n == 0xA0
    || n == 0x1680 || 0x2000 <= n <= 0x200A || n == 0x2028 || n == 0x2029
    || n == 0x202F || n == 0x205F || n == 0x3000
  }

  /** `str.lstrip()`: drops the leading whitespace and nothing else. */
  function TrimStart(s: string): (r: string)
    ensures |r| <= |s| && r == s[|s| - |r|..]
    ensures |r| > 0 ==> !IsSpace(r[0])
    ensures forall i :: 0 <= i < |s| - |r| ==> IsSpace(s[i])
    decreases |s|
  {
    if |s| > 0 && IsSpace(s[0]) then TrimStart(s[1..]) else s
  }

  /** `str.rstrip()`: drops the trailing whitespace and nothing else. */
  function TrimEnd(s: string): (r: string)
    ensures |r| <= |s| && r == s[..|r|]
    ensures |r| > 0 ==> !IsSpace(r[|r| - 1])
    ensures forall i :: |r| <= i < |s| ==> IsSpace(s[i])
    decreases |s|
  {
    if |s| > 0 && IsSpace(s[|s| - 1]) then TrimEnd(s[..|s| - 1]) else s
  }

  /** `str.strip()`: the result is a slice of `s` that neither starts nor
      ends with whitespace, and everything cut off on either side is
      whitespace. */
  function Strip(s: string): (r: string)
    ensures exists a :: StripsTo(s, r, a)
    ensures |r| > 0 ==> !IsSpace(r[0]) && !IsSpace(r[|r| - 1])
  {
    var t := TrimStart(s);
    var r := TrimEnd(t);
    var a := |s| - |t|;
    assert r == s[a..a + |r|];
    forall i | a + |r| <= i < |s| ensures IsSpace(s[i]) {
      assert s[i] == t[i - a];
    }
    assert StripsTo(s, r, a);
    r
  }

  /** `r` is the slice of `s` at `a` and only whitespace lies around it. */
  predicate StripsTo(s: string, r: string, a: int) {
    && 0 <= a && a + |r| <= |s| && r == s[a..a + |r|]
    && (forall i :: 0 <= i < a ==> IsSpace(s[i]))
    && (forall i :: a + |r| <= i < |s| ==> IsSpace(s[i]))
  }

  /** `s.replace(c, "")` for a one-character pattern. */
  function Without(s: string, c: char): (r: string)
    ensures c !in r
    ensures |r| <= |s|
    ensures c !in s ==> r == s
    ensures forall x :: x in r ==> x in s
  {
    if |s| == 0 then ""
    else if s[0] == c then Without(s[1..], c)
    else [s[0]] + Without(s[1..], c)
  }

  /** `s.find(c)`: the first position of `c`, or -1. */
  function FirstIndex(s: string, c: char): (i: int)
    ensures -1 <= i < |s|
    ensures i == -1 <==> c !in s
    ensures i >= 0 ==> s[i] == c && c !in s[..i]
  {
    if |s| == 0 then -1
    else if s[0] == c then 0
    else
      var j := FirstIndex(s[1..], c);
      if j == -1 then -1 else j + 1
  }

  /** `s.rfind(c)`: the last position of `c`, or -1. */
  function LastIndex(s: string, c: char): (i: int)
    ensures -1 <= i < |s|
    ensures i == -1 <==> c !in s
    ensures i >= 0 ==> s[i] == c && c !in s[i + 1..]
  {
    if |s| == 0 then -1
    else if s[|s| - 1] == c then |s| - 1
    else LastIndex(s[..|s| - 1], c)
  }

  /** `s.split(sep)` for a one-character separator: at least one part, and
      no part contains the separator. */
  function Split(s: string, sep: char): (parts: seq<string>)
    ensures |parts| >= 1
    ensures forall i :: 0 <= i < |parts| ==> sep !in parts[i]
    decreases |s|
  {
    if |s| == 0 then [""]
    else
      var rest := Split(s[1..], sep);
      if s[0] == sep then [""] + rest
      else [[s[0]] + rest[0]] + rest[1..]
  }

  /** `sep.join(parts)`. */
  function Join(parts: seq<string>, sep: char): string
    decreases |parts|
  {
    if |parts| == 0 then ""
    else if |parts| == 1 then parts[0]
    else parts[0] + [sep] + Join(parts[1..], sep)
  }

  /** Joining the parts of a split gives back the original text. */
  lemma {:induction false} JoinSplit(s: string, sep: char)
    ensures Join(Split(s, sep), sep) == s
    decreases |s|
  {
    if |s| > 0 {
      var rest := Split(s[1..], sep);
      JoinSplit(s[1..], sep);
      if s[0] == sep {
        assert ([""] + rest)[1..] == rest;
      } else if |rest| > 1 {
        var parts := [[s[0]] + rest[0]] + rest[1..];
        assert parts[1..] == rest[1..];
        assert Join(rest, sep) == rest[0] + [sep] + Join(rest[1..], sep);
      }
    }
  }

  /** Python's `s[:n]`. */
  function Take(s: string, n: nat): (r: string)
    ensures |r| == if n < |s| then n else |s|
    ensures StartsWith(s, r)
  {
    if n < |s| then s[..n] else s
  }

  // Number rendering for f-strings. Python rounds the binary float; the
  // model rounds the exact real half away from zero.

  function DigitChar(d: nat): char
    requires d < 10
  {
    "0123456789"[d]
  }

  function NatToString(n: nat): string
    decreases n
  {
    if n < 10 then [DigitChar(n)] else NatToString(n / 10) + [DigitChar(n % 10)]
  }

  function Pow10(p: nat): nat {
    if p == 0 then 1 else 10 * Pow10(p - 1)
  }

  function PadZeros(s: string, width: nat): string
    decreases width - |s|
  {
    if |s| >= width then s else PadZeros("0" + s, width)
  }

  /** `f"{r:.{places}f}"`. */
  function Fixed(r: real, places: nat): string {
    var scaled := if r < 0.0 then -r * Pow10(places) as real else r * Pow10(places) as real;
    var m := (scaled + 0.5).Floor;
    var digits := PadZeros(NatToString(if m < 0 then 0 else m), places + 1);
    var cut := if |digits| >= places then |digits| - places else 0;
    (if r < 0.0 then "-" else "") + digits[..cut]
      + (if places > 0 then "." + digits[cut..] else "")
  }
}

=== FILE: validate.dfy ===
/** `validate_criteria` of actions/validate.py: the criteria the model read
    from the user's message replace the current ones wholesale; an empty
    or missing criteria map, which includes the parser's fallback, leaves
    them as they are. The weights are not checked to sum to 1, and the
    scores are not recomputed. */
module Validate {
  import opened Wrappers
  import opened Dicts
  import opened Text
  import opened States

  /** The `criteria` and `validation_message` members of the parsed reply,
      `None` when the member is missing. */
  datatype ValidationReply = ValidationReply(criteria: Option<Dict<real>>, message: Option<string>)

  /** What the reply is when the parser falls back. */
  const FallbackReply := ValidationReply(Some([]), Some("Failed to parse criteria"))

  /** The criteria the reply carries, a missing member being empty. */
  function NewCriteria(reply: ValidationReply): Dict<real> {
    reply.criteria.GetOr([])
  }

  function CriteriaList(criteria: Dict<real>): string {
    Join(seq(|criteria|, i requires 0 <= i < |criteria| =>
           "  - " + criteria[i].0 + ": weight=" + Fixed(criteria[i].1, 2)), '\n')
  }

  function AcceptedMessage(validation: string, criteria: Dict<real>): string {
    "✓ " + validation + "\n\n**Active Evaluation Criteria:**\n" + CriteriaList(criteria)
      + "\n\nThe certificate will now be evaluated based on these criteria.\n"
      + "You can modify criteria anytime or ask me to re-score the certificate."
  }

  const RejectedMessage :=
    "⚠️ Could not extract evaluation criteria from your message.\n\n"
    + "Please specify criteria more clearly, for example:\n"
    + "  - 'Evaluate based on GPA, Institution, and Degree'\n"
    + "  - 'Use 40% weight for GPA, 30% for Institution, 30% for Field'\n"
    + "  - 'Change criteria to prioritize Honors and Research'"

  /** `validate_criteria`. A non-empty criteria map replaces the criteria,
      whatever its weights sum to; otherwise the evaluation is kept. Scores
      and the final score are never touched, the certificate is kept, and
      exactly one entry is appended. */
  function ValidateCriteria(s: State, reply: ValidationReply): (r: State)
    ensures r.certificate == s.certificate
    ensures r.evaluation.scores == s.evaluation.scores
    ensures r.evaluation.finalScore == s.evaluation.finalScore
    ensures |NewCriteria(reply)| > 0 ==> r.evaluation.criteria == NewCriteria(reply)
    ensures |NewCriteria(reply)| > 0 ==>
              StartsWith(r.conversation.lastAgentMessage, "✓ " + reply.message.GetOr("Criteria updated"))
    ensures |NewCriteria(reply)| == 0 ==>
              r.evaluation == s.evaluation && r.conversation.lastAgentMessage == RejectedMessage
    ensures OnlyTalk(s.(evaluation := r.evaluation), r)
    ensures LoggedOnce(s, r, ValidateTag)
  {
    var criteria := NewCriteria(reply);
    if |criteria| > 0 then
      var msg := AcceptedMessage(reply.message.GetOr("Criteria updated"), criteria);
      assert msg == ("✓ " + reply.message.GetOr("Criteria updated")) + msg[|"✓ " + reply.message.GetOr("Criteria updated")|..];
      Record(WithMessage(s.(evaluation := s.evaluation.(criteria := criteria)), msg), ValidateTag)
    else
      Record(WithMessage(s, RejectedMessage), ValidateTag)
  }

  // Properties.

  /** The parser's fallback keeps the criteria. */
  lemma FallbackKeepsCriteria(s: State)
    ensures ValidateCriteria(s, FallbackReply).evaluation == s.evaluation
    ensures ValidateCriteria(s, FallbackReply).conversation.lastAgentMessage == RejectedMessage
  {
  }

  /** A second criteria message replaces the first one's criteria entirely:
      nothing of the earlier set survives a non-empty later one. */
  lemma LaterCriteriaWin(s: State, first: ValidationReply, second: ValidationReply)
    requires |NewCriteria(second)| > 0
    ensures ValidateCriteria(ValidateCriteria(s, first), second).evaluation.criteria == NewCriteria(second)
    ensures |ValidateCriteria(ValidateCriteria(s, first), second).conversation.history| == |s.conversation.history| + 2
  {
  }

  /** Scores computed for the old criteria stay after new criteria are set:
      their names no longer match the criteria until the next rescore. */
  lemma {:induction false} ScoresGoStale(s: State, reply: ValidationReply)
    requires Keys(s.evaluation.scores) == Keys(s.evaluation.criteria)
    requires |NewCriteria(reply)| > 0 && Keys(NewCriteria(reply)) != Keys(s.evaluation.criteria)
    ensures var e := ValidateCriteria(s, reply).evaluation;
            Keys(e.scores) != Keys(e.criteria)
  {
  }
}

=== FILE: wrappers.dfy ===
/** Small failure-carrying datatypes shared by every module of the model. */
module Wrappers {

  /** A value that may be absent: a missing dictionary key, a failed parse. */
  datatype Option<+T> = None | Some(value: T) {

    /** The carried value, or `default` when there is none. */
    function GetOr(default: T): T {
      match this
      case Some(v) => v
      case None => default
    }
  }
}
